=== FILE: README.md ===
# MangHoMagnet lobby discovery, modelled in Dafny

MangHoMagnet is a game plugin. It polls a DCInside gallery list page and
opens the posts that are new or whose list row changed. It pulls
`steam://joinlobby/<app>/<lobby>/<host>` links out of those pages and keeps
them in a bounded registry of lobby entries. Each entry records the posts
that mentioned it and a validity status. The status is checked with Steam
through a queue that is drained a few ids per frame. The plugin can also
join a lobby automatically once it is known to be valid. A companion
command-line crawler runs the same list-and-post loop and only collects
and counts the links.

This project models that core as pure functions over immutable values and
proves what the code promises about it:

- the string helpers: URL normalisation, view counts, the reply-count
  title suffix and the exact-date rewrite;
- the list parsing and the list-metadata change test, in both its plugin
  and its crawler variant;
- the Steam link scanner and parser;
- the lobby registry: upsert, provenance, eviction, id index and
  classification;
- the validation state machine: dispatch and completion;
- the join gate;
- the snapshot ordering and the join button label;
- one plugin poll and one crawler pass;
- the crawler's command-line arguments.

Modules, one per file:

| file | module | models |
|---|---|---|
| `wrappers.dfy` | `Wrappers` | `Option` |
| `text.dfy` | `Text` | whitespace, ASCII case folding, digits, `int.TryParse` |
| `scanning.dfy` | `Scanning` | leftmost, non-overlapping regex matching |
| `steam_links.dfy` | `SteamLinks` | `ExtractSteamLinks`, `TryParseLobbyLink` |
| `posts.dfy` | `Posts` | `PostInfo`, `NormalizeUrl`, view and reply counts, `HasListMetadataChanged` |
| `exact_date.dfy` | `ExactDate` | `NormalizeExactDateText` |
| `listing.dfy` | `Listing` | `TryExtractPostInfo`, `ExtractPostInfos` |
| `lobby.dfy` | `Lobby` | `LobbyEntry`, `PostSource`, settings, classification, sort rank |
| `registry.dfy` | `Registry` | the registry state, `AddLobbyEntry`, `TrimLobbyEntries` |
| `joining.dfy` | `Joining` | `TryJoinLobby`, `TryMarkAutoJoin`, `MarkAutoJoinAttempted` |
| `validation.dfy` | `Validation` | `ProcessLobbyChecks`, `OnLobbyDataUpdated` |
| `snapshot.dfy` | `Snapshot` | `GetLobbySnapshot`, `BuildJoinButtonLabel` |
| `poll.dfy` | `Poll` | the post loop of `PollOnceAsync` |
| `crawler.dfy` | `Crawler` | `GetArg`, `GetArgInt`, the settings and the post loop of the crawler's `Main` |

### How the state is represented

- The plugin's entries are mutable objects that more than one index can
  reach. The model gives each entry a handle, a natural number.
  `heap: map<nat, LobbyEntry>` holds every entry ever created.
- `order` is `_lobbyEntries`. `byLink` is `_lobbyByLink`, with its keys
  folded to lower case. `byId` is `_lobbyById`. `queue` is
  `_pendingLobbyChecks`. `version` is `_lobbyVersion`.
- `Registry.Inv` is the invariant that every operation preserves:
  - handles are allocated;
  - the list is duplicate-free;
  - the link index and the list agree;
  - ids resolve to entries with that lobby id;
  - queued ids are indexed;
  - every entry's sources have distinct URLs, ignoring case;
  - every entry's lobby fields are what its link parses to, and an entry
    whose link does not parse is Invalid with lobby id 0;
  - every entry whose link parses can be found through the id index.
- Every dictionary of the source that ignores case is keyed by the ASCII
  lower-case fold of its key.
- Time is a whole number of seconds, read from the clock and given as an
  input. The clock moves on while a post page is awaited. So the plugin's
  poll takes one reading per listed post (`times[i]` for `posts[i]`).
  The crawler takes two per post, `PostTimes.check` for the cooldown test
  and `PostTimes.stamp` for the fetch time. The readings are arbitrary:
  nothing assumes the clock never goes back.

### Behaviour of the code that the model keeps

- With validation switched off, or with mode `None`, a parsed entry
  becomes `Unknown`. Only `FormatOnly` makes it `Valid`
  (`src/MangHoMagnet/Plugin.cs:1908-1918`).
- Eviction removes an entry from the list and the link index only. The id
  index keeps pointing to the evicted entry (`Plugin.cs:1962-1971`). The
  model keeps evicted entries in `heap` for that reason.
- Suppose Steam checks are enabled, no check is pending and the interval
  has not elapsed. Then the entry keeps its status and member counts
  unchanged (`Plugin.cs:1920-1933`). When Steam checks are not available
  the entry becomes `SteamUnavailable` (`Plugin.cs:1941-1945`).
- A refused dispatch sets `SteamUnavailable` and clears the pending flag.
  It leaves the member counts as they were (`Plugin.cs:1841-1852`).
- "Parsed once" is guarded by `HasLobbyId`, that is, lobby id ≠ 0. A link
  whose lobby field is `0` is re-parsed on every sighting and never
  classified or queued (`Plugin.cs:1883-1957`, `2301`).
- A Steam answer joins through `TryJoinLobby(entry.Link, false)`, which
  looks the link up in the link index. If the answered entry has been
  evicted, the automatic attempt finds no entry and nothing is launched.
  If the link was added again since, the newer entry is the one checked
  and marked (`Plugin.cs:1795-1798`, `2091-2118`).

## Model

| member | source | states |
|---|---|---|
| Text.ParseInteger | tools/MangHoMagnet.Crawler/Program.cs:468-472 | a parsed value always lies in the requested integer range |
| Text.IntRoundTrip | tools/MangHoMagnet.Crawler/Program.cs:468-472 | the decimal text of any integer in the accepted range parses back to that integer |
| Text.DigitsOnlyEmptyIff | src/MangHoMagnet/Plugin.cs:1411-1412 | stripping the non-digits leaves nothing exactly when the text has no digit |
| Scanning.ScanIsLeftmost | src/MangHoMagnet/Plugin.cs:1726-1732 | every position where a match starts lies inside some match the scan reports, so no link is skipped |
| Scanning.FirstHitIsLeftmost | src/MangHoMagnet/Plugin.cs:1726-1732 | no match starts before the first reported match |
| Scanning.Scan | src/MangHoMagnet/Plugin.cs:1726-1732 | the reported matches are non-empty, have the matcher's length, lie inside the text and do not overlap, in text order |
| SteamLinks.ExtractSteamLinks | src/MangHoMagnet/Plugin.cs:1726-1732 | the links are exactly the texts of the successive matches of the link pattern, in document order, duplicates kept |
| SteamLinks.LinkHitsFold | src/MangHoMagnet/Plugin.cs:29-31 | the pattern matches ignoring case: lower-casing the document finds the same matches |
| SteamLinks.TryParseLobbyLink | src/MangHoMagnet/Plugin.cs:1734-1749 | a parsed link's app id fits in 32 bits and its lobby and host ids fit in 64 bits |
| SteamLinks.ParseIgnoresCase | src/MangHoMagnet/Plugin.cs:33-35 | two links that are equal ignoring case parse to the same ids |
| SteamLinks.FormatLinkRoundTrip | src/MangHoMagnet/Plugin.cs:1726-1749 | a link written from in-range ids is found as one whole link and parses back to those ids |
| SteamLinks.ExtractedLinkIsLink | src/MangHoMagnet/Plugin.cs:1726-1749 | each extracted link, scanned on its own, is exactly one link with the ids it had in the document |
| Posts.PostInfo.WithDate | src/MangHoMagnet/Plugin.cs:2215-2243 | the result differs from the post at most in its date; it is the same post exactly when the new date is blank or equal to the old one |
| Posts.NormalizeUrl | src/MangHoMagnet/Plugin.cs:1535-1553 | the result starts with `http` ignoring case and ends with the href; an absolute href is kept, one starting with `//` gets `https:`, one starting with a single `/` is placed after the host, and any other is placed after the host and a `/` |
| Posts.NormalizeRootRelative | src/MangHoMagnet/Plugin.cs:1547-1550 | a root-relative path is placed on the gallery host |
| Posts.NormalizeProtocolRelative | src/MangHoMagnet/Plugin.cs:1542-1545 | a protocol-relative gallery URL gets the https scheme and ends up equal to the root-relative form |
| Posts.ExtractViewCount | src/MangHoMagnet/Plugin.cs:1403-1413 | blank text is kept; text with a digit becomes its digits alone; text without one is kept |
| Posts.TryParseViewCount | tools/MangHoMagnet.Crawler/Program.cs:438-453 | succeeds exactly when the text has digits whose value fits an `int`, and yields that value |
| Posts.ViewCountFilterTransparent | src/MangHoMagnet/Plugin.cs:1403-1413 | filtering a view cell first does not change the count the crawler reads from it |
| Posts.ViewCountRoundTrip | tools/MangHoMagnet.Crawler/Program.cs:438-453 | a printed count survives both the filter and the parser |
| Posts.ParseIntFromText | src/MangHoMagnet/Plugin.cs:1420-1429 | the reply count is between 0 and the `int` maximum, and positive only for present text with a digit |
| Posts.FirstRunValue | src/MangHoMagnet/Plugin.cs:1427-1428 | the value of the first digit run is between 0 and the `int` maximum, and positive only when the text holds a digit |
| Posts.RunValue | src/MangHoMagnet/Plugin.cs:1428 | a run of digits reads as its decimal value when that fits in an `int`, and as 0 otherwise |
| Posts.ReplyCountRoundTrip | src/MangHoMagnet/Plugin.cs:1420-1429 | the first digit run of the text is the number read, when it fits |
| Posts.WithReplyCount | src/MangHoMagnet/Plugin.cs:1315-1320 | the title is kept when the count is not positive or its tag is already present; otherwise the tag is appended; the result always begins with the title |
| Posts.HasListMetadataChanged | tools/MangHoMagnet.Crawler/Program.cs:407-436 | a changed title, author or date is always a change; four equal fields are never a change; when only the view text differs, the crawler's rule sees a change exactly when either count is unreadable or the count rose by at least the step |
| Posts.PluginChangeIff | src/MangHoMagnet/Plugin.cs:1494-1517 | the plugin re-fetches exactly when title, author, date or view text differ |
| Posts.CrawlerViewDrift | tools/MangHoMagnet.Crawler/Program.cs:407-436 | when only the view count moves, the crawler sees a change exactly when it rose by at least 2 |
| ExactDate.NormalizeExactDateText | src/MangHoMagnet/Plugin.cs:1472-1492 | text with no date-and-time match is returned as it is; otherwise the result is the canonical `yyyy.MM.dd HH:mm:ss` form |
| ExactDate.NormalizeKeepsDigits | src/MangHoMagnet/Plugin.cs:1472-1492 | the rewrite keeps the digits of the first matched date and time and adds `:00` when seconds were missing |
| ExactDate.NormalizeExactDateIdempotent | src/MangHoMagnet/Plugin.cs:1472-1492 | normalising a normalised date changes nothing |
| Listing.PostId | src/MangHoMagnet/Plugin.cs:1336-1345 | the `data-no` attribute when it is present and not blank, the number cell otherwise |
| Listing.TryExtractPostInfo | src/MangHoMagnet/Plugin.cs:1284-1329 | a row is rejected for a missing anchor or a blank link and accepted exactly when the link names a post page; the post takes its id from `data-no` or the number cell, its title is the anchor text with the reply tag, author and date are the row's, the views are the digits of the view cell (or the cell when it has none), and the URL is the decoded link made absolute |
| Listing.ExtractPostInfos | src/MangHoMagnet/Plugin.cs:1243-1282 | the posts are the first accepted rows in order, up to the cap; the counters count rows, examined rows, missing titles and missing links among the examined rows |
| Lobby.AddOrUpdateSource | src/MangHoMagnet/Plugin.cs:2315-2326 | the post's record is present afterwards; a source with another URL is untouched; the list grows by one exactly when no source had the URL |
| Lobby.AddOrUpdateSourceUnique | src/MangHoMagnet/Plugin.cs:2315-2326 | source URLs stay distinct ignoring case |
| Lobby.AddOrUpdateSourceIdempotent | src/MangHoMagnet/Plugin.cs:2315-2326 | recording the same post twice at the same time equals recording it once |
| Lobby.NewEntry | src/MangHoMagnet/Plugin.cs:2280-2300 | a new entry is Unknown, first and last seen now, never checked, not pending, with sentinel counts and no sources |
| Lobby.GetValidationMode | src/MangHoMagnet/Plugin.cs:1519-1533 | the trimmed setting selects `None` or `Steam` exactly when it names them ignoring case; anything else is `FormatOnly` |
| Lobby.SteamValidationEnabled | src/MangHoMagnet/Plugin.cs:701-725 | Steam checks are on only when validation is on and the mode is Steam, and then whenever the callback registers |
| Lobby.DefaultConfigFlagOff | src/MangHoMagnet/Plugin.cs:578-617 | the default mode text "FormatOnly" does not select Steam, so the default start-up flag is off whether or not the callback registers |
| Registry.QueueNeedsCallback | src/MangHoMagnet/Plugin.cs:701-725 | with the start-up flag set as at start-up, a link is queued for a Steam check only when the callback registered, validation is on and the mode is Steam |
| Registry.DefaultConfigNeverQueues | src/MangHoMagnet/Plugin.cs:578-617 | under the default settings no link is ever queued for a Steam check |
| Lobby.Classify | src/MangHoMagnet/Plugin.cs:1896-1948 | an entry is queued exactly when it has a lobby id of the expected app, Steam checking is on, none is pending and the interval elapsed; a queued entry is Checking and pending; a foreign app is Invalid; only status, counts, pending flag and check time change |
| Lobby.StatusRank | src/MangHoMagnet/Plugin.cs:2025-2037 | Valid ranks highest and Invalid lowest |
| Lobby.StatusRankOrder | src/MangHoMagnet/Plugin.cs:2025-2037 | the ranks fall strictly from Valid through Full, Checking, Unknown and SteamUnavailable to Invalid |
| Registry.UnparseableIsInvalid | src/MangHoMagnet/Plugin.cs:1883-1894 | under the invariant an entry whose link does not parse is Invalid, has no lobby id and is not reachable by id |
| Registry.Upsert | src/MangHoMagnet/Plugin.cs:1872-1877 | a known link keeps the registry; a new link adds a fresh entry at the end of the list under its folded key |
| Registry.UpsertInv | src/MangHoMagnet/Plugin.cs:1872-1877 | the upsert keeps the registry invariant |
| Registry.Touch | src/MangHoMagnet/Plugin.cs:1879-1880 | the entry is last seen now, holds the post's record and changes in nothing else |
| Registry.OldestIndex | src/MangHoMagnet/Plugin.cs:1967 | picks the first entry with the least first-seen time |
| Registry.Trim | src/MangHoMagnet/Plugin.cs:1962-1971 | the list ends at the cap (or its old size), keeps only listed entries and link keys, and changes nothing else |
| Registry.TrimEvictsOldest | src/MangHoMagnet/Plugin.cs:1962-1971 | no evicted entry was first seen later than any kept entry |
| Registry.TrimInv | src/MangHoMagnet/Plugin.cs:1962-1971 | eviction keeps the list duplicate-free and the link index consistent with it |
| Registry.AttachLobbyId | src/MangHoMagnet/Plugin.cs:1883-1894 | an entry with an id is untouched; otherwise a parsed link sets the ids and indexes the entry by lobby id, and an unparseable one marks it Invalid |
| Registry.ClassifyEntry | src/MangHoMagnet/Plugin.cs:1896-1957 | stores the classification and appends the lobby id to the queue exactly when it says to queue |
| Registry.AddLobbyEntry | src/MangHoMagnet/Plugin.cs:1859-1960 | a blank link changes nothing; any other link leaves an entry under it and moves the version by one |
| Registry.AddLobbyEntryInv | src/MangHoMagnet/Plugin.cs:1859-1960 | adding a link keeps the registry invariant |
| Registry.AddLobbyEntryParses | src/MangHoMagnet/Plugin.cs:1883-1894 | the entry for the link carries its parsed ids and is indexed by lobby id, or is Invalid without ids and queues nothing |
| Registry.AddLobbyEntryQueue | src/MangHoMagnet/Plugin.cs:1896-1957 | the lobby id is queued exactly when the link parses to a non-zero lobby of the expected app, Steam checking is on, the entry was not pending and its interval elapsed |
| Registry.AddLobbyEntryWithoutSteam | src/MangHoMagnet/Plugin.cs:1896-1919 | outside Steam mode nothing is queued, counts are cleared and the status is Invalid, Unknown or Valid by app and setting |
| Registry.AddLobbyEntrySteam | src/MangHoMagnet/Plugin.cs:1920-1948 | in Steam mode the entry is SteamUnavailable without the callback, Checking while a check is pending, and unchanged within the interval |
| Registry.AddLobbyEntryRecords | src/MangHoMagnet/Plugin.cs:1872-1881 | the entry is last seen now and holds the post's record; other entries and the join time are untouched |
| Registry.AddLobbyEntryOthers | src/MangHoMagnet/Plugin.cs:1859-1960 | every other entry object is unchanged |
| Registry.AddLobbyEntrySources | src/MangHoMagnet/Plugin.cs:1879 | the entry's sources are its earlier sources with the post merged in |
| Registry.AddLobbyEntrySize | src/MangHoMagnet/Plugin.cs:1872-1881 | the list grows by one for a new link and is then cut to the cap |
| Registry.AddLobbyEntryNoEviction | src/MangHoMagnet/Plugin.cs:1872-1877 | while the list has room for the link, the link index gains the link and every other key keeps its entry |
| Joining.TryMarkAutoJoin | src/MangHoMagnet/Plugin.cs:2091-2118 | claims the attempt exactly for an indexed, Valid, not yet attempted entry, setting only its flag |
| Joining.MarkAutoJoinAttempted | src/MangHoMagnet/Plugin.cs:2120-2134 | sets the flag of the indexed entry, and changes nothing for a blank or unknown link |
| Joining.TryJoinLobby | src/MangHoMagnet/Plugin.cs:2049-2089 | a launch is attempted exactly when forced or when auto-join is on, the cooldown passed and the attempt could be claimed; the join time moves only on a successful launch; only attempted flags change |
| Joining.AutoJoinAtMostOnce | src/MangHoMagnet/Plugin.cs:2049-2118 | after an attempt on an indexed link, no later automatic attempt on it goes ahead |
| Joining.NoAutoJoinDuringCooldown | src/MangHoMagnet/Plugin.cs:2056-2061 | after a launch no automatic attempt on any link goes ahead within the cooldown |
| Joining.TryJoinLobbyInv | src/MangHoMagnet/Plugin.cs:2049-2089 | a join attempt keeps the registry invariant |
| Validation.Refuse | src/MangHoMagnet/Plugin.cs:1841-1852 | a refused id's entry becomes SteamUnavailable and not pending, the version moves by one, nothing else changes |
| Validation.Requests | src/MangHoMagnet/Plugin.cs:1815-1857 | the version moves once per refusal and each entry is either unchanged or marked unavailable |
| Validation.RequestsRefuse | src/MangHoMagnet/Plugin.cs:1841-1852 | each refused, indexed id marks its entry unavailable |
| Validation.RequestsOnlyRefused | src/MangHoMagnet/Plugin.cs:1841-1852 | an entry that changed is one a refused id points to |
| Validation.ProcessLobbyChecks | src/MangHoMagnet/Plugin.cs:1815-1857 | one frame takes at most four ids from the head of the queue, leaves the rest queued in order, and bumps the version once per refused request |
| Validation.ProcessLobbyChecksMarks | src/MangHoMagnet/Plugin.cs:1815-1857 | one frame marks exactly the refused, indexed entries among its first four ids, and leaves every other entry unchanged |
| Validation.ProcessLobbyChecksDequeues | src/MangHoMagnet/Plugin.cs:1815-1857 | one frame removes the first `min(4, queue length)` ids and bumps the version once per refusal |
| Validation.ProcessLobbyChecksInv | src/MangHoMagnet/Plugin.cs:1815-1857 | a frame keeps the registry invariant |
| Validation.Counted | src/MangHoMagnet/Plugin.cs:1779-1793 | an answer is Full exactly when the limit is positive and reached, Valid otherwise, and stores both counts |
| Validation.Answered | src/MangHoMagnet/Plugin.cs:1763-1809 | the entry is no longer pending; failure gives Invalid, an unreadable answer SteamUnavailable, both with cleared counts; a read answer is classified by its counts |
| Validation.OnLobbyDataUpdated | src/MangHoMagnet/Plugin.cs:1751-1813 | an unknown lobby id changes nothing; a known one moves the version by one |
| Validation.OnLobbyDataUpdatedEffect | src/MangHoMagnet/Plugin.cs:1751-1813 | the answered entry is stored as classified; a join is attempted only for a Valid answer; other entries change at most in their attempted flag |
| Validation.OnLobbyDataUpdatedInv | src/MangHoMagnet/Plugin.cs:1751-1813 | an answer keeps the registry invariant |
| Snapshot.LatestSource | src/MangHoMagnet/Plugin.cs:1980-1982 | the shown source is one with the latest time, and exists exactly when the entry has sources |
| Snapshot.NewerSourceShown | src/MangHoMagnet/Plugin.cs:1980-1982 | a post recorded later than every earlier source of the entry is the source the snapshot shows |
| Snapshot.ParsePostId | src/MangHoMagnet/Plugin.cs:2039-2047 | a post id that parses as a 64-bit integer gives that value; any other gives 0 |
| Snapshot.ParsePostIdRoundTrip | src/MangHoMagnet/Plugin.cs:2039-2047 | the decimal text of any 64-bit integer reads back as itself |
| Snapshot.SortPostId | src/MangHoMagnet/Plugin.cs:1983-1986 | the sort key is the largest parsed id of the sources, or 0 without sources |
| Snapshot.Rep | src/MangHoMagnet/Plugin.cs:1995-2001 | a group's row is a member of the group that no other member outranks by status and last-seen time |
| Snapshot.SortStable | src/MangHoMagnet/Plugin.cs:2002-2003 | the rows are ordered by post id and last-seen time, newest first, and are a permutation of the group rows |
| Snapshot.GetLobbySnapshot | src/MangHoMagnet/Plugin.cs:1973-2023 | one view per row of the sorted group representatives, never more than there are entries |
| Snapshot.SnapshotOneRowPerGroup | src/MangHoMagnet/Plugin.cs:1995-1997 | no two views share a group key ignoring case |
| Snapshot.SnapshotCoversEveryGroup | src/MangHoMagnet/Plugin.cs:1995-2001 | every listed entry's group has a view |
| Snapshot.SnapshotShowsBest | src/MangHoMagnet/Plugin.cs:1998-2001 | no entry of a group outranks the row shown for it |
| Snapshot.ViewOf | src/MangHoMagnet/Plugin.cs:2004-2017 | the view copies link, status, last-seen time, counts and number of sources; its six post fields are the shown source's, or all empty without a source |
| Snapshot.BuildJoinButtonLabel | src/MangHoMagnet/Plugin.cs:1624-1643 | the label starts with "Join"; it is bare exactly for an Unknown lobby that is not full; counts that show a full lobby, or a Full status with counts, give the Full label with the counts; a Valid lobby with counts shows them |
| Poll.Observe | src/MangHoMagnet/Plugin.cs:1179-1189 | the URL is marked seen and its row cached; the post is fetched exactly when its URL is new or a cached row differs in a listed field |
| Poll.DecideCaches | src/MangHoMagnet/Plugin.cs:1172-1189 | after a poll the cache holds every listed post under its URL |
| Poll.DecideKeepsOthers | src/MangHoMagnet/Plugin.cs:1172-1189 | a URL not in the list keeps its cache entry |
| Poll.RepollFetchesNothing | src/MangHoMagnet/Plugin.cs:1172-1193 | polling the same list again fetches no post |
| Poll.UnchangedNotFetched | src/MangHoMagnet/Plugin.cs:1172-1193 | posts seen before with unchanged rows are not fetched |
| Poll.EffectivePost | src/MangHoMagnet/Plugin.cs:1204-1207 | the post is recorded with the page's exact date when there is one, and is otherwise unchanged |
| Poll.AddLinks | src/MangHoMagnet/Plugin.cs:1209-1218 | adding a page's links keeps the invariant and moves the version at most once per link |
| Poll.HandlePost | src/MangHoMagnet/Plugin.cs:1172-1218 | one listed post keeps the invariant; a post not fetched, or with a blank page, leaves the registry as it was |
| Poll.Decide | src/MangHoMagnet/Plugin.cs:1172-1189 | one fetch decision per listed post, and every listed post's folded URL joins the seen set |
| Poll.PollOnce | src/MangHoMagnet/Plugin.cs:1172-1218 | a poll, whose posts are each handled at their own clock reading, keeps the invariant and leaves the seen set and cache as `Decide` computes them |
| Poll.AddKeepsIndex | src/MangHoMagnet/Plugin.cs:1872-1877 | a step that leaves the list below the cap keeps every link key on its entry |
| Poll.AddKeepsSource | src/MangHoMagnet/Plugin.cs:1879 | adding a link never drops a source URL from any entry |
| Poll.AddLinksGrows | src/MangHoMagnet/Plugin.cs:1209-1218 | a page's links never shrink a list that ends below the cap |
| Poll.PollGrows | src/MangHoMagnet/Plugin.cs:1172-1218 | a poll never shrinks a list that ends below the cap |
| Poll.AddLinksRecords | src/MangHoMagnet/Plugin.cs:1209-1218 | when the list ends below the cap, every non-blank link of the page is listed, through the link index, with the post among its sources |
| Poll.PollKeepsRecorded | src/MangHoMagnet/Plugin.cs:1172-1218 | a link listed with a post stays listed with it through a poll that leaves the list below the cap |
| Poll.PollRecordsFetched | src/MangHoMagnet/Plugin.cs:1172-1218 | after a poll that leaves the list below the cap, every link on every fetched page is listed with its post |
| Poll.FirstPostRecorded | src/MangHoMagnet/Plugin.cs:1179-1218 | the links of a newly seen post's page are listed with that post, when the list stays below the cap |
| Crawler.GetArg | tools/MangHoMagnet.Crawler/Program.cs:455-466 | a value is found exactly when the key occurs, ignoring case, before the last argument; it is the argument after the first such occurrence |
| Crawler.PassesWithinBound | tools/MangHoMagnet.Crawler/Program.cs:48-54 | with a positive iteration count the loop makes exactly that many passes; with zero or a negative count it never stops |
| Crawler.GetArgInt | tools/MangHoMagnet.Crawler/Program.cs:468-472 | the parsed 32-bit value of the argument, or the fallback when it is absent or does not parse |
| Crawler.FlagWithValue | tools/MangHoMagnet.Crawler/Program.cs:455-472 | a key followed by a value yields that value, and its integer when it parses |
| Crawler.ReadSettings | tools/MangHoMagnet.Crawler/Program.cs:33-39 | at least one post per list and a non-negative cooldown; without arguments the defaults 10, 50, 60 and 0 |
| Crawler.NewPostNotCooledDown | tools/MangHoMagnet.Crawler/Program.cs:69-99 | a new post is never skipped for cooldown and is fetched exactly when its page is non-blank |
| Crawler.CachedPostFetchIff | tools/MangHoMagnet.Crawler/Program.cs:69-99 | a known post is left alone when unchanged, skipped when changed within the cooldown, and fetched when changed outside it with a non-blank page |
| Crawler.CrawlPost | tools/MangHoMagnet.Crawler/Program.cs:69-113 | the row is cached under its URL whatever happens next |
| Crawler.CrawlPostCounters | tools/MangHoMagnet.Crawler/Program.cs:88-113 | only a fetch sets the fetch time, counts the fetch and adds the page's links; the new-link count is the growth of the seen set |
| Crawler.FetchPost | tools/MangHoMagnet.Crawler/Program.cs:94-113 | a fetch leaves the cache alone, stamps the post's fetch time, raises its count by one (to 1 when it had none), adds the page's links ignoring case, and reports how many were new |
| Crawler.AddPageLinks | tools/MangHoMagnet.Crawler/Program.cs:106-113 | the seen set gains exactly the page's links, ignoring case, and the count is how many it lacked |
| Crawler.FetchPostCounters | tools/MangHoMagnet.Crawler/Program.cs:94-113 | a fetch stamps the time, raises the count by one and adds the page's links, and its new-link count is the growth of the seen set |
| Crawler.ViewRiseRefetch | tools/MangHoMagnet.Crawler/Program.cs:71-78 | a cached post whose only change is its view text is left alone exactly when both texts hold a readable count and the count rose by less than 2 |
| Crawler.AddSeenLinksAdds | tools/MangHoMagnet.Crawler/Program.cs:106-113 | the seen set gains exactly the page's links, ignoring case |
| Crawler.AddSeenLinksCounts | tools/MangHoMagnet.Crawler/Program.cs:106-113 | the count is the number of links the set did not hold before |
| Crawler.CrawlList | tools/MangHoMagnet.Crawler/Program.cs:69-113 | a pass, with two clock readings per post, yields one outcome per listed post |
| Crawler.TallyOf | tools/MangHoMagnet.Crawler/Program.cs:64-95 | the fetched counter is the number of fetched outcomes and the cooldown counter the number of posts skipped for their cooldown |
| Crawler.CrawlListCountsLinks | tools/MangHoMagnet.Crawler/Program.cs:64-113 | the pass's new-link counter is the growth of the seen set |

## Left out

- Sub-second time is not modelled. The source compares `DateTime`
  differences, counted in 100-nanosecond ticks, against whole-second
  spans: the join cooldown (`src/MangHoMagnet/Plugin.cs:2056-2061`), the
  validation interval (`src/MangHoMagnet/Plugin.cs:1920-1933`) and the
  crawler's fetch cooldown (`tools/MangHoMagnet.Crawler/Program.cs:81-83`).
  The model's readings are whole seconds, so a reading that falls between
  two seconds, and a difference just short of a whole span, are outside it.
- HTML parsing is not modelled. `HtmlParser`, the CSS queries, `CleanText`
  and `WebUtility.HtmlDecode` are outside the model. A list row arrives as
  the cleaned strings those calls return. A post page of the plugin is its
  raw text plus the exact date found in it; a page of the crawler is its
  raw text alone, since the crawler reads no date from it.
- `ExtractExactPostDate` is modelled only in part. Locating the date in the
  page is DOM work; only its `NormalizeExactDateText` step is modelled.
- Date parsing is not modelled. `ExtractPostDate`, `FormatDate` and
  `TryParseExactDate` parse dates by culture, so the date column is an
  input string.
- Fetching is not modelled. HTTP, encodings, time-outs, the user agent and
  cancellation are left out. A fetch is a function from URL to an optional
  page. A blank or failed page is skipped as in the code.
- Steam is not modelled. The answer of `RequestLobbyData` per dequeued id
  is the `requested` input. A missing entry counts as refused, as an
  exception does. `m_bSuccess` is a boolean, and the member query is a
  value that is either the two counts or a failure.
- Starting the join process is not modelled. `Process.Start` is the
  `launchOk` input. One value serves every launch attempt of a call, so a
  poll in which one launch fails and a later one succeeds is not covered.
- Concurrency is not modelled. The locks, the poll gate, `Interlocked`,
  the frame loop and the poll timer are left out. Every lock region is
  one atomic step with one clock reading.
- Poll.PollOnce: the clock readings inside one post's link loop
  (`src/MangHoMagnet/Plugin.cs:1209-1217`) are taken as the post's single
  reading. No fetch is awaited inside that loop, but `AddLobbyEntry` and
  `TryJoinLobby` read the clock themselves
  (`src/MangHoMagnet/Plugin.cs:1924`, `2058`, `2082`, `2255`, `2274`,
  `2283`, `2305`). Two links of one page therefore get the same source
  time, and the join cooldown does not run down between them.
- The UI is not modelled. The UI, Harmony patches, GUI styles, popups,
  configuration binding and the logging flags and counters are left out.
  These are `_loggedNoLinks`, `scannedPosts` and `foundLinks`.
- The crawler's console output, its interval wait and its iteration loop
  are not modelled. `Crawler.KeepsRunning` states the loop condition, and
  `Crawler.PassesWithinBound` counts the passes it allows.
- Poll.PollOnce starts from the already extracted posts. The list fetch
  that precedes it is not chained into the model, and neither is the
  `ExtractPostInfos` call with `Math.Max(MaxPostsPerPoll, 50)`
  (`Plugin.cs:1156`). `Listing.ExtractPostInfos` takes the cap as given.
- Snapshot.SortStable: proves that the rows are ordered and a permutation.
  It does not prove that ties keep the order the groups had.
- Snapshot.GetLobbySnapshot: states which rows appear and that each is its
  group's best. It does not state that the rows follow the order the
  groups first appeared in.
- Unicode is not modelled. Whitespace, digits and case folding are ASCII
  only. The code is wider: `\d` in the link pattern
  (`src/MangHoMagnet/Plugin.cs:29-35`) and `char.IsDigit` in the crawler
  (`tools/MangHoMagnet.Crawler/Program.cs:259`, `446`) accept every Unicode
  decimal digit, and `&nbsp;` decoded by `CleanText`
  (`src/MangHoMagnet/Plugin.cs:1555-1565`) becomes U+00A0, which the
  code's whitespace tests treat as blank. Texts with such characters are
  outside the model.
- Poll.PollRecordsFetched: proved only for a poll that leaves the list
  below the entry cap. When the cap is reached, `TrimLobbyEntries` may
  evict a link found earlier in the same poll, as the plugin does.
- Poll.PollKeepsRecorded: proved only for a poll that leaves the list below
  the entry cap, for the same reason.
- Poll.AddLinksRecords: proved only for a page after which the list is
  below the entry cap.
- Poll.FirstPostRecorded: proved only when the list stays below the entry
  cap.
- Integer widths are not modelled in full. Counts, the version and
  timestamps are unbounded integers. The bounds of 32-bit and 64-bit
  parsing are modelled explicitly.
- Enum parsing is not modelled in full. `Enum.TryParse` also accepts the
  enum's numeric values. `Lobby.GetValidationMode` recognises only the
  names.

=== FILE: crawler.dfy ===
/** The stand-alone crawler's loop (`Main`): command-line settings, and the
    per-post decision whether to fetch a listed post again, with its
    per-URL cooldown, fetch counters and the set of links seen so far.
    Pages (their HTML text; the crawler reads no exact date from them) and
    the clock are inputs; all dictionaries ignore case. */
module Crawler {
  import opened Wrappers
  import opened Text
  import opened Posts
  import opened SteamLinks
  import opened Lobby

  // ---------------------------------------------------------------------
  // Command line

  /** The index of the first `i < |args| - 1` with `args[i]` equal to `key`
      ignoring case, at or after `from`; `|args|` when there is none. */
  function FindArg(args: seq<string>, key: string, from: nat): (i: nat)
    ensures i == |args| || (from <= i < |args| - 1 && EqualsIgnoreCase(args[i], key))
    ensures forall j :: from <= j < i && j < |args| - 1 ==> !EqualsIgnoreCase(args[j], key)
    decreases |args| - from
  {
    if from + 1 >= |args| then |args|
    else if EqualsIgnoreCase(args[from], key) then from
    else FindArg(args, key, from + 1)
  }

  /** `args[i]` is the first argument before the last one that equals
      `key` ignoring case. */
  predicate FirstKeyAt(args: seq<string>, key: string, i: nat) {
    && i < |args| - 1 && EqualsIgnoreCase(args[i], key)
    && forall j :: 0 <= j < i ==> !EqualsIgnoreCase(args[j], key)
  }

  /** `GetArg`: the value following the first occurrence of `key`. */
  function GetArg(args: seq<string>, key: string): (v: Option<string>)
    ensures v.Some? <==> exists i :: 0 <= i < |args| - 1 && EqualsIgnoreCase(args[i], key)
    ensures v.Some? ==> exists i: nat :: FirstKeyAt(args, key, i) && v.value == args[i + 1]
  {
    var i := FindArg(args, key, 0);
    if i < |args| then
      assert FirstKeyAt(args, key, i);
      Some(args[i + 1])
    else Option.None
  }

  /** `GetArgInt`: the value of `key` parsed as a 32-bit integer, or
      `fallback` when it is absent or does not parse. */
  function GetArgInt(args: seq<string>, key: string, fallback: int): (n: int)
    ensures GetArg(args, key).None? ==> n == fallback
    ensures GetArg(args, key).Some? && ParseInteger(GetArg(args, key).value, MinInt32, MaxInt32).None? ==> n == fallback
    ensures GetArg(args, key).Some? && ParseInteger(GetArg(args, key).value, MinInt32, MaxInt32).Some? ==>
              MinInt32 <= n <= MaxInt32 && n == ParseInteger(GetArg(args, key).value, MinInt32, MaxInt32).value
  {
    match GetArg(args, key)
    case None => fallback
    case Some(raw) =>
      match ParseInteger(raw, MinInt32, MaxInt32)
      case None => fallback
      case Some(v) => v
  }

  const DefaultListUrl: string := "https://gall.dcinside.com/mgallery/board/lists?id=bingbong"

  datatype Settings = Settings(listUrl: string, interval: int, maxPosts: int, cooldown: int, iterations: int)

  /** The settings `Main` reads from its arguments. */
  function ReadSettings(args: seq<string>): (s: Settings)
    ensures s.maxPosts >= 1 && s.cooldown >= 0
    ensures s.maxPosts == Max(GetArgInt(args, "--max-posts", 50), 1)
    ensures s.cooldown == Max(GetArgInt(args, "--cooldown", 60), 0)
    ensures GetArg(args, "--url").Some? ==> s.listUrl == GetArg(args, "--url").value
    ensures |args| < 2 ==> s == Settings(DefaultListUrl, 10, 50, 60, 0)
  {
    Settings(
      (if GetArg(args, "--url").Some? then GetArg(args, "--url").value else DefaultListUrl),
      GetArgInt(args, "--interval", 10),
      Max(GetArgInt(args, "--max-posts", 50), 1),
      Max(GetArgInt(args, "--cooldown", 60), 0),
      GetArgInt(args, "--iterations", 0))
  }

  /** The loop runs forever when `iterations` is not positive. */
  predicate KeepsRunning(s: Settings, iteration: nat) {
    s.iterations <= 0 || iteration < s.iterations
  }

  /** How many of the loop's first `bound` tests let another pass run. */
  function PassesWithin(s: Settings, bound: nat): nat {
    if bound == 0 then 0
    else PassesWithin(s, bound - 1) + (if KeepsRunning(s, bound - 1) then 1 else 0)
  }

  /** A positive `--iterations` value is exactly the number of passes; any
      other value never stops the loop. */
  lemma {:induction false} PassesWithinBound(s: Settings, bound: nat)
    ensures PassesWithin(s, bound) == if s.iterations <= 0 || bound <= s.iterations then bound else s.iterations
  {
    if bound > 0 {
      PassesWithinBound(s, bound - 1);
    }
  }

  /** A value that does not parse as a 32-bit integer leaves the default. */
  lemma FlagWithValue(key: string, value: string, fallback: int)
    ensures GetArg([key, value], key) == Some(value)
    ensures var parsed := ParseInteger(value, MinInt32, MaxInt32);
      GetArgInt([key, value], key, fallback) == if parsed.Some? then parsed.value else fallback
  {
    assert EqualsIgnoreCase([key, value][0], key);
  }

  // ---------------------------------------------------------------------
  // The per-post decision

  /** The crawler's memory, every key folded to ignore case. */
  datatype CrawlerState = CrawlerState(
    cache: map<string, PostInfo>,
    lastFetch: map<string, int>,
    fetchCount: map<string, nat>,
    seenLinks: set<string>)

  /** What happened to one listed post. */
  datatype Outcome = Unchanged | CooledDown | FetchFailed | Fetched(newLinks: nat)

  /** The two clock readings one listed post sees: `check` for the cooldown
      test, and `stamp`, read after the page was awaited, for the fetch
      time. */
  datatype PostTimes = PostTimes(check: int, stamp: int)

  /** A cached post fetched less than `cooldown` seconds before `now`. */
  predicate InCooldown(st: CrawlerState, key: string, cooldown: int, now: int) {
    cooldown > 0 && key in st.lastFetch && now - st.lastFetch[key] < cooldown
  }

  /** Adds each link, folded, to `seen`; counts the ones it did not hold. */
  function AddSeenLinks(seen: set<string>, links: seq<string>): (res: (set<string>, nat))
    decreases |links|
  {
    if |links| == 0 then (seen, 0)
    else
      var key := Fold(links[0]);
      var rest := AddSeenLinks(seen + {key}, links[1..]);
      (rest.0, if key in seen then rest.1 else rest.1 + 1)
  }

  /** The folded links of a page. */
  ghost function FoldedLinks(links: seq<string>): set<string> {
    set l | l in links :: Fold(l)
  }

  /** `AddSeenLinks` adds exactly the page's links, folded. */
  lemma {:induction false} AddSeenLinksAdds(seen: set<string>, links: seq<string>)
    ensures AddSeenLinks(seen, links).0 == seen + FoldedLinks(links)
    decreases |links|
  {
    if |links| > 0 {
      var rest := links[1..];
      AddSeenLinksAdds(seen + {Fold(links[0])}, rest);
      assert FoldedLinks(links) == {Fold(links[0])} + FoldedLinks(rest) by {
        assert links == [links[0]] + rest;
      }
    }
  }

  /** The count of `AddSeenLinks` is the number of links it did not hold
      before: each link is counted once over the crawler's whole run. */
  lemma {:induction false} AddSeenLinksCounts(seen: set<string>, links: seq<string>)
    ensures AddSeenLinks(seen, links).1 == |AddSeenLinks(seen, links).0 - seen|
    decreases |links|
  {
    if |links| > 0 {
      var key := Fold(links[0]);
      var seen1 := seen + {key};
      AddSeenLinksCounts(seen1, links[1..]);
      AddSeenLinksAdds(seen1, links[1..]);
      var s := AddSeenLinks(seen, links).0;
      assert s == AddSeenLinks(seen1, links[1..]).0;
      if key !in seen {
        assert s - seen == (s - seen1) + {key};
      } else {
        assert seen1 == seen;
      }
    }
  }

  /** One listed post: the cache always takes the listed copy; a post is
      fetched when it is new, or when its metadata changed beyond the
      crawler's view drift and its cooldown has passed. */
  function CrawlPost(st: CrawlerState, post: PostInfo, cooldown: int, t: PostTimes, page: Option<string>): (res: (CrawlerState, Outcome))
    ensures res.0.cache == st.cache[Fold(post.url) := post]
  {
    var key := Fold(post.url);
    var isNew := key !in st.cache;
    var needsFetch := isNew || HasListMetadataChanged(st.cache[key], post, CrawlerDrift);
    var st1 := st.(cache := st.cache[key := post]);
    if !needsFetch then (st1, Unchanged)
    else if !isNew && InCooldown(st, key, cooldown, t.check) then (st1, CooledDown)
    else if page.None? || IsBlank(page.value) then (st1, FetchFailed)
    else
      var fetched := FetchPost(st, key, t.stamp, page.value);
      (fetched.0.(cache := st1.cache), fetched.1)
  }

  /** How many times the post under `key` has been fetched so far. */
  function FetchesOf(counts: map<string, nat>, key: string): nat {
    if key in counts then counts[key] else 0
  }

  /** A fetched page: stamp the time, count the fetch and add the links. */
  function FetchPost(st: CrawlerState, key: string, now: int, html: string): (res: (CrawlerState, Outcome))
    ensures res.0.cache == st.cache && res.0.lastFetch == st.lastFetch[key := now]
    ensures res.0.fetchCount == st.fetchCount[key := FetchesOf(st.fetchCount, key) + 1]
    ensures (res.0.seenLinks, res.1) == (AddPageLinks(st.seenLinks, html).0, Fetched(AddPageLinks(st.seenLinks, html).1))
  {
    var added := AddPageLinks(st.seenLinks, html);
    (CrawlerState(st.cache, st.lastFetch[key := now], st.fetchCount[key := FetchesOf(st.fetchCount, key) + 1], added.0), Fetched(added.1))
  }

  /** The links of a page added to the seen set, with the number that were
      not in it. */
  function AddPageLinks(seen: set<string>, html: string): (res: (set<string>, nat))
    ensures res.0 == seen + FoldedLinks(ExtractSteamLinks(html))
    ensures res.1 == |res.0 - seen|
  {
    AddSeenLinksAdds(seen, ExtractSteamLinks(html));
    AddSeenLinksCounts(seen, ExtractSteamLinks(html));
    AddSeenLinks(seen, ExtractSteamLinks(html))
  }

  /** A URL not cached yet is always fetched, cooldown or not. */
  lemma NewPostNotCooledDown(st: CrawlerState, post: PostInfo, cooldown: int, t: PostTimes, page: Option<string>)
    requires Fold(post.url) !in st.cache
    ensures var o := CrawlPost(st, post, cooldown, t, page).1;
      o.Fetched? <==> page.Some? && !IsBlank(page.value)
    ensures CrawlPost(st, post, cooldown, t, page).1 != Unchanged
    ensures CrawlPost(st, post, cooldown, t, page).1 != CooledDown
  {
  }

  /** A cached URL is fetched exactly when its metadata changed beyond the
      view drift, it is out of its cooldown, and the page comes back. */
  lemma CachedPostFetchIff(st: CrawlerState, post: PostInfo, cooldown: int, t: PostTimes, page: Option<string>)
    requires Fold(post.url) in st.cache
    ensures var o := CrawlPost(st, post, cooldown, t, page).1;
            var changed := HasListMetadataChanged(st.cache[Fold(post.url)], post, CrawlerDrift);
      && (o == Unchanged <==> !changed)
      && (o == CooledDown <==> changed && InCooldown(st, Fold(post.url), cooldown, t.check))
      && (o.Fetched? <==> changed && !InCooldown(st, Fold(post.url), cooldown, t.check) && page.Some? && !IsBlank(page.value))
  {
  }

  /** Only a fetch touches the fetch time, the counter and the seen links;
      a fetch stamps the time, adds one to the counter and adds the page's
      links, reporting how many of them were new. */
  ghost predicate CountersFollow(st: CrawlerState, st': CrawlerState, o: Outcome, key: string, now: int, page: Option<string>) {
    && (!o.Fetched? ==> st'.lastFetch == st.lastFetch && st'.fetchCount == st.fetchCount && st'.seenLinks == st.seenLinks)
    && (o.Fetched? ==>
          && page.Some?
          && st'.lastFetch == st.lastFetch[key := now]
          && st'.fetchCount == st.fetchCount[key := FetchesOf(st.fetchCount, key) + 1]
          && st'.seenLinks == st.seenLinks + FoldedLinks(ExtractSteamLinks(page.value))
          && o.newLinks == |st'.seenLinks - st.seenLinks|)
  }

  /** The counters after one listed post follow `CountersFollow`. */
  lemma CrawlPostCounters(st: CrawlerState, post: PostInfo, cooldown: int, t: PostTimes, page: Option<string>)
    ensures CountersFollow(st, CrawlPost(st, post, cooldown, t, page).0, CrawlPost(st, post, cooldown, t, page).1,
                           Fold(post.url), t.stamp, page)
  {
    var key := Fold(post.url);
    var res := CrawlPost(st, post, cooldown, t, page);
    if res.1.Fetched? {
      assert page.Some? && !IsBlank(page.value);
      var fetched := FetchPost(st, key, t.stamp, page.value);
      FetchPostCounters(st, key, t.stamp, page.value);
      assert res == (fetched.0.(cache := st.cache[key := post]), fetched.1);
    } else {
      assert res.0 == st.(cache := st.cache[key := post]);
    }
  }

  /** What a fetch does to the counters and the seen links. */
  lemma FetchPostCounters(st: CrawlerState, key: string, now: int, html: string)
    ensures CountersFollow(st, FetchPost(st, key, now, html).0, FetchPost(st, key, now, html).1, key, now, Some(html))
  {
  }

  /** When only the view text of a cached post differs, the crawler leaves
      the post alone exactly when both texts hold a readable count and the
      count rose by less than two (a fall, or a rewrite of the same count,
      included); an unreadable count on either side is a change. */
  lemma ViewRiseRefetch(st: CrawlerState, post: PostInfo, cooldown: int, t: PostTimes, page: Option<string>)
    requires Fold(post.url) in st.cache
    requires var prev := st.cache[Fold(post.url)];
      prev.title == post.title && prev.author == post.author && prev.date == post.date && prev.views != post.views
    ensures var a, b := TryParseViewCount(st.cache[Fold(post.url)].views), TryParseViewCount(post.views);
      CrawlPost(st, post, cooldown, t, page).1 == Unchanged <==> a.Some? && b.Some? && b.value - a.value < 2
  {
    CachedPostFetchIff(st, post, cooldown, t, page);
  }

  // ---------------------------------------------------------------------
  // One iteration of the loop

  /** The counters an iteration reports: posts fetched, posts skipped for
      their cooldown, and links never seen before. */
  datatype Tally = Tally(fetched: nat, cooledDown: nat, newLinks: nat)

  /** One pass over the listed posts, in order: the state after it and the
      outcome of each post. `times[i]` holds the clock readings of
      `posts[i]`, and `fetch` gives the page of a post URL. */
  function CrawlList(st: CrawlerState, posts: seq<PostInfo>, cooldown: int, times: seq<PostTimes>,
                     fetch: string -> Option<string>): (res: (CrawlerState, seq<Outcome>))
    requires |times| == |posts|
    ensures |res.1| == |posts|
    decreases |posts|
  {
    if |posts| == 0 then (st, [])
    else
      var one := CrawlPost(st, posts[0], cooldown, times[0], fetch(posts[0].url));
      var rest := CrawlList(one.0, posts[1..], cooldown, times[1..], fetch);
      (rest.0, [one.1] + rest.1)
  }

  /** The indices of fetched and of cooled-down outcomes. */
  function FetchedAt(os: seq<Outcome>): set<nat> {
    set i: nat | i < |os| && os[i].Fetched?
  }

  function CooledAt(os: seq<Outcome>): set<nat> {
    set i: nat | i < |os| && os[i] == CooledDown
  }

  /** The iteration's counters: one per fetched post, one per post skipped
      for its cooldown, and the new links of every fetch. */
  function TallyOf(os: seq<Outcome>): (t: Tally)
    ensures t.fetched == |FetchedAt(os)|
    ensures t.cooledDown == |CooledAt(os)|
    decreases |os|
  {
    if |os| == 0 then Tally(0, 0, 0)
    else
      var init := os[..|os| - 1];
      var last := os[|os| - 1];
      FetchedSnoc(os);
      CooledSnoc(os);
      Count(TallyOf(init), last)
  }

  /** Extending the outcomes by one adds at most its own index to each set. */
  lemma FetchedSnoc(os: seq<Outcome>)
    requires |os| > 0
    ensures |FetchedAt(os)| == |FetchedAt(os[..|os| - 1])| + (if os[|os| - 1].Fetched? then 1 else 0)
  {
    var init, n := os[..|os| - 1], |os| - 1;
    assert FetchedAt(os) == FetchedAt(init) + (if os[n].Fetched? then {n} else {}) by {
      forall i: nat | i < n ensures os[i] == init[i] { }
    }
    assert n !in FetchedAt(init);
  }

  lemma CooledSnoc(os: seq<Outcome>)
    requires |os| > 0
    ensures |CooledAt(os)| == |CooledAt(os[..|os| - 1])| + (if os[|os| - 1] == CooledDown then 1 else 0)
  {
    var init, n := os[..|os| - 1], |os| - 1;
    assert CooledAt(os) == CooledAt(init) + (if os[n] == CooledDown then {n} else {}) by {
      forall i: nat | i < n ensures os[i] == init[i] { }
    }
    assert n !in CooledAt(init);
  }

  /** Adds one post's outcome to the tally. */
  function Count(t: Tally, o: Outcome): (t': Tally)
    ensures t'.newLinks == t.newLinks + LinksAdded(o)
    ensures t'.fetched == t.fetched + (if o.Fetched? then 1 else 0)
    ensures t'.cooledDown == t.cooledDown + (if o == CooledDown then 1 else 0)
  {
    match o
    case Fetched(n) => t.(fetched := t.fetched + 1, newLinks := t.newLinks + n)
    case CooledDown => t.(cooledDown := t.cooledDown + 1)
    case _ => t
  }

  /** The links one post adds to the tally. */
  function LinksAdded(o: Outcome): nat {
    if o.Fetched? then o.newLinks else 0
  }

  /** The new-link counter adds up the posts' new links in either order. */
  lemma {:induction false} TallyLinksCons(o: Outcome, os: seq<Outcome>)
    ensures TallyOf([o] + os).newLinks == LinksAdded(o) + TallyOf(os).newLinks
    decreases |os|
  {
    if |os| > 0 {
      var all := [o] + os;
      assert all[..|all| - 1] == [o] + os[..|os| - 1];
      assert all[|all| - 1] == os[|os| - 1];
      TallyLinksCons(o, os[..|os| - 1]);
    }
  }

  lemma CrawlPostLinks(st: CrawlerState, post: PostInfo, cooldown: int, t: PostTimes, page: Option<string>)
    ensures var res := CrawlPost(st, post, cooldown, t, page);
      st.seenLinks <= res.0.seenLinks && LinksAdded(res.1) == |res.0.seenLinks - st.seenLinks|
  {
    CrawlPostCounters(st, post, cooldown, t, page);
    var st' := CrawlPost(st, post, cooldown, t, page).0;
    if st'.seenLinks == st.seenLinks {
      assert st'.seenLinks - st.seenLinks == {};
    }
  }

  lemma GrowthAdds(a: set<string>, b: set<string>, c: set<string>)
    requires a <= b <= c
    ensures |c - a| == |c - b| + |b - a|
  {
    assert c - a == (c - b) + (b - a);
    assert (c - b) * (b - a) == {};
  }

  /** The iteration's new-link count is the growth of the seen set, and the
      seen set only grows. */
  lemma {:induction false} CrawlListCountsLinks(st: CrawlerState, posts: seq<PostInfo>, cooldown: int,
                                                times: seq<PostTimes>, fetch: string -> Option<string>)
    requires |times| == |posts|
    ensures var res := CrawlList(st, posts, cooldown, times, fetch);
      st.seenLinks <= res.0.seenLinks && TallyOf(res.1).newLinks == |res.0.seenLinks - st.seenLinks|
    decreases |posts|
  {
    if |posts| > 0 {
      var one := CrawlPost(st, posts[0], cooldown, times[0], fetch(posts[0].url));
      CrawlPostLinks(st, posts[0], cooldown, times[0], fetch(posts[0].url));
      CrawlListCountsLinks(one.0, posts[1..], cooldown, times[1..], fetch);
      var rest := CrawlList(one.0, posts[1..], cooldown, times[1..], fetch);
      TallyLinksCons(one.1, rest.1);
      GrowthAdds(st.seenLinks, one.0.seenLinks, rest.0.seenLinks);
    }
  }
}

=== FILE: exact_date.dfy ===
/** `NormalizeExactDateText`: the fallback that pulls a
    `yyyy?MM?dd HH:mm[:ss]` date out of the text of a post's date cell and
    rewrites it as `yyyy.MM.dd HH:mm:ss`. The regular expression is
    `(?<date>\d{4}[./-]\d{2}[./-]\d{2})\s+(?<time>\d{2}:\d{2}(?::\d{2})?)`;
    its groups have fixed lengths apart from the white-space run and the
    optional seconds, so a match is decided position by position. */
module ExactDate {
  import opened Wrappers
  import opened Text

  /** A date separator accepted by `[./-]`. */
  predicate IsSep(c: char) {
    c == '.' || c == '/' || c == '-'
  }

  /** The ten characters from `i` read `dddd?dd?dd`. */
  predicate DateTextAt(s: string, i: nat) {
    && i + 10 <= |s|
    && IsDigit(s[i]) && IsDigit(s[i + 1]) && IsDigit(s[i + 2]) && IsDigit(s[i + 3])
    && IsSep(s[i + 4]) && IsDigit(s[i + 5]) && IsDigit(s[i + 6])
    && IsSep(s[i + 7]) && IsDigit(s[i + 8]) && IsDigit(s[i + 9])
  }

  /** The five characters from `t` read `dd:dd`. */
  predicate ShortTimeAt(s: string, t: nat) {
    t + 5 <= |s| && IsDigit(s[t]) && IsDigit(s[t + 1]) && s[t + 2] == ':' && IsDigit(s[t + 3]) && IsDigit(s[t + 4])
  }

  /** The optional `:dd` right after a short time at `t`. */
  predicate SecondsAt(s: string, t: nat) {
    t + 8 <= |s| && s[t + 5] == ':' && IsDigit(s[t + 6]) && IsDigit(s[t + 7])
  }

  /** Length of the white-space run starting at `i` (greedy `\s*`). */
  function WhiteRun(s: string, i: nat): (n: nat)
    requires i <= |s|
    ensures i + n <= |s|
    ensures i + n == |s| || !IsWhiteSpace(s[i + n])
    decreases |s| - i
  {
    if i < |s| && IsWhiteSpace(s[i]) then 1 + WhiteRun(s, i + 1) else 0
  }

  /** The two groups of one match. */
  datatype DateMatch = DateMatch(date: string, time: string)

  /** The match that starts exactly at `i`, if any. A shorter white-space
      run would leave white space where a digit must follow, so the greedy
      run is the only one; the seconds are taken whenever they are there. */
  function DateAt(s: string, i: nat): (r: Option<DateMatch>)
    ensures r.Some? ==> DateTextAt(s, i) && r.value.date == s[i..i + 10]
    ensures r.Some? ==> |r.value.time| == 5 || |r.value.time| == 8
  {
    if !DateTextAt(s, i) then None
    else
      var w := WhiteRun(s, i + 10);
      var t := i + 10 + w;
      if w == 0 || !ShortTimeAt(s, t) then None
      else if SecondsAt(s, t) then Some(DateMatch(s[i..i + 10], s[t..t + 8]))
      else Some(DateMatch(s[i..i + 10], s[t..t + 5]))
  }

  /** `Regex.Match`: the leftmost position from `i` on where a match starts. */
  function FirstDateFrom(s: string, i: nat): (r: Option<nat>)
    requires i <= |s|
    ensures r.Some? ==> i <= r.value < |s| && DateAt(s, r.value).Some?
    ensures forall k :: i <= k < (if r.Some? then r.value else |s|) ==> DateAt(s, k).None?
    decreases |s| - i
  {
    if i == |s| then None
    else if DateAt(s, i).Some? then Some(i)
    else FirstDateFrom(s, i + 1)
  }

  /** The date group with both kinds of separator turned into dots. */
  function Dotted(d: string): string {
    ReplaceChar(ReplaceChar(d, '-', '.'), '/', '.')
  }

  /** `dddd.dd.dd`. */
  predicate DottedDate(d: string) {
    && |d| == 10
    && IsDigit(d[0]) && IsDigit(d[1]) && IsDigit(d[2]) && IsDigit(d[3]) && d[4] == '.'
    && IsDigit(d[5]) && IsDigit(d[6]) && d[7] == '.' && IsDigit(d[8]) && IsDigit(d[9])
  }

  /** `dd:dd:dd`. */
  predicate FullTime(t: string) {
    |t| == 8 && IsDigit(t[0]) && IsDigit(t[1]) && t[2] == ':' && IsDigit(t[3]) && IsDigit(t[4])
    && t[5] == ':' && IsDigit(t[6]) && IsDigit(t[7])
  }

  /** The canonical form `dddd.dd.dd dd:dd:dd`. */
  predicate Canonical(r: string) {
    |r| == 19 && DottedDate(r[..10]) && r[10] == ' ' && FullTime(r[11..])
  }

  /** The text one match is rewritten to. */
  function Rewrite(m: DateMatch): string {
    Dotted(m.date) + " " + m.time + (if |m.time| == 5 then ":00" else "")
  }

  /** `NormalizeExactDateText`: the first match rewritten canonically, or
      the text unchanged when nothing matches. Text around the match is
      dropped; only the first match counts. */
  function NormalizeExactDateText(value: string): (r: string)
    ensures (forall k :: 0 <= k < |value| ==> DateAt(value, k).None?) ==> r == value
    ensures (exists k :: 0 <= k < |value| && DateAt(value, k).Some?) ==> Canonical(r)
  {
    match FirstDateFrom(value, 0)
    case None => value
    case Some(i) =>
      var m := DateAt(value, i).value;
      RewriteCanonical(value, i);
      Rewrite(m)
  }

  /** What the rewrite keeps: the year, month, day, hour and minute digits of
      the first match, and its seconds when it has them. */
  lemma NormalizeKeepsDigits(value: string, i: nat)
    requires i < |value| && DateAt(value, i).Some?
    requires forall k :: 0 <= k < i ==> DateAt(value, k).None?
    ensures var r := NormalizeExactDateText(value);
      var m := DateAt(value, i).value;
      && r[0..4] == value[i..i + 4] && r[5..7] == value[i + 5..i + 7] && r[8..10] == value[i + 8..i + 10]
      && r[11..16] == m.time[..5]
      && r[17..19] == (if |m.time| == 8 then m.time[6..8] else "00")
  {
    FirstDateIs(value, 0, i);
    var m := DateAt(value, i).value;
    RewriteParts(m);
    DottedKeepsDigits(value, i, Rewrite(m));
  }

  /** The digit fields of the date group survive the dotting. */
  lemma DottedKeepsDigits(s: string, i: nat, r: string)
    requires DateTextAt(s, i) && |r| >= 10 && r[..10] == Dotted(s[i..i + 10])
    ensures r[0..4] == s[i..i + 4] && r[5..7] == s[i + 5..i + 7] && r[8..10] == s[i + 8..i + 10]
  {
    var d := s[i..i + 10];
    forall k | 0 <= k < 10 && k != 4 && k != 7
      ensures r[k] == s[i + k]
    {
      assert r[k] == r[..10][k] == Dotted(d)[k];
      assert d[k] == s[i + k];
    }
  }

  lemma FirstDateIs(s: string, i: nat, j: nat)
    requires i <= j < |s| && DateAt(s, j).Some?
    requires forall k :: i <= k < j ==> DateAt(s, k).None?
    ensures FirstDateFrom(s, i) == Some(j)
    decreases j - i
  {
    if i < j {
      FirstDateIs(s, i + 1, j);
    }
  }

  /** Where each piece of a rewritten match lands. */
  lemma RewriteParts(m: DateMatch)
    requires |m.date| == 10 && (|m.time| == 5 || |m.time| == 8)
    ensures var r := Rewrite(m);
      && |r| == 19 && r[..10] == Dotted(m.date) && r[10] == ' ' && r[11..16] == m.time[..5]
      && r[16] == (if |m.time| == 8 then m.time[5] else ':')
      && r[17..19] == (if |m.time| == 8 then m.time[6..8] else "00")
  {
    var r := Rewrite(m);
    var tail := m.time + (if |m.time| == 5 then ":00" else "");
    assert r == Dotted(m.date) + " " + tail;
    assert r[11..19] == tail;
  }

  lemma CanonicalConcat(d: string, t: string)
    requires DottedDate(d) && FullTime(t)
    ensures Canonical(d + " " + t)
  {
    assert (d + " " + t)[..10] == d;
    assert (d + " " + t)[11..] == t;
  }

  /** The time group, with `:00` added when the seconds are missing, reads `dd:dd:dd`. */
  lemma TimeCompleted(s: string, t: nat, time: string)
    requires ShortTimeAt(s, t)
    requires time == s[t..t + 5] || (SecondsAt(s, t) && time == s[t..t + 8])
    ensures FullTime(time + (if |time| == 5 then ":00" else ""))
  {
  }

  /** A match rewrites to canonical text. */
  lemma RewriteCanonical(s: string, i: nat)
    requires DateAt(s, i).Some?
    ensures Canonical(Rewrite(DateAt(s, i).value))
  {
    var m := DateAt(s, i).value;
    DotsInDate(s, i);
    var t := i + 10 + WhiteRun(s, i + 10);
    TimeCompleted(s, t, m.time);
    CanonicalConcat(Dotted(m.date), m.time + (if |m.time| == 5 then ":00" else ""));
    assert Rewrite(m) == Dotted(m.date) + " " + (m.time + (if |m.time| == 5 then ":00" else ""));
  }

  /** The dotted date group reads `dddd.dd.dd`. */
  lemma DotsInDate(s: string, i: nat)
    requires DateTextAt(s, i)
    ensures DottedDate(Dotted(s[i..i + 10]))
  {
  }

  /** Canonical text is its own first match. */
  lemma CanonicalMatch(r: string)
    requires Canonical(r)
    ensures DateAt(r, 0) == Some(DateMatch(r[..10], r[11..19]))
  {
    assert WhiteRun(r, 11) == 0;
    assert WhiteRun(r, 10) == 1;
  }

  /** The dotted form of canonical date text is itself. */
  lemma DottedCanonical(d: string)
    requires |d| == 10 && forall k :: 0 <= k < 10 ==> d[k] != '-' && d[k] != '/'
    ensures Dotted(d) == d
  {
  }

  /** Normalising twice is normalising once. */
  lemma NormalizeExactDateIdempotent(value: string)
    ensures NormalizeExactDateText(NormalizeExactDateText(value)) == NormalizeExactDateText(value)
  {
    var r := NormalizeExactDateText(value);
    if FirstDateFrom(value, 0).Some? {
      assert Canonical(r);
      CanonicalMatch(r);
      FirstDateIs(r, 0, 0);
      var m := DateMatch(r[..10], r[11..19]);
      DottedCanonical(r[..10]);
      RewriteParts(m);
      assert Rewrite(m) == r;
    }
  }
}

=== FILE: joining.dfy ===
/** Opening a lobby link: `TryJoinLobby` with its gates (auto-join switch,
    cooldown, one automatic attempt per entry) and the two ways of marking
    an entry as attempted. Starting the external process is a parameter:
    `launchOk` says whether `Process.Start` returned normally. */
module Joining {
  import opened Wrappers
  import opened Text
  import opened Lobby
  import opened Registry

  datatype JoinOutcome = Skipped | LaunchFailed | Launched

  datatype Joined = Joined(registry: Registry, outcome: JoinOutcome)

  /** `Math.Max(JoinCooldownSeconds, 0)`. */
  function JoinCooldown(cfg: Config): nat {
    Max(cfg.joinCooldown, 0)
  }

  /** The entry indexed under the link, ignoring case. */
  predicate Indexed(r: Registry, link: string) {
    Fold(link) in r.byLink && r.byLink[Fold(link)] in r.heap
  }

  /** `TryMarkAutoJoin`: claims the single automatic attempt of a Valid
      entry. */
  function TryMarkAutoJoin(r: Registry, link: string): (res: (Registry, bool))
    ensures var (r', marked) := res;
      && (marked <==> !IsBlank(link) && Indexed(r, link) && r.heap[r.byLink[Fold(link)]].status == Valid
                      && !r.heap[r.byLink[Fold(link)]].autoJoinAttempted)
      && (marked ==> r' == r.(heap := r.heap[r.byLink[Fold(link)] := r.heap[r.byLink[Fold(link)]].(autoJoinAttempted := true)]))
      && (!marked ==> r' == r)
  {
    if IsBlank(link) || !Indexed(r, link) then (r, false)
    else
      var h := r.byLink[Fold(link)];
      var e := r.heap[h];
      if e.status != Valid || e.autoJoinAttempted then (r, false)
      else (r.(heap := r.heap[h := e.(autoJoinAttempted := true)]), true)
  }

  /** `MarkAutoJoinAttempted`: a manual join also uses up the automatic
      attempt. */
  function MarkAutoJoinAttempted(r: Registry, link: string): (r': Registry)
    ensures !IsBlank(link) && Indexed(r, link) ==>
              r' == r.(heap := r.heap[r.byLink[Fold(link)] := r.heap[r.byLink[Fold(link)]].(autoJoinAttempted := true)])
    ensures IsBlank(link) || !Indexed(r, link) ==> r' == r
  {
    if IsBlank(link) || !Indexed(r, link) then r
    else
      var h := r.byLink[Fold(link)];
      r.(heap := r.heap[h := r.heap[h].(autoJoinAttempted := true)])
  }

  /** The cooldown since the last successful launch has not yet passed. */
  predicate CoolingDown(r: Registry, cfg: Config, now: nat) {
    JoinCooldown(cfg) > 0 && r.lastJoin.At? && now - r.lastJoin.t < JoinCooldown(cfg)
  }

  /** `TryJoinLobby(link, force)`. */
  function TryJoinLobby(r: Registry, cfg: Config, now: nat, link: string, force: bool, launchOk: bool): (j: Joined)
    ensures j.outcome != Skipped <==>
              force || (cfg.autoJoin && !CoolingDown(r, cfg, now) && TryMarkAutoJoin(r, link).1)
    ensures j.outcome == Launched <==> j.outcome != Skipped && launchOk
    ensures j.registry.lastJoin == if j.outcome == Launched then At(now) else r.lastJoin
    ensures j.registry.(heap := r.heap, lastJoin := r.lastJoin) == r
    ensures j.registry.heap.Keys == r.heap.Keys
    ensures forall h :: h in r.heap ==>
              j.registry.heap[h] == r.heap[h] || j.registry.heap[h] == r.heap[h].(autoJoinAttempted := true)
  {
    if !force && !cfg.autoJoin then Joined(r, Skipped)
    else if !force && CoolingDown(r, cfg, now) then Joined(r, Skipped)
    else
      var (r1, go) := if force then (MarkAutoJoinAttempted(r, link), true) else TryMarkAutoJoin(r, link);
      if !go then Joined(r, Skipped)
      else if launchOk then Joined(r1.(lastJoin := At(now)), Launched)
      else Joined(r1, LaunchFailed)
  }

  /** After any attempt on a link whose entry is indexed, that entry's
      automatic attempt is used up, so a second automatic join of the same
      link is skipped. */
  lemma AutoJoinAtMostOnce(r: Registry, cfg: Config, now: nat, later: nat, link: string, force: bool, ok1: bool, ok2: bool)
    requires TryJoinLobby(r, cfg, now, link, force, ok1).outcome != Skipped
    requires !IsBlank(link) && Indexed(r, link)
    ensures TryJoinLobby(TryJoinLobby(r, cfg, now, link, force, ok1).registry, cfg, later, link, false, ok2).outcome == Skipped
  {
  }

  /** Within the cooldown after a launch, automatic joins are skipped. */
  lemma NoAutoJoinDuringCooldown(r: Registry, cfg: Config, now: nat, later: nat, link: string, other: string,
                                 force: bool, ok: bool, ok2: bool)
    requires TryJoinLobby(r, cfg, now, link, force, ok).outcome == Launched
    requires now <= later < now + JoinCooldown(cfg)
    ensures TryJoinLobby(TryJoinLobby(r, cfg, now, link, force, ok).registry, cfg, later, other, false, ok2).outcome == Skipped
  {
  }

  /** Joining never touches the registry invariant. */
  lemma TryJoinLobbyInv(r: Registry, cfg: Config, now: nat, link: string, force: bool, launchOk: bool)
    requires Inv(r)
    ensures Inv(TryJoinLobby(r, cfg, now, link, force, launchOk).registry)
  {
    SameLobbyKeepsInv(r, TryJoinLobby(r, cfg, now, link, force, launchOk).registry);
  }
}

=== FILE: listing.dfy ===
/** Turning the rows of a gallery list page into posts: `TryExtractPostInfo`
    and `ExtractPostInfos`, the same in the crawler and in the plugin (the
    plugin also counts what it saw). A row is given by the values the DOM
    queries return, already cleaned of markup. */
module Listing {
  import opened Wrappers
  import opened Text
  import opened Posts

  /** The title anchor `td.gall_tit a`: its `href` attribute (absent or
      present), that attribute after HTML entity decoding, and its cleaned
      text. */
  datatype Anchor = Anchor(href: Option<string>, decodedHref: string, text: string)

  /** One `tr.ub-content` row. `dataNo` is the `data-no` attribute; the other
      fields are the cleaned texts of the post-number, reply-count, author
      and view-count cells and the formatted date. */
  datatype Row = Row(
    anchor: Option<Anchor>,
    replyText: Option<string>,
    dataNo: Option<string>,
    numText: string,
    author: string,
    date: string,
    viewText: string)

  /** What became of one row. */
  datatype Verdict = Accepted(post: PostInfo) | MissingTitle | MissingHref | NotDetail

  /** The path every post page's link contains. */
  const DetailPath: string := "board/view"

  /** `ExtractPostId`: the `data-no` attribute, or the post-number cell when
      the attribute is missing or blank. */
  function PostId(row: Row): (id: string)
    ensures !IsBlankOrNull(row.dataNo) ==> id == row.dataNo.value
    ensures IsBlankOrNull(row.dataNo) ==> id == row.numText
  {
    if IsBlankOrNull(row.dataNo) then row.numText else row.dataNo.value
  }

  /** `TryExtractPostInfo`: rows without a title anchor, with a missing or
      blank link, or whose link is not a post page are dropped; the others
      become a post whose title carries the reply count. */
  function TryExtractPostInfo(row: Row): (v: Verdict)
    ensures v == MissingTitle <==> row.anchor.None?
    ensures v == MissingHref <==> row.anchor.Some? && IsBlankOrNull(row.anchor.value.href)
    ensures v.Accepted? <==>
      row.anchor.Some? && !IsBlankOrNull(row.anchor.value.href) && ContainsIgnoreCase(row.anchor.value.href.value, DetailPath)
    ensures v.Accepted? ==> StartsWithIgnoreCase(v.post.url, "http")
    ensures v.Accepted? ==> |row.anchor.value.text| <= |v.post.title|
                            && v.post.title[..|row.anchor.value.text|] == row.anchor.value.text
    ensures v.Accepted? ==> var a := row.anchor.value;
      && v.post.id == PostId(row)
      && v.post.title == WithReplyCount(a.text, ParseIntFromText(row.replyText))
      && v.post.author == row.author && v.post.date == row.date
      && v.post.url == NormalizeUrl(a.decodedHref)
      && (HasDigit(row.viewText) ==> v.post.views == DigitsOnly(row.viewText))
      && (!HasDigit(row.viewText) ==> v.post.views == row.viewText)
  {
    match row.anchor
    case None => MissingTitle
    case Some(a) =>
      if IsBlankOrNull(a.href) then MissingHref
      else if !ContainsIgnoreCase(a.href.value, DetailPath) then NotDetail
      else
        var title := WithReplyCount(a.text, ParseIntFromText(row.replyText));
        Accepted(PostInfo(PostId(row), title, row.author, row.date, ExtractViewCount(row.viewText),
                          NormalizeUrl(a.decodedHref)))
  }

  /** The post a row contributes, if any. */
  function PostsOf(row: Row): seq<PostInfo> {
    match TryExtractPostInfo(row)
    case Accepted(p) => [p]
    case _ => []
  }

  /** Reference definition: every accepted row's post, in row order. */
  function AcceptedPosts(rows: seq<Row>): seq<PostInfo> {
    if |rows| == 0 then [] else AcceptedPosts(rows[..|rows| - 1]) + PostsOf(rows[|rows| - 1])
  }

  /** How many rows got verdict `v`. */
  function CountVerdict(rows: seq<Row>, v: Verdict): nat {
    if |rows| == 0 then 0
    else CountVerdict(rows[..|rows| - 1], v) + (if TryExtractPostInfo(rows[|rows| - 1]) == v then 1 else 0)
  }

  /** The plugin's `ListParseDiagnostics` counters (the document title it
      also records is not modelled). */
  datatype ListDiagnostics = ListDiagnostics(
    rowCount: nat,
    subjectMatchCount: nat,
    missingTitleCount: nat,
    missingHrefCount: nat,
    postInfoCount: nat)

  /** The accepted posts of a prefix are a prefix of the accepted posts. */
  lemma {:induction false} AcceptedPrefix(rows: seq<Row>, k: nat)
    requires k <= |rows|
    ensures |AcceptedPosts(rows[..k])| <= |AcceptedPosts(rows)|
    ensures AcceptedPosts(rows[..k]) == AcceptedPosts(rows)[..|AcceptedPosts(rows[..k])|]
    decreases |rows| - k
  {
    if k < |rows| {
      var init := rows[..|rows| - 1];
      AcceptedPrefix(init, k);
      assert init[..k] == rows[..k];
    } else {
      assert rows[..k] == rows;
    }
  }

  /** `ExtractPostInfos`: the rows are read in order until `maxPosts` posts
      have been accepted; rejected rows do not count toward the cap. */
  method ExtractPostInfos(rows: seq<Row>, maxPosts: int) returns (posts: seq<PostInfo>, diag: ListDiagnostics)
    ensures posts == AcceptedPosts(rows)[..Min(Cap(maxPosts), |AcceptedPosts(rows)|)]
    ensures diag.rowCount == |rows| && diag.postInfoCount == |posts|
    ensures diag.subjectMatchCount <= |rows|
    ensures diag.subjectMatchCount < |rows| ==> |posts| == Cap(maxPosts)
    ensures posts == AcceptedPosts(rows[..diag.subjectMatchCount])
    ensures diag.missingTitleCount == CountVerdict(rows[..diag.subjectMatchCount], MissingTitle)
    ensures diag.missingHrefCount == CountVerdict(rows[..diag.subjectMatchCount], MissingHref)
  {
    posts := [];
    var remaining := maxPosts;
    var i := 0;
    var missingTitle, missingHref := 0, 0;
    while i < |rows| && remaining > 0
      invariant 0 <= i <= |rows|
      invariant posts == AcceptedPosts(rows[..i])
      invariant remaining == maxPosts - |posts|
      invariant maxPosts <= 0 ==> i == 0
      invariant maxPosts > 0 ==> |posts| <= maxPosts
      invariant missingTitle == CountVerdict(rows[..i], MissingTitle)
      invariant missingHref == CountVerdict(rows[..i], MissingHref)
    {
      assert rows[..i + 1][..i] == rows[..i];
      var v := TryExtractPostInfo(rows[i]);
      if v == MissingTitle {
        missingTitle := missingTitle + 1;
      } else if v == MissingHref {
        missingHref := missingHref + 1;
      }
      if v.Accepted? {
        posts := posts + [v.post];
        remaining := remaining - 1;
      }
      i := i + 1;
    }
    diag := ListDiagnostics(|rows|, i, missingTitle, missingHref, |posts|);
    CapIsPrefix(rows, i, maxPosts);
  }

  /** Stopping after row `k`, either because the rows ran out or because the
      cap was reached, leaves the first accepted posts up to the cap. */
  lemma CapIsPrefix(rows: seq<Row>, k: nat, maxPosts: int)
    requires k <= |rows|
    requires maxPosts <= 0 ==> k == 0
    requires maxPosts > 0 ==> |AcceptedPosts(rows[..k])| <= maxPosts
    requires k < |rows| ==> |AcceptedPosts(rows[..k])| == Cap(maxPosts)
    ensures AcceptedPosts(rows[..k]) == AcceptedPosts(rows)[..Min(Cap(maxPosts), |AcceptedPosts(rows)|)]
  {
    AcceptedPrefix(rows, k);
    if k == |rows| {
      assert rows[..k] == rows;
    }
  }

  /** The number of posts `maxPosts` lets through. */
  function Cap(maxPosts: int): nat {
    if maxPosts <= 0 then 0 else maxPosts
  }

  function Min(a: int, b: int): int {
    if a <= b then a else b
  }
}

=== FILE: lobby.dfy ===
/** The records the registry keeps: `LobbyEntry` with its list of
    `PostSource`s, the check status, the validation mode, and the
    per-entry classification step of `AddLobbyEntry`. Times are whole
    seconds; `Never` stands for `DateTime.MinValue`. */
module Lobby {
  import opened Wrappers
  import opened Text
  import opened Posts
  import opened SteamLinks

  datatype Status = Unknown | Checking | Valid | Full | Invalid | SteamUnavailable

  datatype Time = Never | At(t: nat)

  /** A post that mentioned the link, as of the last time it did. */
  datatype PostSource = PostSource(id: string, title: string, author: string, date: string, views: string,
                                   url: string, added: nat)

  /** `new PostSource(postInfo)` and `UpdateFrom(postInfo)`: every field
      copied from the post, stamped with the current time. */
  function SourceOf(p: PostInfo, now: nat): (s: PostSource)
    ensures s.id == p.id && s.title == p.title && s.author == p.author
    ensures s.date == p.date && s.views == p.views && s.url == p.url && s.added == now
  {
    PostSource(p.id, p.title, p.author, p.date, p.views, p.url, now)
  }

  /** No two sources share a post URL, ignoring case. */
  predicate UniqueUrls(sources: seq<PostSource>) {
    forall i, j :: 0 <= i < j < |sources| ==> Fold(sources[i].url) != Fold(sources[j].url)
  }

  /** The first source whose URL equals `url` ignoring case, or `|sources|`. */
  function FindSource(sources: seq<PostSource>, url: string): (k: nat)
    ensures k <= |sources|
    ensures k < |sources| ==> Fold(sources[k].url) == Fold(url)
    ensures forall j :: 0 <= j < k ==> Fold(sources[j].url) != Fold(url)
  {
    if |sources| == 0 then 0
    else if Fold(sources[0].url) == Fold(url) then 0
    else 1 + FindSource(sources[1..], url)
  }

  /** `AddOrUpdateSource`: the first source with the post's URL is
      overwritten in place; without one, a source is appended. */
  function AddOrUpdateSource(sources: seq<PostSource>, p: PostInfo, now: nat): (r: seq<PostSource>)
    ensures |sources| <= |r| <= |sources| + 1
    ensures |r| == |sources| + 1 <==> forall j :: 0 <= j < |sources| ==> Fold(sources[j].url) != Fold(p.url)
    ensures SourceOf(p, now) in r
    ensures forall j :: 0 <= j < |sources| && Fold(sources[j].url) != Fold(p.url) ==> r[j] == sources[j]
    ensures forall j :: 0 <= j < |r| ==> r[j] in sources || r[j] == SourceOf(p, now)
  {
    var k := FindSource(sources, p.url);
    if k < |sources| then
      var r := sources[k := SourceOf(p, now)];
      assert r[k] == SourceOf(p, now);
      r
    else sources + [SourceOf(p, now)]
  }

  /** Upserting keeps the URLs unique. */
  lemma AddOrUpdateSourceUnique(sources: seq<PostSource>, p: PostInfo, now: nat)
    requires UniqueUrls(sources)
    ensures UniqueUrls(AddOrUpdateSource(sources, p, now))
  {
    var r := AddOrUpdateSource(sources, p, now);
    var k := FindSource(sources, p.url);
    forall i, j | 0 <= i < j < |r|
      ensures Fold(r[i].url) != Fold(r[j].url)
    {
      if k < |sources| {
        if i == k {
          assert Fold(sources[j].url) != Fold(sources[k].url);
        } else if j == k {
          assert Fold(sources[i].url) != Fold(sources[k].url);
        }
      }
    }
  }

  /** Upserting the same post twice at the same time is upserting it once. */
  lemma AddOrUpdateSourceIdempotent(sources: seq<PostSource>, p: PostInfo, now: nat)
    ensures AddOrUpdateSource(AddOrUpdateSource(sources, p, now), p, now) == AddOrUpdateSource(sources, p, now)
  {
    var r := AddOrUpdateSource(sources, p, now);
    var k := FindSource(sources, p.url);
    if k < |sources| {
      FindSourceAfterUpdate(sources, p, now, k);
    } else {
      FindSourceAppended(sources, p, now);
    }
  }

  lemma FindSourceAfterUpdate(sources: seq<PostSource>, p: PostInfo, now: nat, k: nat)
    requires k == FindSource(sources, p.url) && k < |sources|
    ensures FindSource(sources[k := SourceOf(p, now)], p.url) == k
  {
    FindSourceIs(sources[k := SourceOf(p, now)], p.url, k);
  }

  lemma FindSourceAppended(sources: seq<PostSource>, p: PostInfo, now: nat)
    requires FindSource(sources, p.url) == |sources|
    ensures FindSource(sources + [SourceOf(p, now)], p.url) == |sources|
  {
    FindSourceIs(sources + [SourceOf(p, now)], p.url, |sources|);
  }

  lemma {:induction false} FindSourceIs(sources: seq<PostSource>, url: string, k: nat)
    requires k < |sources| && Fold(sources[k].url) == Fold(url)
    requires forall j :: 0 <= j < k ==> Fold(sources[j].url) != Fold(url)
    ensures FindSource(sources, url) == k
  {
    if k > 0 {
      FindSourceIs(sources[1..], url, k - 1);
    }
  }

  /** One lobby link in the registry. `lobbyId == 0` means the link has not
      (or not usefully) been parsed: `HasLobbyId` is `LobbyId != 0`. */
  datatype LobbyEntry = LobbyEntry(
    link: string,
    app: nat,
    lobbyId: nat,
    host: nat,
    firstSeen: nat,
    lastSeen: nat,
    lastCheck: Time,
    pending: bool,
    status: Status,
    autoJoinAttempted: bool,
    memberCount: int,
    memberLimit: int,
    sources: seq<PostSource>)
  {
    predicate HasLobbyId() {
      lobbyId != 0
    }
  }

  /** `new LobbyEntry(link)`. */
  function NewEntry(link: string, now: nat): (e: LobbyEntry)
    ensures e.link == link && e.firstSeen == now && e.lastSeen == now && e.status == Unknown
    ensures !e.HasLobbyId() && !e.pending && !e.autoJoinAttempted && e.lastCheck == Never
    ensures e.memberCount == -1 && e.memberLimit == -1 && e.sources == []
  {
    LobbyEntry(link, 0, 0, 0, now, now, Never, false, Unknown, false, -1, -1, [])
  }

  datatype ValidationMode = None | FormatOnly | Steam

  /** `GetValidationMode`: the trimmed setting, matched ignoring case against
      the three mode names; blank or unknown text means FormatOnly. */
  function GetValidationMode(text: string): (m: ValidationMode)
    ensures EqualsIgnoreCase(Trim(text), "None") <==> m == ValidationMode.None
    ensures EqualsIgnoreCase(Trim(text), "Steam") <==> m == Steam
  {
    var t := Trim(text);
    if IsBlank(t) then FormatOnly
    else if EqualsIgnoreCase(t, "None") then ValidationMode.None
    else if EqualsIgnoreCase(t, "FormatOnly") then FormatOnly
    else if EqualsIgnoreCase(t, "Steam") then Steam
    else FormatOnly
  }

  /** `TryInitializeSteamValidation`: Steam checks run only when validation
      is on, the mode is Steam and the callback could be registered. */
  function SteamValidationEnabled(validate: bool, modeText: string, callbackRegistered: bool): (enabled: bool)
    ensures enabled ==> validate && GetValidationMode(modeText) == Steam
    ensures validate && GetValidationMode(modeText) == Steam && callbackRegistered ==> enabled
  {
    validate && GetValidationMode(modeText) == Steam && callbackRegistered
  }

  /** The plugin settings the registry reads. `steamValidationEnabled` is the
      flag computed once at start-up; the other settings are read live. */
  datatype Config = Config(
    maxLobbyEntries: int,
    validate: bool,
    validationMode: string,
    validationInterval: int,
    expectedAppId: int,
    autoJoin: bool,
    joinCooldown: int,
    steamValidationEnabled: bool)

  /** Default settings of a fresh configuration file. */
  const DefaultConfig: Config := Config(200, true, "FormatOnly", 60, 3527290, false, 10, false)

  /** The default mode text selects FormatOnly, so the start-up flag of the
      default settings is off whether or not the callback registers. */
  lemma DefaultConfigFlagOff(registered: bool)
    ensures GetValidationMode(DefaultConfig.validationMode) != Steam
    ensures DefaultConfig.steamValidationEnabled
              == SteamValidationEnabled(DefaultConfig.validate, DefaultConfig.validationMode, registered)
  {
    var text := DefaultConfig.validationMode;
    assert GetValidationMode(text) != Steam by {
      assert Trim(text) == text by {
        assert !IsWhiteSpace(text[0]) && !IsWhiteSpace(text[|text| - 1]);
        TrimUnchanged(text);
      }
      assert |Fold(text)| == 10 && |Fold("Steam")| == 5;
      assert !EqualsIgnoreCase(Trim(text), "Steam");
    }
  }

  function Max(a: int, b: int): int {
    if a >= b then a else b
  }

  /** The expected app id as the plugin reads it: `(uint)Math.Max(x, 0)`. */
  function ExpectedApp(cfg: Config): nat {
    Max(cfg.expectedAppId, 0)
  }

  /** The seconds between two Steam checks of one entry: at least 5. */
  function CheckInterval(cfg: Config): nat {
    Max(cfg.validationInterval, 5)
  }

  /** The check interval has elapsed: never checked, or checked at least
      `interval` seconds ago. */
  predicate IntervalElapsed(last: Time, now: nat, interval: nat) {
    last.Never? || now - last.t >= interval
  }

  /** Status and member fields after a classification that clears the counts. */
  function Mark(e: LobbyEntry, s: Status): (r: LobbyEntry)
    ensures r == e.(status := s, memberCount := -1, memberLimit := -1)
  {
    e.(status := s, memberCount := -1, memberLimit := -1)
  }

  /** Result of classifying an entry: the entry and whether its lobby id is
      to be queued for a Steam check. */
  datatype Classified = Classified(entry: LobbyEntry, enqueue: bool)

  /** The classification at the end of `AddLobbyEntry`, for an entry that
      has a lobby id. */
  function Classify(e: LobbyEntry, cfg: Config, now: nat): (c: Classified)
    ensures !e.HasLobbyId() ==> c == Classified(e, false)
    ensures c.entry.(status := e.status, memberCount := e.memberCount, memberLimit := e.memberLimit,
                     pending := e.pending, lastCheck := e.lastCheck) == e
    ensures c.enqueue <==> e.HasLobbyId() && (ExpectedApp(cfg) == 0 || e.app == ExpectedApp(cfg))
                           && cfg.validate && GetValidationMode(cfg.validationMode) == Steam
                           && cfg.steamValidationEnabled && !e.pending
                           && IntervalElapsed(e.lastCheck, now, CheckInterval(cfg))
    ensures c.enqueue ==> c.entry == Mark(e, Checking).(pending := true, lastCheck := At(now))
    ensures c.entry.pending != e.pending ==> c.enqueue
    ensures e.HasLobbyId() && ExpectedApp(cfg) != 0 && e.app != ExpectedApp(cfg) ==> c.entry == Mark(e, Invalid)
  {
    if !e.HasLobbyId() then Classified(e, false)
    else if ExpectedApp(cfg) != 0 && e.app != ExpectedApp(cfg) then Classified(Mark(e, Invalid), false)
    else
      var mode := GetValidationMode(cfg.validationMode);
      if !cfg.validate || mode == ValidationMode.None then Classified(Mark(e, Unknown), false)
      else if mode == FormatOnly then Classified(Mark(e, Valid), false)
      else if cfg.steamValidationEnabled && !e.pending then
        if IntervalElapsed(e.lastCheck, now, CheckInterval(cfg)) then
          Classified(Mark(e, Checking).(pending := true, lastCheck := At(now)), true)
        else Classified(e, false)
      else if cfg.steamValidationEnabled then Classified(Mark(e, Checking), false)
      else Classified(Mark(e, SteamUnavailable), false)
  }

  /** Everything but Steam mode settles the status from the settings alone:
      off or None gives Unknown, FormatOnly gives Valid, a foreign app gives
      Invalid, always with the member counts cleared and nothing queued. */
  lemma ClassifyWithoutSteam(e: LobbyEntry, cfg: Config, now: nat)
    requires e.HasLobbyId() && GetValidationMode(cfg.validationMode) != Steam
    ensures var c := Classify(e, cfg, now);
      && !c.enqueue && c.entry.memberCount == -1 && c.entry.memberLimit == -1
      && c.entry.status == (if ExpectedApp(cfg) != 0 && e.app != ExpectedApp(cfg) then Invalid
                            else if !cfg.validate || GetValidationMode(cfg.validationMode) == ValidationMode.None then Unknown
                            else Valid)
  {
  }

  /** A second classification inside the check interval queues nothing. */
  lemma NoRequeueWithinInterval(e: LobbyEntry, cfg: Config, now: nat, later: nat)
    requires Classify(e, cfg, now).enqueue && now <= later < now + CheckInterval(cfg)
    ensures !Classify(Classify(e, cfg, now).entry, cfg, later).enqueue
  {
  }

  /** `GetStatusSortRank`: Valid > Full > Checking > Unknown > SteamUnavailable > Invalid. */
  function StatusRank(s: Status): (r: nat)
    ensures r <= 5
    ensures r == 5 <==> s == Valid
    ensures r == 0 <==> s == Invalid
  {
    match s
    case Valid => 5
    case Full => 4
    case Checking => 3
    case Unknown => 2
    case SteamUnavailable => 1
    case Invalid => 0
  }

  /** The ranks fall strictly along the order `GetStatusSortRank` encodes. */
  lemma StatusRankOrder()
    ensures StatusRank(Valid) > StatusRank(Full) > StatusRank(Checking) > StatusRank(Unknown)
            > StatusRank(SteamUnavailable) > StatusRank(Invalid)
  {
  }

  /** The ranks order the statuses strictly: distinct statuses never tie. */
  lemma StatusRankInjective(a: Status, b: Status)
    ensures StatusRank(a) == StatusRank(b) <==> a == b
  {
  }
}

=== FILE: poll.dfy ===
/** The plugin's poll (`PollOnceAsync`): which listed posts are fetched
    again, and what a fetched post page adds to the registry. The list
    itself comes from `Listing.ExtractPostInfos`; the blank-URL, failed-list
    and empty-list returns all leave the state as an empty list does. A
    post page is an input: `None` for a failed or blank fetch, otherwise
    its text and the exact date read from it. */
module Poll {
  import opened Wrappers
  import opened Text
  import opened Posts
  import opened SteamLinks
  import opened Lobby
  import opened Registry
  import opened Joining

  /** A fetched post page: its HTML and the exact posting date found in it
      (blank when none was found). */
  datatype Page = Page(html: string, exactDate: string)

  /** `_seenPostUrls` and `_postInfoByUrl`, both keyed by URL ignoring case. */
  datatype Watch = Watch(seen: set<string>, cache: map<string, PostInfo>)

  /** The plugin's fetch decision for one listed post: a URL never seen, or
      a cached post whose list metadata differs in any way. The post then
      replaces the cached copy, fetched or not. */
  function Observe(w: Watch, post: PostInfo): (res: (Watch, bool))
    ensures res.0 == Watch(w.seen + {Fold(post.url)}, w.cache[Fold(post.url) := post])
    ensures res.1 <==> Fold(post.url) !in w.seen
                       || (Fold(post.url) in w.cache && w.cache[Fold(post.url)].(id := post.id, url := post.url) != post)
  {
    var key := Fold(post.url);
    var isNew := key !in w.seen;
    var needsFetch := isNew || (key in w.cache && HasListMetadataChanged(w.cache[key], post, AnyDifference));
    PluginChangeIff(if key in w.cache then w.cache[key] else post, post);
    (Watch(w.seen + {key}, w.cache[key := post]), needsFetch)
  }

  /** The decisions for a whole list, in order: the watch after it and, per
      post, whether it was fetched. */
  function Decide(w: Watch, posts: seq<PostInfo>): (res: (Watch, seq<bool>))
    ensures |res.1| == |posts|
    ensures res.0.seen == w.seen + set p | p in posts :: Fold(p.url)
    decreases |posts|
  {
    if |posts| == 0 then (w, [])
    else
      var (w1, f) := Observe(w, posts[0]);
      var (w2, fs) := Decide(w1, posts[1..]);
      assert posts == [posts[0]] + posts[1..];
      (w2, [f] + fs)
  }

  /** The URLs of the list are distinct, ignoring case. */
  predicate DistinctUrls(posts: seq<PostInfo>) {
    forall i, j :: 0 <= i < j < |posts| ==> Fold(posts[i].url) != Fold(posts[j].url)
  }

  /** After a poll the cache holds every listed post under its URL. */
  lemma {:induction false} DecideCaches(w: Watch, posts: seq<PostInfo>)
    requires DistinctUrls(posts)
    ensures var w' := Decide(w, posts).0;
      forall i :: 0 <= i < |posts| ==> Fold(posts[i].url) in w'.cache && w'.cache[Fold(posts[i].url)] == posts[i]
    decreases |posts|
  {
    if |posts| > 0 {
      var w1 := Observe(w, posts[0]).0;
      var rest := posts[1..];
      assert DistinctUrls(rest) by {
        forall i, j | 0 <= i < j < |rest| ensures Fold(rest[i].url) != Fold(rest[j].url) {
          assert rest[i] == posts[i + 1] && rest[j] == posts[j + 1];
        }
      }
      DecideCaches(w1, rest);
      DecideKeepsOthers(w1, rest, Fold(posts[0].url));
    }
  }

  /** A poll leaves the cache entry of a URL it does not list alone. */
  lemma {:induction false} DecideKeepsOthers(w: Watch, posts: seq<PostInfo>, key: string)
    requires forall i :: 0 <= i < |posts| ==> Fold(posts[i].url) != key
    ensures var w' := Decide(w, posts).0;
      (key in w'.cache <==> key in w.cache) && (key in w.cache ==> w'.cache[key] == w.cache[key])
    decreases |posts|
  {
    if |posts| > 0 {
      DecideKeepsOthers(Observe(w, posts[0]).0, posts[1..], key);
    }
  }

  /** Polling the same list again fetches nothing: every URL is seen and
      cached with identical metadata, whatever the fetches returned. */
  lemma RepollFetchesNothing(w: Watch, posts: seq<PostInfo>)
    requires DistinctUrls(posts)
    ensures var w' := Decide(w, posts).0;
      forall i :: 0 <= i < |posts| ==> !Decide(w', posts).1[i]
  {
    var w' := Decide(w, posts).0;
    DecideCaches(w, posts);
    UnchangedNotFetched(w', posts);
  }

  /** A list every post of which is seen and cached as is fetches nothing. */
  lemma {:induction false} UnchangedNotFetched(w: Watch, posts: seq<PostInfo>)
    requires DistinctUrls(posts)
    requires forall i :: 0 <= i < |posts| ==>
               Fold(posts[i].url) in w.seen && Fold(posts[i].url) in w.cache && w.cache[Fold(posts[i].url)] == posts[i]
    ensures forall i :: 0 <= i < |posts| ==> !Decide(w, posts).1[i]
    decreases |posts|
  {
    if |posts| > 0 {
      var w1 := Observe(w, posts[0]).0;
      var rest := posts[1..];
      assert DistinctUrls(rest) by {
        forall i, j | 0 <= i < j < |rest| ensures Fold(rest[i].url) != Fold(rest[j].url) {
          assert rest[i] == posts[i + 1] && rest[j] == posts[j + 1];
        }
      }
      forall i | 0 <= i < |rest|
        ensures Fold(rest[i].url) in w1.seen && Fold(rest[i].url) in w1.cache && w1.cache[Fold(rest[i].url)] == rest[i]
      {
        assert rest[i] == posts[i + 1];
      }
      UnchangedNotFetched(w1, rest);
      var fs := Decide(w, posts).1;
      forall i | 0 <= i < |posts| ensures !fs[i] {
        if i > 0 {
          assert fs[i] == Decide(w1, rest).1[i - 1];
        }
      }
    }
  }

  // ---------------------------------------------------------------------
  // What a fetched page adds

  /** The post recorded for the links of a page: with the exact date when
      one was found. */
  function EffectivePost(post: PostInfo, page: Page): (p: PostInfo)
    ensures p.(date := post.date) == post
    ensures !IsBlank(page.exactDate) ==> p.date == page.exactDate
  {
    if IsBlank(page.exactDate) then post else post.WithDate(page.exactDate)
  }

  /** `AddLobbyEntry(link, post)` then `TryJoinLobby(link, false)` for each
      link, in order. */
  function AddLinks(r: Registry, cfg: Config, now: nat, links: seq<string>, post: PostInfo, launchOk: bool): (r': Registry)
    requires Inv(r)
    ensures Inv(r')
    ensures r'.version <= r.version + |links|
    decreases |links|
  {
    if |links| == 0 then r
    else
      AddLobbyEntryInv(r, cfg, now, links[0], post);
      var r1 := AddLobbyEntry(r, cfg, now, links[0], post);
      TryJoinLobbyInv(r1, cfg, now, links[0], false, launchOk);
      var r2 := TryJoinLobby(r1, cfg, now, links[0], false, launchOk).registry;
      AddLinks(r2, cfg, now, links[1..], post, launchOk)
  }

  /** A post page that was fetched and not blank. */
  predicate FetchedPage(fetch: string -> Option<Page>, post: PostInfo) {
    fetch(post.url).Some? && !IsBlank(fetch(post.url).value.html)
  }

  datatype PluginState = PluginState(watch: Watch, registry: Registry)

  /** One listed post: decide, fetch when needed, and add the page's
      links. `fetch` gives the page of a post URL. */
  function HandlePost(st: PluginState, cfg: Config, now: nat, post: PostInfo,
                      fetch: string -> Option<Page>, launchOk: bool): (st': PluginState)
    requires Inv(st.registry)
    ensures Inv(st'.registry)
    ensures st'.watch == Observe(st.watch, post).0
    ensures !Observe(st.watch, post).1 || !FetchedPage(fetch, post) ==> st'.registry == st.registry
  {
    var (w1, needsFetch) := Observe(st.watch, post);
    if needsFetch && FetchedPage(fetch, post) then
      var page := fetch(post.url).value;
      PluginState(w1, AddLinks(st.registry, cfg, now, ExtractSteamLinks(page.html), EffectivePost(post, page), launchOk))
    else PluginState(w1, st.registry)
  }

  /** One poll over the extracted list, post by post. The clock moves on
      while a post page is awaited, so `times[i]` is the time at which the
      links of `posts[i]` are handled; the times are whatever the clock
      read. */
  function PollOnce(st: PluginState, cfg: Config, times: seq<nat>, posts: seq<PostInfo>,
                    fetch: string -> Option<Page>, launchOk: bool): (st': PluginState)
    requires Inv(st.registry) && |times| == |posts|
    ensures Inv(st'.registry)
    ensures st'.watch == Decide(st.watch, posts).0
    decreases |posts|
  {
    if |posts| == 0 then st
    else PollOnce(HandlePost(st, cfg, times[0], posts[0], fetch, launchOk), cfg, times[1..], posts[1..], fetch, launchOk)
  }

  /** The entry the link index holds for `link` (ignoring case) has a
      source with the post's URL: the link is listed with that post. */
  ghost predicate Recorded(r: Registry, link: string, post: PostInfo) {
    && Fold(link) in r.byLink && r.byLink[Fold(link)] in r.heap
    && exists s :: s in r.heap[r.byLink[Fold(link)]].sources && Fold(s.url) == Fold(post.url)
  }

  /** The list is below the entry cap. A list that ends below the cap never
      reached it on the way, so `TrimLobbyEntries` evicted nothing. */
  predicate BelowCap(r: Registry, cfg: Config) {
    |r.order| < EntryCap(cfg)
  }

  lemma AddRecords(r: Registry, cfg: Config, now: nat, link: string, post: PostInfo)
    requires Inv(r) && !IsBlank(link)
    ensures var r' := AddLobbyEntry(r, cfg, now, link, post);
      BelowCap(r', cfg) ==> Recorded(r', link, post)
  {
    var r' := AddLobbyEntry(r, cfg, now, link, post);
    AddLobbyEntrySize(r, cfg, now, link, post);
    AddLobbyEntryRecords(r, cfg, now, link, post);
    if BelowCap(r', cfg) {
      AddLobbyEntryNoEviction(r, cfg, now, link, post);
    }
  }

  lemma AddKeepsRecorded(r: Registry, cfg: Config, now: nat, link: string, post: PostInfo, other: string, p: PostInfo)
    requires Inv(r) && Recorded(r, other, p)
    ensures var r' := AddLobbyEntry(r, cfg, now, link, post);
      BelowCap(r', cfg) ==> Recorded(r', other, p)
  {
    var r' := AddLobbyEntry(r, cfg, now, link, post);
    if !IsBlank(link) && BelowCap(r', cfg) {
      var g := r.byLink[Fold(other)];
      AddKeepsIndex(r, cfg, now, link, post, Fold(other));
      AddKeepsSource(r, cfg, now, link, post, g, p);
    }
  }

  /** Below the cap, `AddLobbyEntry` keeps every key of the link index on
      its entry. */
  lemma AddKeepsIndex(r: Registry, cfg: Config, now: nat, link: string, post: PostInfo, key: string)
    requires Inv(r) && !IsBlank(link) && key in r.byLink
    ensures var r' := AddLobbyEntry(r, cfg, now, link, post);
      BelowCap(r', cfg) ==> key in r'.byLink && r'.byLink[key] == r.byLink[key]
  {
    if BelowCap(AddLobbyEntry(r, cfg, now, link, post), cfg) {
      AddLobbyEntrySize(r, cfg, now, link, post);
      AddLobbyEntryNoEviction(r, cfg, now, link, post);
    }
  }

  /** `AddLobbyEntry` never drops a source URL from any entry. */
  lemma AddKeepsSource(r: Registry, cfg: Config, now: nat, link: string, post: PostInfo, g: nat, p: PostInfo)
    requires Inv(r) && !IsBlank(link) && g in r.heap
    requires exists s :: s in r.heap[g].sources && Fold(s.url) == Fold(p.url)
    ensures var r' := AddLobbyEntry(r, cfg, now, link, post);
      g in r'.heap && exists s :: s in r'.heap[g].sources && Fold(s.url) == Fold(p.url)
  {
    var r' := AddLobbyEntry(r, cfg, now, link, post);
    var h := EntryHandle(r, link);
    AddLobbyEntryRecords(r, cfg, now, link, post);
    if g == h {
      AddLobbyEntrySources(r, cfg, now, link, post);
      assert g < r.nextHandle;
      assert Fold(link) in r.byLink;
      var s :| s in r.heap[g].sources && Fold(s.url) == Fold(p.url);
      var j :| 0 <= j < |r.heap[g].sources| && r.heap[g].sources[j] == s;
      if Fold(s.url) == Fold(post.url) {
        assert SourceOf(post, now) in r'.heap[h].sources && Fold(SourceOf(post, now).url) == Fold(p.url);
      } else {
        var srcs := AddOrUpdateSource(r.heap[g].sources, post, now);
        assert srcs[j] == s;
        assert r'.heap[h].sources == srcs;
        assert s in r'.heap[h].sources;
      }
    } else {
      assert r'.heap[g] == r.heap[g];
    }
  }

  lemma JoinKeepsRecorded(r: Registry, cfg: Config, now: nat, link: string, launchOk: bool, other: string, p: PostInfo)
    requires Recorded(r, other, p)
    ensures Recorded(TryJoinLobby(r, cfg, now, link, false, launchOk).registry, other, p)
  {
    var r' := TryJoinLobby(r, cfg, now, link, false, launchOk).registry;
    var g := r.byLink[Fold(other)];
    assert r'.byLink == r.byLink && r'.heap[g].sources == r.heap[g].sources;
  }

  /** One link of a page: add it, then offer it to the auto-join gate. The
      list does not shrink below the cap, and the link is listed with the
      post unless the list is full. */
  lemma StepRecords(r: Registry, cfg: Config, now: nat, link: string, post: PostInfo, launchOk: bool) returns (r2: Registry)
    requires Inv(r)
    ensures Inv(r2)
    ensures r2 == TryJoinLobby(AddLobbyEntry(r, cfg, now, link, post), cfg, now, link, false, launchOk).registry
    ensures BelowCap(r2, cfg) ==> |r.order| <= |r2.order|
    ensures BelowCap(r2, cfg) && !IsBlank(link) ==> Recorded(r2, link, post)
  {
    AddLobbyEntryInv(r, cfg, now, link, post);
    var r1 := AddLobbyEntry(r, cfg, now, link, post);
    TryJoinLobbyInv(r1, cfg, now, link, false, launchOk);
    r2 := TryJoinLobby(r1, cfg, now, link, false, launchOk).registry;
    assert r2.order == r1.order;
    if !IsBlank(link) {
      AddLobbyEntrySize(r, cfg, now, link, post);
      AddRecords(r, cfg, now, link, post);
      if BelowCap(r1, cfg) {
        JoinKeepsRecorded(r1, cfg, now, link, launchOk, link, post);
      }
    }
  }

  lemma StepKeepsRecorded(r: Registry, cfg: Config, now: nat, link: string, post: PostInfo, launchOk: bool,
                          other: string, p: PostInfo)
    requires Inv(r) && Recorded(r, other, p)
    ensures var r2 := TryJoinLobby(AddLobbyEntry(r, cfg, now, link, post), cfg, now, link, false, launchOk).registry;
      BelowCap(r2, cfg) ==> Recorded(r2, other, p)
  {
    var r1 := AddLobbyEntry(r, cfg, now, link, post);
    AddKeepsRecorded(r, cfg, now, link, post, other, p);
    if BelowCap(r1, cfg) {
      JoinKeepsRecorded(r1, cfg, now, link, launchOk, other, p);
    }
  }

  /** A page's links never shrink the list while it stays below the cap. */
  lemma {:induction false} AddLinksGrows(r: Registry, cfg: Config, now: nat, links: seq<string>, post: PostInfo, launchOk: bool)
    requires Inv(r)
    ensures var r' := AddLinks(r, cfg, now, links, post, launchOk);
      BelowCap(r', cfg) ==> |r.order| <= |r'.order|
    decreases |links|
  {
    if |links| > 0 {
      var r2 := StepRecords(r, cfg, now, links[0], post, launchOk);
      AddLinksGrows(r2, cfg, now, links[1..], post, launchOk);
    }
  }

  /** After a fetched page, every non-blank link on it is listed with the
      post among its sources, provided the list ends below the cap. */
  lemma {:induction false} AddLinksRecords(r: Registry, cfg: Config, now: nat, links: seq<string>, post: PostInfo, launchOk: bool)
    requires Inv(r)
    ensures var r' := AddLinks(r, cfg, now, links, post, launchOk);
      BelowCap(r', cfg) ==> forall i :: 0 <= i < |links| && !IsBlank(links[i]) ==> Recorded(r', links[i], post)
    decreases |links|
  {
    if |links| > 0 {
      var r2 := StepRecords(r, cfg, now, links[0], post, launchOk);
      var r' := AddLinks(r2, cfg, now, links[1..], post, launchOk);
      assert r' == AddLinks(r, cfg, now, links, post, launchOk);
      AddLinksRecords(r2, cfg, now, links[1..], post, launchOk);
      AddLinksGrows(r2, cfg, now, links[1..], post, launchOk);
      if BelowCap(r', cfg) {
        if !IsBlank(links[0]) {
          AddLinksKeepsRecorded(r2, cfg, now, links[1..], post, launchOk, links[0], post);
        }
        forall i | 0 <= i < |links| && !IsBlank(links[i]) ensures Recorded(r', links[i], post) {
          if i > 0 {
            assert links[i] == links[1..][i - 1];
          }
        }
      }
    }
  }

  lemma {:induction false} AddLinksKeepsRecorded(r: Registry, cfg: Config, now: nat, links: seq<string>, post: PostInfo,
                                                 launchOk: bool, other: string, p: PostInfo)
    requires Inv(r) && Recorded(r, other, p)
    ensures var r' := AddLinks(r, cfg, now, links, post, launchOk);
      BelowCap(r', cfg) ==> Recorded(r', other, p)
    decreases |links|
  {
    if |links| > 0 {
      var r2 := StepRecords(r, cfg, now, links[0], post, launchOk);
      StepKeepsRecorded(r, cfg, now, links[0], post, launchOk, other, p);
      AddLinksGrows(r2, cfg, now, links[1..], post, launchOk);
      if BelowCap(AddLinks(r2, cfg, now, links[1..], post, launchOk), cfg) {
        AddLinksKeepsRecorded(r2, cfg, now, links[1..], post, launchOk, other, p);
      }
    }
  }

  /** A poll never shrinks the list while it stays below the cap. */
  lemma {:induction false} PollGrows(st: PluginState, cfg: Config, times: seq<nat>, posts: seq<PostInfo>,
                                     fetch: string -> Option<Page>, launchOk: bool)
    requires Inv(st.registry) && |times| == |posts|
    ensures var r' := PollOnce(st, cfg, times, posts, fetch, launchOk).registry;
      BelowCap(r', cfg) ==> |st.registry.order| <= |r'.order|
    decreases |posts|
  {
    if |posts| > 0 {
      var post := posts[0];
      if Observe(st.watch, post).1 && FetchedPage(fetch, post) {
        var page := fetch(post.url).value;
        AddLinksGrows(st.registry, cfg, times[0], ExtractSteamLinks(page.html), EffectivePost(post, page), launchOk);
      }
      PollGrows(HandlePost(st, cfg, times[0], post, fetch, launchOk), cfg, times[1..], posts[1..], fetch, launchOk);
    }
  }

  /** Links listed with a post before a poll stay listed with it after a
      poll that leaves the list below the cap. */
  lemma {:induction false} PollKeepsRecorded(st: PluginState, cfg: Config, times: seq<nat>, posts: seq<PostInfo>,
                                             fetch: string -> Option<Page>, launchOk: bool, other: string, p: PostInfo)
    requires Inv(st.registry) && |times| == |posts| && Recorded(st.registry, other, p)
    ensures var r' := PollOnce(st, cfg, times, posts, fetch, launchOk).registry;
      BelowCap(r', cfg) ==> Recorded(r', other, p)
    decreases |posts|
  {
    if |posts| > 0 {
      var post := posts[0];
      var st1 := HandlePost(st, cfg, times[0], post, fetch, launchOk);
      PollGrows(st1, cfg, times[1..], posts[1..], fetch, launchOk);
      if Observe(st.watch, post).1 && FetchedPage(fetch, post) {
        var page := fetch(post.url).value;
        AddLinksKeepsRecorded(st.registry, cfg, times[0], ExtractSteamLinks(page.html), EffectivePost(post, page), launchOk, other, p);
      }
      if BelowCap(PollOnce(st1, cfg, times[1..], posts[1..], fetch, launchOk).registry, cfg) {
        PollKeepsRecorded(st1, cfg, times[1..], posts[1..], fetch, launchOk, other, p);
      }
    }
  }

  /** Each Steam link on the post's page, when it came back, is listed
      with the post as a source. */
  ghost predicate PageRecorded(r: Registry, post: PostInfo, fetch: string -> Option<Page>) {
    FetchedPage(fetch, post) ==>
      forall link :: link in ExtractSteamLinks(fetch(post.url).value.html) && !IsBlank(link) ==> Recorded(r, link, post)
  }

  lemma PollKeepsPage(st: PluginState, cfg: Config, times: seq<nat>, posts: seq<PostInfo>,
                      fetch: string -> Option<Page>, launchOk: bool, p: PostInfo)
    requires Inv(st.registry) && |times| == |posts| && PageRecorded(st.registry, p, fetch)
    ensures var r' := PollOnce(st, cfg, times, posts, fetch, launchOk).registry;
      BelowCap(r', cfg) ==> PageRecorded(r', p, fetch)
  {
    if FetchedPage(fetch, p) {
      forall link | link in ExtractSteamLinks(fetch(p.url).value.html) && !IsBlank(link)
        ensures var r' := PollOnce(st, cfg, times, posts, fetch, launchOk).registry;
          BelowCap(r', cfg) ==> Recorded(r', link, p)
      {
        PollKeepsRecorded(st, cfg, times, posts, fetch, launchOk, link, p);
      }
    }
  }

  /** Every post the poll decides to fetch and whose page comes back gets
      each Steam link on that page listed with the post as a source, when
      the poll leaves the list below the cap. */
  lemma {:induction false} PollRecordsFetched(st: PluginState, cfg: Config, times: seq<nat>, posts: seq<PostInfo>,
                                              fetch: string -> Option<Page>, launchOk: bool)
    requires Inv(st.registry) && |times| == |posts|
    ensures var r' := PollOnce(st, cfg, times, posts, fetch, launchOk).registry;
      var fetched := Decide(st.watch, posts).1;
      BelowCap(r', cfg) ==> forall i :: 0 <= i < |posts| && fetched[i] ==> PageRecorded(r', posts[i], fetch)
    decreases |posts|
  {
    if |posts| > 0 {
      var post := posts[0];
      var rest := posts[1..];
      var st1 := HandlePost(st, cfg, times[0], post, fetch, launchOk);
      var r' := PollOnce(st1, cfg, times[1..], rest, fetch, launchOk).registry;
      PollRecordsFetched(st1, cfg, times[1..], rest, fetch, launchOk);
      var fetched := Decide(st.watch, posts).1;
      assert fetched == [Observe(st.watch, post).1] + Decide(st1.watch, rest).1;
      if BelowCap(r', cfg) {
        assert Observe(st.watch, post).1 ==> PageRecorded(r', post, fetch) by {
          if Observe(st.watch, post).1 {
            PollGrows(st1, cfg, times[1..], rest, fetch, launchOk);
            FirstPostRecorded(st, cfg, times[0], post, fetch, launchOk);
            PollKeepsPage(st1, cfg, times[1..], rest, fetch, launchOk, post);
          }
        }
        forall i | 0 <= i < |posts| && fetched[i] ensures PageRecorded(r', posts[i], fetch) {
          if i > 0 {
            assert posts[i] == rest[i - 1];
            assert Decide(st1.watch, rest).1[i - 1];
          }
        }
      }
    }
  }

  lemma FirstPostRecorded(st: PluginState, cfg: Config, now: nat, post: PostInfo,
                          fetch: string -> Option<Page>, launchOk: bool)
    requires Inv(st.registry) && Observe(st.watch, post).1
    ensures var r' := HandlePost(st, cfg, now, post, fetch, launchOk).registry;
      BelowCap(r', cfg) ==> PageRecorded(r', post, fetch)
  {
    var r' := HandlePost(st, cfg, now, post, fetch, launchOk).registry;
    if FetchedPage(fetch, post) && BelowCap(r', cfg) {
      var page := fetch(post.url).value;
      AddLinksRecords(st.registry, cfg, now, ExtractSteamLinks(page.html), EffectivePost(post, page), launchOk);
      forall link | link in ExtractSteamLinks(page.html) && !IsBlank(link)
        ensures Recorded(r', link, post)
      {
        var links := ExtractSteamLinks(page.html);
        var k :| 0 <= k < |links| && links[k] == link;
      }
    }
  }
}

=== FILE: posts.dfy ===
/** A post as the list page describes it (`PostInfo`, the same class in the
    crawler and in the plugin) and the string helpers that build and compare
    it: the reply-count title suffix, the view-count filter and parser, URL
    normalisation, and the list-metadata change test of both programs. */
module Posts {
  import opened Wrappers
  import opened Text

  /** One row of the list page. `url` is the cache key; it is compared
      ignoring case by every dictionary that holds it. */
  datatype PostInfo = PostInfo(id: string, title: string, author: string, date: string, views: string, url: string) {

    /** `WithDate`: the same post when the new date is blank or already the
        date, otherwise a copy that differs only in the date. */
    function WithDate(d: string): (r: PostInfo)
      ensures r.(date := date) == this
      ensures r.date == d || r == this
      ensures r == this <==> IsBlank(d) || d == date
    {
      if IsBlank(d) || d == date then this else this.(date := d)
    }
  }

  /** Redating is idempotent, and redating twice keeps the last non-blank date. */
  lemma WithDateTwice(p: PostInfo, d: string, e: string)
    ensures p.WithDate(d).WithDate(d) == p.WithDate(d)
    ensures !IsBlank(e) ==> p.WithDate(d).WithDate(e) == p.WithDate(e)
  {
  }

  // ---------------------------------------------------------------------
  // URLs

  /** The gallery host that relative links are resolved against. */
  const Host: string := "https://gall.dcinside.com"

  /** `NormalizeUrl`: absolute links are kept, protocol-relative links get
      `https:`, and every other link is resolved against the host. */
  function NormalizeUrl(href: string): (r: string)
    ensures StartsWithIgnoreCase(r, "http")
    ensures StartsWithIgnoreCase(href, "http") ==> r == href
    ensures |href| <= |r| && r[|r| - |href|..] == href
    ensures !StartsWithIgnoreCase(href, "http") && |href| >= 2 && href[0] == '/' && href[1] == '/' ==>
              r == "https:" + href
    ensures !StartsWithIgnoreCase(href, "http") && |href| >= 1 && href[0] == '/' && (|href| == 1 || href[1] != '/') ==>
              r == Host + href
    ensures !StartsWithIgnoreCase(href, "http") && (|href| == 0 || href[0] != '/') ==> r == Host + "/" + href
  {
    if StartsWithIgnoreCase(href, "http") then href
    else
      SlashPrefix(href);
      var r := if StartsWithIgnoreCase(href, "//") then "https:" + href
               else if StartsWithIgnoreCase(href, "/") then Host + href
               else Host + "/" + href;
      assert r[..4] == "http";
      r
  }

  /** Ignoring case changes nothing for slashes. */
  lemma SlashPrefix(href: string)
    ensures StartsWithIgnoreCase(href, "//") <==> |href| >= 2 && href[0] == '/' && href[1] == '/'
    ensures StartsWithIgnoreCase(href, "/") <==> |href| >= 1 && href[0] == '/'
  {
    if |href| >= 1 {
      assert Fold(href[..1])[0] == Lower(href[0]);
    }
    if |href| >= 2 {
      assert Fold(href[..2])[0] == Lower(href[0]) && Fold(href[..2])[1] == Lower(href[1]);
      if href[0] == '/' && href[1] == '/' {
        assert href[..2] == "//";
      }
    }
  }

  /** Normalising a normalised URL changes nothing. */
  lemma NormalizeUrlIdempotent(href: string)
    ensures NormalizeUrl(NormalizeUrl(href)) == NormalizeUrl(href)
  {
  }

  /** One character that differs ignoring case rules a prefix out. */
  lemma NotStartsWith(s: string, p: string, k: nat)
    requires k < |p| && (|s| < |p| || (k < |s| && Lower(s[k]) != Lower(p[k])))
    ensures !StartsWithIgnoreCase(s, p)
  {
    if |p| <= |s| {
      assert Fold(s[..|p|])[k] == Lower(s[k]);
    }
  }

  /** A root-relative link resolves against the host. */
  lemma NormalizeRootRelative(path: string)
    requires |path| == 0 || path[0] != '/'
    ensures NormalizeUrl("/" + path) == Host + "/" + path
  {
    var h := "/" + path;
    assert h[0] == '/';
    NotStartsWith(h, "http", 0);
    if |path| > 0 {
      assert h[1] == path[0];
      NotStartsWith(h, "//", 1);
    } else {
      NotStartsWith(h, "//", 1);
    }
    assert h[..1] == "/";
    assert Host + h == Host + "/" + path;
  }

  /** A protocol-relative link to the host resolves like a root-relative one. */
  lemma NormalizeProtocolRelative(path: string)
    ensures NormalizeUrl("//gall.dcinside.com/" + path) == Host + "/" + path
  {
    var h := "//gall.dcinside.com/" + path;
    assert h[..2] == "//";
    assert h[0] == '/';
    NotStartsWith(h, "http", 0);
    assert "https:" + "//gall.dcinside.com/" == Host + "/";
    assert "https:" + h == ("https:" + "//gall.dcinside.com/") + path;
  }

  // ---------------------------------------------------------------------
  // View counts

  /** `ExtractViewCount` on the cleaned cell text: blank text is kept, text
      with digits is reduced to its digits, text without digits is kept. */
  function ExtractViewCount(cleaned: string): (r: string)
    ensures IsBlank(cleaned) ==> r == cleaned
    ensures r == cleaned || (AllDigits(r) && |r| > 0)
    ensures HasDigit(cleaned) <==> r == DigitsOnly(cleaned) && |r| > 0
    ensures !HasDigit(cleaned) ==> r == cleaned
  {
    DigitsOnlyEmptyIff(cleaned);
    if IsBlank(cleaned) then
      assert !HasDigit(cleaned);
      cleaned
    else
      var digits := DigitsOnly(cleaned);
      DigitsBlankIff(digits);
      if IsBlank(digits) then cleaned
      else
        assert |digits| > 0;
        digits
  }

  /** The crawler's `TryParseViewCount`: the digits of a non-blank value,
      read as an `int`. */
  function TryParseViewCount(value: string): (r: Option<int>)
    ensures r.Some? <==> HasDigit(value) && DigitsValue(DigitsOnly(value)) <= MaxInt32
    ensures r.Some? ==> r.value == DigitsValue(DigitsOnly(value))
  {
    DigitsOnlyEmptyIff(value);
    if IsBlank(value) then
      assert !HasDigit(value);
      None
    else
      var digits := DigitsOnly(value);
      if |digits| == 0 then None
      else
        ParseDigits(digits, MinInt32, MaxInt32);
        ParseInteger(digits, MinInt32, MaxInt32)
  }

  /** Filtering first does not change the count a cell parses to, and a
      printed count parses back. */
  lemma ViewCountFilterTransparent(cleaned: string)
    ensures TryParseViewCount(ExtractViewCount(cleaned)) == TryParseViewCount(cleaned)
  {
    var r := ExtractViewCount(cleaned);
    if r != cleaned {
      DigitsOnlyOfDigits(r);
      DigitsOnlyEmptyIff(r);
      assert IsDigit(r[0]);
    }
  }

  lemma ExtractViewCountIdempotent(cleaned: string)
    ensures ExtractViewCount(ExtractViewCount(cleaned)) == ExtractViewCount(cleaned)
  {
    var r := ExtractViewCount(cleaned);
    if r != cleaned {
      DigitsOnlyOfDigits(r);
      assert IsDigit(r[0]);
      DigitsAreNotBlank(r);
    }
  }

  lemma ViewCountRoundTrip(n: nat)
    requires n <= MaxInt32
    ensures TryParseViewCount(NatToDecimal(n)) == Some(n)
    ensures ExtractViewCount(NatToDecimal(n)) == NatToDecimal(n)
  {
    var s := NatToDecimal(n);
    DigitsOnlyOfDigits(s);
    DecimalRoundTrip(n);
    assert IsDigit(s[0]);
  }

  // ---------------------------------------------------------------------
  // Reply counts

  /** The first digit at or after `i`, or `|s|` when there is none. */
  function FirstDigit(s: string, i: nat): (j: nat)
    requires i <= |s|
    ensures i <= j <= |s|
    ensures j < |s| ==> IsDigit(s[j])
    ensures forall k :: i <= k < j ==> !IsDigit(s[k])
    decreases |s| - i
  {
    if i == |s| || IsDigit(s[i]) then i else FirstDigit(s, i + 1)
  }

  /** `ParseIntFromText` (the crawler's `ExtractReplyCount`): the first run
      of digits read as an `int`, or 0 when the text is missing or blank,
      has no digits, or the run overflows. */
  function ParseIntFromText(text: Option<string>): (n: int)
    ensures 0 <= n <= MaxInt32
    ensures n > 0 ==> text.Some? && HasDigit(text.value)
  {
    if IsBlankOrNull(text) then 0 else FirstRunValue(text.value)
  }

  /** The first run of digits of a text read as an `int`; 0 when there is
      none or it overflows. */
  function FirstRunValue(s: string): (n: int)
    ensures 0 <= n <= MaxInt32
    ensures n > 0 ==> HasDigit(s)
  {
    var i := FirstDigit(s, 0);
    if i == |s| then 0 else RunValue(s[i..i + DigitRun(s, i)])
  }

  /** A run of digits read as an `int`, 0 when it overflows. */
  function RunValue(d: string): (n: int)
    requires |d| > 0 && AllDigits(d)
    ensures n == if DigitsValue(d) <= MaxInt32 then DigitsValue(d) else 0
  {
    ParseDigits(d, MinInt32, MaxInt32);
    ParseInteger(d, MinInt32, MaxInt32).GetOr(0)
  }

  /** Digits that follow a digit-free prefix start the first run. */
  lemma FirstRunAfter(pre: string, d: string, post: string)
    requires !HasDigit(pre) && |d| > 0 && AllDigits(d)
    ensures var s := pre + d + post;
      FirstDigit(s, 0) == |pre| && !IsBlank(s)
  {
    var s := pre + d + post;
    assert s[|pre|] == d[0];
    forall k | 0 <= k < |pre|
      ensures !IsDigit(s[k])
    {
      assert s[k] == pre[k];
    }
    FirstDigitIs(s, 0, |pre|);
  }

  /** A digit run that is followed by a non-digit ends there. */
  lemma RunBeforePost(pre: string, d: string, post: string)
    requires |post| == 0 || !IsDigit(post[0])
    requires AllDigits(d)
    ensures var s := pre + d + post;
      DigitRun(s, |pre|) == |d| && s[|pre|..|pre| + |d|] == d
  {
    var s := pre + d + post;
    assert s[|pre|..|pre| + |d|] == d;
    forall k | |pre| <= k < |pre| + |d|
      ensures IsDigit(s[k])
    {
      assert s[k] == d[k - |pre|];
    }
    if |post| > 0 {
      assert s[|pre| + |d|] == post[0];
    }
    DigitRunIs(s, |pre|, |d|);
  }

  /** A count printed between text without digits and text that does not
      continue the number is read back. */
  lemma ReplyCountRoundTrip(pre: string, n: nat, post: string)
    requires n <= MaxInt32 && !HasDigit(pre)
    requires |post| == 0 || !IsDigit(post[0])
    ensures ParseIntFromText(Some(pre + NatToDecimal(n) + post)) == n
  {
    var d := NatToDecimal(n);
    var s := pre + d + post;
    FirstRunAfter(pre, d, post);
    RunBeforePost(pre, d, post);
    DecimalRoundTrip(n);
    assert FirstRunValue(s) == RunValue(d);
    assert !IsBlankOrNull(Some(s));
  }

  lemma FirstDigitIs(s: string, i: nat, j: nat)
    requires i <= j < |s| && IsDigit(s[j])
    requires forall k :: i <= k < j ==> !IsDigit(s[k])
    ensures FirstDigit(s, i) == j
    decreases j - i
  {
    if i < j {
      FirstDigitIs(s, i + 1, j);
    }
  }

  /** The bracketed count appended to a title. */
  function ReplyTag(n: int): string {
    "[" + IntToDecimal(n) + "]"
  }

  /** The title suffix: ` [n]` is appended when the post has replies and the
      title does not already show `[n]`. */
  function WithReplyCount(title: string, n: int): (r: string)
    ensures n > 0 ==> Contains(r, ReplyTag(n))
    ensures n <= 0 || Contains(title, ReplyTag(n)) <==> r == title
    ensures r == title || r == title + " " + ReplyTag(n)
    ensures |title| <= |r| && r[..|title|] == title
  {
    if n > 0 && !Contains(title, ReplyTag(n)) then
      var r := title + " " + ReplyTag(n);
      assert OccursAt(r, ReplyTag(n), |title| + 1) by {
        assert r[|title| + 1..|r|] == ReplyTag(n);
      }
      r
    else title
  }

  /** Adding the suffix twice adds it once. */
  lemma WithReplyCountIdempotent(title: string, n: int)
    ensures WithReplyCount(WithReplyCount(title, n), n) == WithReplyCount(title, n)
  {
  }

  // ---------------------------------------------------------------------
  // List metadata change

  /** How a change in the view count is judged: the plugin treats any
      textual difference as a change; the crawler, when both counts parse,
      only a rise of at least `step`. */
  datatype ViewDrift = AnyDifference | RiseAtLeast(step: int)

  /** The crawler's threshold. */
  const CrawlerDrift: ViewDrift := RiseAtLeast(2)

  /** `HasListMetadataChanged`, both variants: title, author and date are
      compared ordinally, then the view text according to `drift`. */
  function HasListMetadataChanged(prev: PostInfo, cur: PostInfo, drift: ViewDrift): (changed: bool)
    ensures prev.title != cur.title || prev.author != cur.author || prev.date != cur.date ==> changed
    ensures prev.title == cur.title && prev.author == cur.author && prev.date == cur.date && prev.views == cur.views ==> !changed
    ensures changed && drift.AnyDifference? ==> prev.(id := cur.id, url := cur.url) != cur
    ensures drift.RiseAtLeast? && prev.title == cur.title && prev.author == cur.author && prev.date == cur.date
            && prev.views != cur.views ==>
              (changed <==> TryParseViewCount(prev.views).None? || TryParseViewCount(cur.views).None?
                            || TryParseViewCount(cur.views).value - TryParseViewCount(prev.views).value >= drift.step)
  {
    if prev.title != cur.title || prev.author != cur.author || prev.date != cur.date then true
    else if prev.views != cur.views then
      match drift
      case AnyDifference => true
      case RiseAtLeast(step) =>
        var a, b := TryParseViewCount(prev.views), TryParseViewCount(cur.views);
        if a.Some? && b.Some? then b.value - a.value >= step else true
    else false
  }

  /** The plugin re-fetches exactly when one of the four listed fields differs. */
  lemma PluginChangeIff(prev: PostInfo, cur: PostInfo)
    ensures HasListMetadataChanged(prev, cur, AnyDifference) <==> prev.(id := cur.id, url := cur.url) != cur
  {
    if prev.(id := cur.id, url := cur.url) != cur {
      assert prev.title != cur.title || prev.author != cur.author || prev.date != cur.date || prev.views != cur.views;
    }
  }

  /** The crawler's view rule: with both counts readable, a fall or a rise by
      one is no change and a rise by two or more is. */
  lemma CrawlerViewDrift(prev: PostInfo, cur: PostInfo, a: nat, b: nat)
    requires a <= MaxInt32 && b <= MaxInt32 && a != b
    requires prev.(views := NatToDecimal(a)) == prev && cur == prev.(views := NatToDecimal(b))
    ensures HasListMetadataChanged(prev, cur, CrawlerDrift) <==> b >= a + 2
  {
    ViewCountRoundTrip(a);
    ViewCountRoundTrip(b);
    DecimalRoundTrip(a);
    DecimalRoundTrip(b);
  }

  /** The crawler never re-fetches where the plugin would not. */
  lemma CrawlerChangeImpliesPluginChange(prev: PostInfo, cur: PostInfo, step: int)
    ensures HasListMetadataChanged(prev, cur, RiseAtLeast(step)) ==> HasListMetadataChanged(prev, cur, AnyDifference)
  {
  }
}

=== FILE: registry.dfy ===
/** The lobby registry of the plugin: `_lobbyEntries` (insertion order),
    `_lobbyByLink` (keyed by link, ignoring case), `_lobbyById` (keyed by
    lobby id), the queue of pending Steam checks and the change counter.
    Entries are objects shared between these collections; they are
    modelled as handles into `heap`, which holds every entry ever created,
    so that an entry evicted from the list but still reachable through
    `_lobbyById` keeps receiving updates exactly as in the plugin. Each
    locked region is one transition. */
module Registry {
  import opened Wrappers
  import opened Text
  import opened Posts
  import opened SteamLinks
  import opened Lobby

  /** `MaxLobbyChecksPerFrame`. */
  const MaxLobbyChecksPerFrame: nat := 4

  /** The smallest entry cap `TrimLobbyEntries` ever applies. */
  const MinLobbyEntries: nat := 10

  datatype Registry = Registry(
    heap: map<nat, LobbyEntry>,
    order: seq<nat>,
    byLink: map<string, nat>,
    byId: map<nat, nat>,
    queue: seq<nat>,
    version: nat,
    nextHandle: nat,
    lastJoin: Time)

  /** The registry of a freshly loaded plugin. */
  const EmptyRegistry: Registry := Registry(map[], [], map[], map[], [], 0, 0, Never)

  // ---------------------------------------------------------------------
  // Invariant

  /** Handles are allocated in increasing order. */
  ghost predicate HandlesAllocated(r: Registry) {
    forall h :: h in r.heap ==> h < r.nextHandle
  }

  /** The entry list holds distinct live entries. */
  ghost predicate ListWellFormed(r: Registry) {
    && (forall i :: 0 <= i < |r.order| ==> r.order[i] in r.heap)
    && (forall i, j :: 0 <= i < j < |r.order| ==> r.order[i] != r.order[j])
  }

  /** The link index and the entry list hold the same entries, each under
      its own link, ignoring case. */
  ghost predicate LinkIndexed(r: Registry) {
    && (forall k :: k in r.byLink ==> r.byLink[k] in r.heap && r.byLink[k] in r.order && Fold(r.heap[r.byLink[k]].link) == k)
    && (forall i :: 0 <= i < |r.order| && r.order[i] in r.heap ==>
          Fold(r.heap[r.order[i]].link) in r.byLink && r.byLink[Fold(r.heap[r.order[i]].link)] == r.order[i])
  }

  /** The id index points at entries with that lobby id whose links parse. */
  ghost predicate IdsResolve(r: Registry) {
    forall id :: id in r.byId ==> r.byId[id] in r.heap && r.heap[r.byId[id]].lobbyId == id
                                  && TryParseLobbyLink(r.heap[r.byId[id]].link).Some?
  }

  /** Every queued lobby id is indexed. */
  ghost predicate QueueIndexed(r: Registry) {
    forall i :: 0 <= i < |r.queue| ==> r.queue[i] in r.byId
  }

  ghost predicate IdIndexed(r: Registry) {
    IdsResolve(r) && QueueIndexed(r)
  }

  /** What every entry keeps true between transitions: its sources have
      distinct URLs, and its lobby fields are what its link parses to; an
      entry whose link does not parse is Invalid. */
  ghost predicate EntryInv(e: LobbyEntry) {
    && UniqueUrls(e.sources)
    && match TryParseLobbyLink(e.link)
       case None => e.status == Invalid && e.lobbyId == 0
       case Some(ref) => e.app == ref.app && e.lobbyId == ref.lobby && e.host == ref.host
  }

  /** Every entry but `skip` keeps `EntryInv`, and a parsed entry can be
      found through the id index. */
  ghost predicate EntriesInvExcept(r: Registry, skip: Option<nat>) {
    forall h :: h in r.heap && Some(h) != skip ==>
      EntryInv(r.heap[h]) && (TryParseLobbyLink(r.heap[h].link).Some? ==> r.heap[h].lobbyId in r.byId)
  }

  ghost predicate Inv(r: Registry) {
    && HandlesAllocated(r) && ListWellFormed(r) && LinkIndexed(r) && IdIndexed(r)
    && EntriesInvExcept(r, Option.None)
  }

  lemma EmptyRegistryInv()
    ensures Inv(EmptyRegistry)
  {
  }

  /** An entry whose link does not parse is Invalid whenever the invariant
      holds, and every transition keeps the invariant: Invalid is for ever. */
  lemma UnparseableIsInvalid(r: Registry, h: nat)
    requires Inv(r) && h in r.heap && TryParseLobbyLink(r.heap[h].link).None?
    ensures r.heap[h].status == Invalid && !r.heap[h].HasLobbyId()
    ensures forall id :: id in r.byId ==> r.byId[id] != h
  {
    assert EntryInv(r.heap[h]);
  }

  // ---------------------------------------------------------------------
  // Upsert and touch

  /** The handle `AddLobbyEntry` works on: the entry already indexed under
      the link, or the one about to be created. */
  function EntryHandle(r: Registry, link: string): nat {
    if Fold(link) in r.byLink then r.byLink[Fold(link)] else r.nextHandle
  }

  /** Lookup-or-create of the entry for `link`. */
  function Upsert(r: Registry, link: string, now: nat): (r': Registry)
    requires LinkIndexed(r)
    ensures EntryHandle(r, link) in r'.heap
    ensures Fold(link) in r'.byLink && r'.byLink[Fold(link)] == EntryHandle(r, link)
    ensures Fold(link) in r.byLink ==> r' == r
    ensures Fold(link) !in r.byLink ==> && r'.heap == r.heap[r.nextHandle := NewEntry(link, now)]
                                        && r'.order == r.order + [r.nextHandle]
                                        && r'.byLink == r.byLink[Fold(link) := r.nextHandle]
                                        && r'.nextHandle == r.nextHandle + 1
                                        && r'.(heap := r.heap, order := r.order, byLink := r.byLink,
                                               nextHandle := r.nextHandle) == r
  {
    if Fold(link) in r.byLink then r else Upsert'(r, link, now)
  }

  /** Creating an entry keeps the structure; only the new entry may still
      miss its lobby fields. */
  lemma UpsertInv(r: Registry, link: string, now: nat)
    requires Inv(r)
    ensures var r' := Upsert(r, link, now);
      && HandlesAllocated(r') && ListWellFormed(r') && LinkIndexed(r') && IdIndexed(r')
      && EntriesInvExcept(r', Some(EntryHandle(r, link)))
      && (Fold(link) !in r.byLink ==> forall id :: id in r'.byId ==> r'.byId[id] != EntryHandle(r, link))
      && Fold(r'.heap[EntryHandle(r, link)].link) == Fold(link)
  {
    if Fold(link) !in r.byLink {
      UpsertNewList(r, link, now);
      UpsertNewLinks(r, link, now);
      UpsertNewIds(r, link, now);
      UpsertNewEntries(r, link, now);
    }
  }

  lemma UpsertNewList(r: Registry, link: string, now: nat)
    requires HandlesAllocated(r) && ListWellFormed(r) && Fold(link) !in r.byLink
    ensures HandlesAllocated(Upsert'(r, link, now)) && ListWellFormed(Upsert'(r, link, now))
  {
    var r' := Upsert'(r, link, now);
    var h := r.nextHandle;
    assert forall i :: 0 <= i < |r.order| ==> r.order[i] != h;
    assert forall i :: 0 <= i < |r.order| ==> r'.order[i] == r.order[i];
  }

  lemma UpsertNewLinks(r: Registry, link: string, now: nat)
    requires HandlesAllocated(r) && ListWellFormed(r) && LinkIndexed(r) && Fold(link) !in r.byLink
    ensures LinkIndexed(Upsert'(r, link, now))
  {
    var r' := Upsert'(r, link, now);
    var h := r.nextHandle;
    forall key | key in r'.byLink
      ensures r'.byLink[key] in r'.heap && r'.byLink[key] in r'.order && Fold(r'.heap[r'.byLink[key]].link) == key
    {
      if key != Fold(link) {
        assert r.byLink[key] in r.heap;
      }
    }
    forall i | 0 <= i < |r'.order| && r'.order[i] in r'.heap
      ensures Fold(r'.heap[r'.order[i]].link) in r'.byLink && r'.byLink[Fold(r'.heap[r'.order[i]].link)] == r'.order[i]
    {
      if i < |r.order| {
        assert r'.order[i] == r.order[i] && r.order[i] in r.heap;
        assert r.order[i] != h;
      }
    }
  }

  lemma UpsertNewIds(r: Registry, link: string, now: nat)
    requires HandlesAllocated(r) && IdIndexed(r) && Fold(link) !in r.byLink
    ensures IdIndexed(Upsert'(r, link, now))
    ensures forall id :: id in r.byId ==> r.byId[id] != r.nextHandle
  {
  }

  lemma UpsertNewEntries(r: Registry, link: string, now: nat)
    requires HandlesAllocated(r) && EntriesInvExcept(r, Option.None) && Fold(link) !in r.byLink
    ensures EntriesInvExcept(Upsert'(r, link, now), Some(r.nextHandle))
  {
  }

  /** The creating branch of `Upsert`. */
  function Upsert'(r: Registry, link: string, now: nat): Registry {
    r.(heap := r.heap[r.nextHandle := NewEntry(link, now)], order := r.order + [r.nextHandle],
       byLink := r.byLink[Fold(link) := r.nextHandle], nextHandle := r.nextHandle + 1)
  }

  /** `AddOrUpdateSource` and `Touch` on entry `h`. */
  function Touch(r: Registry, h: nat, post: PostInfo, now: nat): (r': Registry)
    requires h in r.heap
    ensures h in r'.heap && r'.heap[h].lastSeen == now && SourceOf(post, now) in r'.heap[h].sources
    ensures r'.heap[h] == r.heap[h].(sources := r'.heap[h].sources, lastSeen := now)
    ensures r'.heap == r.heap[h := r'.heap[h]] && r'.(heap := r.heap) == r
  {
    var e := r.heap[h];
    r.(heap := r.heap[h := e.(sources := AddOrUpdateSource(e.sources, post, now), lastSeen := now)])
  }

  lemma TouchKeepsEntryInv(r: Registry, h: nat, post: PostInfo, now: nat)
    requires h in r.heap && EntryInv(r.heap[h])
    ensures EntryInv(Touch(r, h, post, now).heap[h])
  {
    AddOrUpdateSourceUnique(r.heap[h].sources, post, now);
  }

  // ---------------------------------------------------------------------
  // Eviction

  /** Every listed handle is live. */
  ghost predicate Listed(r: Registry) {
    forall i :: 0 <= i < |r.order| ==> r.order[i] in r.heap
  }

  /** `_lobbyEntries.OrderBy(e => e.FirstSeenUtc).First()`: the position of
      the earliest first-seen time, the first such position on ties (the
      sort is stable). */
  function OldestIndex(heap: map<nat, LobbyEntry>, order: seq<nat>): (k: nat)
    requires |order| > 0 && forall i :: 0 <= i < |order| ==> order[i] in heap
    ensures k < |order|
    ensures forall j :: 0 <= j < |order| ==> heap[order[k]].firstSeen <= heap[order[j]].firstSeen
    ensures forall j :: 0 <= j < k ==> heap[order[k]].firstSeen < heap[order[j]].firstSeen
    decreases |order|
  {
    if |order| == 1 then 0
    else
      var k := OldestIndex(heap, order[..|order| - 1]);
      if heap[order[|order| - 1]].firstSeen < heap[order[k]].firstSeen then |order| - 1 else k
  }

  /** `s` without its element at position `k`. */
  function Without(s: seq<nat>, k: nat): (t: seq<nat>)
    requires k < |s|
    ensures |t| == |s| - 1
    ensures forall i :: 0 <= i < |t| ==> t[i] == s[if i < k then i else i + 1]
  {
    s[..k] + s[k + 1..]
  }

  /** What removal keeps and what it drops. */
  lemma WithoutMembers(s: seq<nat>, k: nat)
    requires k < |s|
    ensures forall i :: 0 <= i < |s| && i != k ==> s[i] in Without(s, k)
    ensures forall x :: x in Without(s, k) ==> x in s
  {
    var t := Without(s, k);
    forall i | 0 <= i < |s| && i != k
      ensures s[i] in t
    {
      assert t[if i < k then i else i - 1] == s[i];
    }
  }

  /** Removes the entry at position `k` from the list and from the link
      index (not from the id index). */
  function RemoveAt(r: Registry, k: nat): (r': Registry)
    requires k < |r.order| && r.order[k] in r.heap
    ensures r'.order == Without(r.order, k)
    ensures r'.byLink == r.byLink - {Fold(r.heap[r.order[k]].link)}
    ensures r'.(order := r.order, byLink := r.byLink) == r
  {
    r.(order := Without(r.order, k), byLink := r.byLink - {Fold(r.heap[r.order[k]].link)})
  }

  lemma RemoveAtList(r: Registry, k: nat)
    requires k < |r.order| && ListWellFormed(r)
    ensures ListWellFormed(RemoveAt(r, k))
  {
    var r' := RemoveAt(r, k);
    forall i, j | 0 <= i < j < |r'.order|
      ensures r'.order[i] != r'.order[j]
    {
      assert r'.order[i] == r.order[if i < k then i else i + 1];
      assert r'.order[j] == r.order[if j < k then j else j + 1];
    }
  }

  lemma RemoveAtLinks(r: Registry, k: nat)
    requires k < |r.order| && ListWellFormed(r) && LinkIndexed(r)
    ensures LinkIndexed(RemoveAt(r, k))
  {
    var r' := RemoveAt(r, k);
    var x := r.order[k];
    WithoutMembers(r.order, k);
    forall key | key in r'.byLink
      ensures r'.byLink[key] in r'.order
    {
      var y := r.byLink[key];
      var m :| 0 <= m < |r.order| && r.order[m] == y;
      assert m != k;
    }
    forall i | 0 <= i < |r'.order| && r'.order[i] in r'.heap
      ensures Fold(r'.heap[r'.order[i]].link) in r'.byLink
    {
      var m := if i < k then i else i + 1;
      assert r'.order[i] == r.order[m] && m != k;
    }
  }

  lemma RemoveAtInv(r: Registry, k: nat)
    requires k < |r.order| && ListWellFormed(r) && LinkIndexed(r)
    ensures ListWellFormed(RemoveAt(r, k)) && LinkIndexed(RemoveAt(r, k))
  {
    RemoveAtList(r, k);
    RemoveAtLinks(r, k);
  }

  /** `TrimLobbyEntries`: while the list is over the cap, remove its oldest
      entry (see `TrimEvictsOldest`). */
  function Trim(r: Registry, cap: nat): (r': Registry)
    requires Listed(r)
    ensures Listed(r')
    ensures |r'.order| == if |r.order| <= cap then |r.order| else cap
    ensures r'.(order := r.order, byLink := r.byLink) == r
    ensures forall x :: x in r'.order ==> x in r.order
    ensures forall key :: key in r'.byLink ==> key in r.byLink && r'.byLink[key] == r.byLink[key]
    decreases |r.order|
  {
    if |r.order| <= cap then r
    else
      var k := OldestIndex(r.heap, r.order);
      WithoutMembers(r.order, k);
      Trim(RemoveAt(r, k), cap)
  }

  /** Every round removes an entry with the least first-seen time, so no
      evicted entry is newer than a kept one, and the entries that stay are
      exactly the listed ones. */
  lemma {:induction false} TrimEvictsOldest(r: Registry, cap: nat)
    requires Listed(r)
    ensures var r' := Trim(r, cap);
      forall x, y :: x in r.order && x !in r'.order && y in r'.order ==> r.heap[x].firstSeen <= r.heap[y].firstSeen
    decreases |r.order|
  {
    if |r.order| > cap {
      var k := OldestIndex(r.heap, r.order);
      var r1 := RemoveAt(r, k);
      WithoutMembers(r.order, k);
      TrimEvictsOldest(r1, cap);
      var r' := Trim(r1, cap);
      forall x, y | x in r.order && x !in r'.order && y in r'.order
        ensures r.heap[x].firstSeen <= r.heap[y].firstSeen
      {
        var i :| 0 <= i < |r.order| && r.order[i] == x;
        var j :| 0 <= j < |r.order| && r.order[j] == y;
        if i != k {
          assert x in r1.order;
        }
      }
    }
  }

  lemma {:induction false} TrimInv(r: Registry, cap: nat)
    requires ListWellFormed(r) && LinkIndexed(r)
    ensures ListWellFormed(Trim(r, cap)) && LinkIndexed(Trim(r, cap))
    decreases |r.order|
  {
    if |r.order| > cap {
      var k := OldestIndex(r.heap, r.order);
      RemoveAtInv(r, k);
      TrimInv(RemoveAt(r, k), cap);
    }
  }

  // ---------------------------------------------------------------------
  // Parsing and classification

  /** The link is parsed only while the entry has no lobby id; a parsed
      entry is indexed under its lobby id (even 0), an unparseable one is
      marked Invalid. */
  function AttachLobbyId(r: Registry, h: nat, link: string): (r': Registry)
    requires h in r.heap
    ensures h in r'.heap
    ensures r'.heap == r.heap[h := r'.heap[h]] && r'.(heap := r.heap, byId := r.byId) == r
    ensures r.heap[h].HasLobbyId() ==> r' == r
    ensures !r.heap[h].HasLobbyId() && TryParseLobbyLink(link).None? ==>
              r'.heap[h] == r.heap[h].(status := Invalid) && r'.byId == r.byId
    ensures !r.heap[h].HasLobbyId() && TryParseLobbyLink(link).Some? ==>
              var ref := TryParseLobbyLink(link).value;
              && r'.heap[h] == r.heap[h].(app := ref.app, lobbyId := ref.lobby, host := ref.host)
              && r'.byId == r.byId[ref.lobby := h]
  {
    var e := r.heap[h];
    if e.HasLobbyId() then r
    else
      match TryParseLobbyLink(link)
      case Some(ref) =>
        r.(heap := r.heap[h := e.(app := ref.app, lobbyId := ref.lobby, host := ref.host)],
           byId := r.byId[ref.lobby := h])
      case None => r.(heap := r.heap[h := e.(status := Invalid)])
  }

  /** Applies `Classify` to entry `h` and queues its lobby id when asked. */
  function ClassifyEntry(r: Registry, h: nat, cfg: Config, now: nat): (r': Registry)
    requires h in r.heap
    ensures h in r'.heap
    ensures r'.heap == r.heap[h := Classify(r.heap[h], cfg, now).entry]
    ensures r'.queue == if Classify(r.heap[h], cfg, now).enqueue then r.queue + [r.heap[h].lobbyId] else r.queue
    ensures r'.(heap := r.heap, queue := r.queue) == r
  {
    var c := Classify(r.heap[h], cfg, now);
    r.(heap := r.heap[h := c.entry], queue := if c.enqueue then r.queue + [c.entry.lobbyId] else r.queue)
  }

  /** `Math.Max(MaxLobbyEntries, 10)`. */
  function EntryCap(cfg: Config): nat {
    Max(cfg.maxLobbyEntries, MinLobbyEntries)
  }

  /** The entry `AddLobbyEntry` starts from: the indexed one, or a new one. */
  function PriorEntry(r: Registry, link: string, now: nat): LobbyEntry
    requires LinkIndexed(r)
  {
    if Fold(link) in r.byLink then r.heap[r.byLink[Fold(link)]] else NewEntry(link, now)
  }

  /** Upsert, record the post and evict: the part of `AddLobbyEntry` before
      the link is parsed. */
  function Prepare(r: Registry, cfg: Config, now: nat, link: string, post: PostInfo): (r': Registry)
    requires ListWellFormed(r) && LinkIndexed(r)
    ensures EntryHandle(r, link) in r'.heap
  {
    UpsertListed(r, link, now);
    var h := EntryHandle(r, link);
    Trim(Touch(Upsert(r, link, now), h, post, now), EntryCap(cfg))
  }

  lemma UpsertListed(r: Registry, link: string, now: nat)
    requires ListWellFormed(r) && LinkIndexed(r)
    ensures Listed(Upsert(r, link, now))
  {
  }

  /** The steps of `AddLobbyEntry` for a non-blank link, before the version
      bump. */
  function AddSteps(r: Registry, cfg: Config, now: nat, link: string, post: PostInfo): (r': Registry)
    requires Inv(r)
    ensures EntryHandle(r, link) in r'.heap
  {
    var h := EntryHandle(r, link);
    ClassifyEntry(AttachLobbyId(Prepare(r, cfg, now, link, post), h, link), h, cfg, now)
  }

  /** `AddLobbyEntry`: upsert the entry for a link found in a post, record
      the post, evict down to the cap, parse and classify the entry. */
  function AddLobbyEntry(r: Registry, cfg: Config, now: nat, link: string, post: PostInfo): (r': Registry)
    requires Inv(r)
    ensures IsBlank(link) ==> r' == r
    ensures !IsBlank(link) ==> r'.version == r.version + 1 && EntryHandle(r, link) in r'.heap
  {
    if IsBlank(link) then r
    else
      var r5 := AddSteps(r, cfg, now, link, post);
      r5.(version := r5.version + 1)
  }

  /** The entry about to be parsed is either a settled one or a fresh one
      nothing points at. */
  ghost predicate AttachReady(r: Registry, h: nat, link: string) {
    && h in r.heap && Fold(r.heap[h].link) == Fold(link) && UniqueUrls(r.heap[h].sources)
    && ((EntryInv(r.heap[h]) && (TryParseLobbyLink(r.heap[h].link).Some? ==> r.heap[h].lobbyId in r.byId))
        || (!r.heap[h].HasLobbyId() && forall id :: id in r.byId ==> r.byId[id] != h))
  }

  /** Changing entries in place without touching their links keeps the
      list and the link index. */
  lemma SameLinksKeep(r: Registry, r': Registry)
    requires HandlesAllocated(r) && ListWellFormed(r) && LinkIndexed(r)
    requires r'.order == r.order && r'.byLink == r.byLink && r'.nextHandle == r.nextHandle
    requires r'.heap.Keys == r.heap.Keys
    requires forall g :: g in r.heap ==> r'.heap[g].link == r.heap[g].link
    ensures HandlesAllocated(r') && ListWellFormed(r') && LinkIndexed(r')
  {
  }

  /** `b` is `a` with at most its check state, join flag or counts changed;
      an unparseable entry keeps its status. */
  ghost predicate SameLobby(a: LobbyEntry, b: LobbyEntry) {
    && b.link == a.link && b.app == a.app && b.lobbyId == a.lobbyId && b.host == a.host
    && b.sources == a.sources
    && (TryParseLobbyLink(a.link).None? ==> b.status == a.status)
  }

  /** Updating entries in place within `SameLobby` keeps the invariant. */
  lemma SameLobbyKeepsInv(r: Registry, r': Registry)
    requires Inv(r)
    requires r'.order == r.order && r'.byLink == r.byLink && r'.byId == r.byId && r'.queue == r.queue
    requires r'.nextHandle == r.nextHandle && r'.heap.Keys == r.heap.Keys
    requires forall g :: g in r.heap ==> SameLobby(r.heap[g], r'.heap[g])
    ensures Inv(r')
  {
    SameLinksKeep(r, r');
    assert IdsResolve(r');
    assert EntriesInvExcept(r', Option.None) by {
      forall g | g in r'.heap
        ensures EntryInv(r'.heap[g])
      {
        assert EntryInv(r.heap[g]);
      }
    }
  }

  /** Replacing one entry within `SameLobby` keeps the invariant. */
  lemma UpdateOneKeepsInv(r: Registry, h: nat, e: LobbyEntry)
    requires Inv(r) && h in r.heap && SameLobby(r.heap[h], e)
    ensures Inv(r.(heap := r.heap[h := e]))
  {
    SameLobbyKeepsInv(r, r.(heap := r.heap[h := e]));
  }

  lemma VersionKeepsInv(r: Registry)
    requires Inv(r)
    ensures Inv(r.(version := r.version + 1))
  {
    var r' := r.(version := r.version + 1);
    SameLinksKeep(r, r');
    assert IdsResolve(r') && QueueIndexed(r') && EntriesInvExcept(r', Option.None);
  }

  lemma TouchInv(r: Registry, h: nat, post: PostInfo, now: nat)
    requires HandlesAllocated(r) && ListWellFormed(r) && LinkIndexed(r) && IdIndexed(r)
    requires EntriesInvExcept(r, Some(h)) && h in r.heap
    ensures var r' := Touch(r, h, post, now);
      && HandlesAllocated(r') && ListWellFormed(r') && LinkIndexed(r') && IdIndexed(r')
      && EntriesInvExcept(r', Some(h))
  {
    SameLinksKeep(r, Touch(r, h, post, now));
    TouchIds(r, h, post, now);
    TouchEntries(r, h, post, now);
  }

  lemma TouchIds(r: Registry, h: nat, post: PostInfo, now: nat)
    requires IdIndexed(r) && h in r.heap
    ensures IdIndexed(Touch(r, h, post, now))
  {
    var r' := Touch(r, h, post, now);
    forall id | id in r'.byId
      ensures r'.byId[id] in r'.heap && r'.heap[r'.byId[id]].lobbyId == id
      ensures TryParseLobbyLink(r'.heap[r'.byId[id]].link).Some?
    {
      assert r'.heap[r.byId[id]].lobbyId == r.heap[r.byId[id]].lobbyId;
      assert r'.heap[r.byId[id]].link == r.heap[r.byId[id]].link;
    }
  }

  lemma TouchEntries(r: Registry, h: nat, post: PostInfo, now: nat)
    requires EntriesInvExcept(r, Some(h)) && h in r.heap
    ensures EntriesInvExcept(Touch(r, h, post, now), Some(h))
  {
    var r' := Touch(r, h, post, now);
    forall g | g in r'.heap && Some(g) != Some(h)
      ensures EntryInv(r'.heap[g]) && (TryParseLobbyLink(r'.heap[g].link).Some? ==> r'.heap[g].lobbyId in r'.byId)
    {
      assert r'.heap[g] == r.heap[g];
    }
  }

  lemma TouchReady(r: Registry, h: nat, link: string, post: PostInfo, now: nat)
    requires AttachReady(r, h, link)
    ensures AttachReady(Touch(r, h, post, now), h, link)
  {
    AddOrUpdateSourceUnique(r.heap[h].sources, post, now);
  }

  lemma TrimKeeps(r: Registry, cap: nat, h: nat, link: string)
    requires HandlesAllocated(r) && ListWellFormed(r) && LinkIndexed(r) && IdIndexed(r)
    requires EntriesInvExcept(r, Some(h)) && AttachReady(r, h, link)
    ensures var r' := Trim(r, cap);
      && HandlesAllocated(r') && ListWellFormed(r') && LinkIndexed(r') && IdIndexed(r')
      && EntriesInvExcept(r', Some(h)) && AttachReady(r', h, link)
  {
    TrimInv(r, cap);
    var r' := Trim(r, cap);
    assert r'.heap == r.heap && r'.byId == r.byId && r'.queue == r.queue;
  }

  lemma UpsertReady(r: Registry, link: string, now: nat)
    requires Inv(r)
    ensures AttachReady(Upsert(r, link, now), EntryHandle(r, link), link)
  {
    UpsertInv(r, link, now);
    if Fold(link) in r.byLink {
      assert EntryInv(r.heap[EntryHandle(r, link)]);
    }
  }

  lemma PrepareInv(r: Registry, cfg: Config, now: nat, link: string, post: PostInfo)
    requires Inv(r)
    ensures var r' := Prepare(r, cfg, now, link, post); var h := EntryHandle(r, link);
      && HandlesAllocated(r') && ListWellFormed(r') && LinkIndexed(r') && IdIndexed(r')
      && EntriesInvExcept(r', Some(h)) && AttachReady(r', h, link)
  {
    var h := EntryHandle(r, link);
    UpsertInv(r, link, now);
    UpsertReady(r, link, now);
    var r1 := Upsert(r, link, now);
    TouchInv(r1, h, post, now);
    TouchReady(r1, h, link, post, now);
    TrimKeeps(Touch(r1, h, post, now), EntryCap(cfg), h, link);
  }

  lemma AttachIds(r: Registry, h: nat, link: string)
    requires IdIndexed(r) && AttachReady(r, h, link)
    ensures IdIndexed(AttachLobbyId(r, h, link))
  {
    if !r.heap[h].HasLobbyId() {
      ParseIgnoresCase(r.heap[h].link, link);
      if TryParseLobbyLink(link).Some? {
        AttachParsedIds(r, h, link);
      } else {
        AttachInvalidIds(r, h, link);
      }
    }
  }

  lemma AttachParsedIds(r: Registry, h: nat, link: string)
    requires IdIndexed(r) && AttachReady(r, h, link) && !r.heap[h].HasLobbyId()
    requires TryParseLobbyLink(link).Some? && TryParseLobbyLink(r.heap[h].link) == TryParseLobbyLink(link)
    ensures IdIndexed(AttachLobbyId(r, h, link))
  {
    var r' := AttachLobbyId(r, h, link);
    var lobby := TryParseLobbyLink(link).value.lobby;
    forall id | id in r'.byId
      ensures r'.byId[id] in r'.heap && r'.heap[r'.byId[id]].lobbyId == id
      ensures TryParseLobbyLink(r'.heap[r'.byId[id]].link).Some?
    {
      if id == lobby {
        assert r'.byId[id] == h && r'.heap[h].link == r.heap[h].link;
      } else {
        var g := r.byId[id];
        assert r'.byId[id] == g;
        if g == h {
          assert false;
        }
        assert r'.heap[g] == r.heap[g];
      }
    }
  }

  lemma AttachInvalidIds(r: Registry, h: nat, link: string)
    requires IdIndexed(r) && AttachReady(r, h, link) && !r.heap[h].HasLobbyId()
    requires TryParseLobbyLink(link).None?
    ensures IdIndexed(AttachLobbyId(r, h, link))
  {
    var r' := AttachLobbyId(r, h, link);
    assert r'.byId == r.byId && r'.queue == r.queue;
    forall id | id in r'.byId
      ensures r'.byId[id] in r'.heap && r'.heap[r'.byId[id]].lobbyId == id
      ensures TryParseLobbyLink(r'.heap[r'.byId[id]].link).Some?
    {
      assert r.byId[id] != h || EntryInv(r.heap[h]);
    }
  }

  lemma AttachEntries(r: Registry, h: nat, link: string)
    requires EntriesInvExcept(r, Some(h)) && AttachReady(r, h, link)
    ensures EntriesInvExcept(AttachLobbyId(r, h, link), Option.None)
  {
    ParseIgnoresCase(r.heap[h].link, link);
  }

  lemma AttachInv(r: Registry, h: nat, link: string)
    requires HandlesAllocated(r) && ListWellFormed(r) && LinkIndexed(r) && IdIndexed(r)
    requires EntriesInvExcept(r, Some(h)) && AttachReady(r, h, link)
    ensures Inv(AttachLobbyId(r, h, link))
  {
    SameLinksKeep(r, AttachLobbyId(r, h, link));
    AttachIds(r, h, link);
    AttachEntries(r, h, link);
  }

  lemma ClassifyResolves(r: Registry, h: nat, cfg: Config, now: nat)
    requires IdsResolve(r) && h in r.heap
    ensures IdsResolve(ClassifyEntry(r, h, cfg, now))
  {
  }

  lemma ClassifyQueue(r: Registry, h: nat, cfg: Config, now: nat)
    requires QueueIndexed(r) && h in r.heap && EntryInv(r.heap[h])
    requires TryParseLobbyLink(r.heap[h].link).Some? ==> r.heap[h].lobbyId in r.byId
    ensures QueueIndexed(ClassifyEntry(r, h, cfg, now))
  {
    var r' := ClassifyEntry(r, h, cfg, now);
    if Classify(r.heap[h], cfg, now).enqueue {
      forall i | 0 <= i < |r'.queue| ensures r'.queue[i] in r'.byId {
        if i < |r.queue| { assert r'.queue[i] == r.queue[i]; }
      }
    }
  }

  lemma ClassifyIds(r: Registry, h: nat, cfg: Config, now: nat)
    requires IdIndexed(r) && EntriesInvExcept(r, Option.None) && h in r.heap
    ensures IdIndexed(ClassifyEntry(r, h, cfg, now))
  {
    ClassifyResolves(r, h, cfg, now);
    ClassifyQueue(r, h, cfg, now);
  }

  lemma ClassifyEntries(r: Registry, h: nat, cfg: Config, now: nat)
    requires EntriesInvExcept(r, Option.None) && h in r.heap
    ensures EntriesInvExcept(ClassifyEntry(r, h, cfg, now), Option.None)
  {
    assert EntryInv(r.heap[h]);
  }

  lemma ClassifyInv(r: Registry, h: nat, cfg: Config, now: nat)
    requires Inv(r) && h in r.heap
    ensures Inv(ClassifyEntry(r, h, cfg, now))
  {
    SameLinksKeep(r, ClassifyEntry(r, h, cfg, now));
    ClassifyIds(r, h, cfg, now);
    ClassifyEntries(r, h, cfg, now);
  }

  /** `AddLobbyEntry` keeps the registry invariant. */
  lemma AddLobbyEntryInv(r: Registry, cfg: Config, now: nat, link: string, post: PostInfo)
    requires Inv(r)
    ensures Inv(AddLobbyEntry(r, cfg, now, link, post))
  {
    if !IsBlank(link) {
      var h := EntryHandle(r, link);
      PrepareInv(r, cfg, now, link, post);
      var r3 := Prepare(r, cfg, now, link, post);
      AttachInv(r3, h, link);
      ClassifyInv(AttachLobbyId(r3, h, link), h, cfg, now);
    }
  }

  // ---------------------------------------------------------------------
  // What AddLobbyEntry does to the entry of the link

  /** The entry after `Prepare` is the prior entry with the post recorded. */
  lemma PrepareEntry(r: Registry, cfg: Config, now: nat, link: string, post: PostInfo)
    requires ListWellFormed(r) && LinkIndexed(r)
    ensures var r' := Prepare(r, cfg, now, link, post); var h := EntryHandle(r, link);
            var p := PriorEntry(r, link, now);
      && r'.heap == r.heap[h := p.(sources := AddOrUpdateSource(p.sources, post, now), lastSeen := now)]
      && r'.byId == r.byId && r'.queue == r.queue && r'.version == r.version && r'.lastJoin == r.lastJoin
  {
    var h := EntryHandle(r, link);
    var p := PriorEntry(r, link, now);
    UpsertListed(r, link, now);
    var r1 := Upsert(r, link, now);
    assert r1.heap == r.heap[h := p] by {
      if Fold(link) !in r.byLink {
        assert r1.heap == r.heap[r.nextHandle := NewEntry(link, now)];
      }
    }
    var r2 := Touch(r1, h, post, now);
    assert r2.heap == r.heap[h := p.(sources := AddOrUpdateSource(p.sources, post, now), lastSeen := now)];
    var r3 := Trim(r2, EntryCap(cfg));
    assert r3.heap == r2.heap && r3.byId == r2.byId && r3.queue == r2.queue;
  }

  /** The lobby fields of the entry after `AddLobbyEntry` are what the link
      parses to. */
  lemma AddLobbyEntryParses(r: Registry, cfg: Config, now: nat, link: string, post: PostInfo)
    requires Inv(r) && !IsBlank(link)
    ensures var r' := AddLobbyEntry(r, cfg, now, link, post); var e := r'.heap[EntryHandle(r, link)];
      && Fold(e.link) == Fold(link)
      && (TryParseLobbyLink(link).None? ==> e.status == Invalid && !e.HasLobbyId() && r'.queue == r.queue)
      && (TryParseLobbyLink(link).Some? ==>
            var ref := TryParseLobbyLink(link).value;
            e.app == ref.app && e.lobbyId == ref.lobby && e.host == ref.host && ref.lobby in r'.byId)
  {
    var h := EntryHandle(r, link);
    AddLobbyEntryInv(r, cfg, now, link, post);
    var r' := AddLobbyEntry(r, cfg, now, link, post);
    PrepareEntry(r, cfg, now, link, post);
    UpsertInv(r, link, now);
    assert r'.heap[h].link == Prepare(r, cfg, now, link, post).heap[h].link;
    assert EntryInv(r'.heap[h]);
    ParseIgnoresCase(r'.heap[h].link, link);
  }

  /** The entry that reaches classification carries the parsed lobby
      fields and the prior entry's check state. */
  lemma AttachedEntry(r: Registry, cfg: Config, now: nat, link: string, post: PostInfo)
    requires Inv(r) && TryParseLobbyLink(link).Some?
    ensures var h := EntryHandle(r, link); var p := PriorEntry(r, link, now);
            var a := AttachLobbyId(Prepare(r, cfg, now, link, post), h, link).heap[h];
            var ref := TryParseLobbyLink(link).value;
      && a.app == ref.app && a.lobbyId == ref.lobby && a.host == ref.host
      && a.pending == p.pending && a.lastCheck == p.lastCheck && a.status == p.status
      && a.memberCount == p.memberCount && a.memberLimit == p.memberLimit
  {
    PrepareEntry(r, cfg, now, link, post);
    var p := PriorEntry(r, link, now);
    if Fold(link) in r.byLink {
      assert EntryInv(p);
      assert p.link == r.heap[r.byLink[Fold(link)]].link;
      ParseIgnoresCase(p.link, link);
    }
  }

  /** The queue after `AddLobbyEntry` gains the lobby id exactly when Steam
      validation is on, the app matches, and the entry was neither pending
      nor checked within the interval; the entry is then Checking and
      pending. */
  lemma AddLobbyEntryQueue(r: Registry, cfg: Config, now: nat, link: string, post: PostInfo)
    requires Inv(r) && !IsBlank(link)
    ensures var r' := AddLobbyEntry(r, cfg, now, link, post); var e := r'.heap[EntryHandle(r, link)];
            var ref := TryParseLobbyLink(link); var p := PriorEntry(r, link, now);
            var checks := && ref.Some? && ref.value.lobby != 0
                          && (ExpectedApp(cfg) == 0 || ref.value.app == ExpectedApp(cfg))
                          && cfg.validate && GetValidationMode(cfg.validationMode) == Steam
                          && cfg.steamValidationEnabled && !p.pending
                          && IntervalElapsed(p.lastCheck, now, CheckInterval(cfg));
      && r'.queue == (if checks then r.queue + [ref.value.lobby] else r.queue)
      && (checks ==> e.status == Checking && e.pending && e.lastCheck == At(now))
  {
    var h := EntryHandle(r, link);
    PrepareEntry(r, cfg, now, link, post);
    if TryParseLobbyLink(link).Some? {
      AttachedEntry(r, cfg, now, link, post);
    } else {
      AddLobbyEntryParses(r, cfg, now, link, post);
    }
  }

  /** Without Steam validation, and for a foreign app in any mode, the
      status follows from the settings alone and the member counts are
      cleared. */
  lemma AddLobbyEntryWithoutSteam(r: Registry, cfg: Config, now: nat, link: string, post: PostInfo)
    requires Inv(r) && !IsBlank(link)
    requires TryParseLobbyLink(link).Some? && TryParseLobbyLink(link).value.lobby != 0
    requires GetValidationMode(cfg.validationMode) != Steam
             || (ExpectedApp(cfg) != 0 && TryParseLobbyLink(link).value.app != ExpectedApp(cfg))
    ensures var r' := AddLobbyEntry(r, cfg, now, link, post); var e := r'.heap[EntryHandle(r, link)];
            var ref := TryParseLobbyLink(link).value;
      && r'.queue == r.queue && e.memberCount == -1 && e.memberLimit == -1
      && e.status == (if ExpectedApp(cfg) != 0 && ref.app != ExpectedApp(cfg) then Invalid
                      else if !cfg.validate || GetValidationMode(cfg.validationMode) == ValidationMode.None then Unknown
                      else Valid)
  {
    AttachedEntry(r, cfg, now, link, post);
    var a := AttachLobbyId(Prepare(r, cfg, now, link, post), EntryHandle(r, link), link).heap[EntryHandle(r, link)];
    if GetValidationMode(cfg.validationMode) != Steam {
      ClassifyWithoutSteam(a, cfg, now);
    }
  }

  /** In Steam mode with a matching app: a pending entry stays Checking, an
      unavailable Steam client gives SteamUnavailable, and an entry checked
      within the interval keeps its status and counts. */
  lemma AddLobbyEntrySteam(r: Registry, cfg: Config, now: nat, link: string, post: PostInfo)
    requires Inv(r) && !IsBlank(link)
    requires TryParseLobbyLink(link).Some? && TryParseLobbyLink(link).value.lobby != 0
    requires ExpectedApp(cfg) == 0 || TryParseLobbyLink(link).value.app == ExpectedApp(cfg)
    requires cfg.validate && GetValidationMode(cfg.validationMode) == Steam
    ensures var r' := AddLobbyEntry(r, cfg, now, link, post); var e := r'.heap[EntryHandle(r, link)];
            var p := PriorEntry(r, link, now);
      && (!cfg.steamValidationEnabled ==> e.status == SteamUnavailable && e.memberCount == -1)
      && (cfg.steamValidationEnabled && p.pending ==> e.status == Checking && e.pending && e.memberCount == -1)
      && (cfg.steamValidationEnabled && !p.pending && !IntervalElapsed(p.lastCheck, now, CheckInterval(cfg)) ==>
            e.status == p.status && e.memberCount == p.memberCount && e.memberLimit == p.memberLimit && !e.pending)
  {
    AttachedEntry(r, cfg, now, link, post);
  }

  /** `AddLobbyEntry` records the post on the link's entry and leaves every
      other entry alone. */
  lemma AddLobbyEntryRecords(r: Registry, cfg: Config, now: nat, link: string, post: PostInfo)
    requires Inv(r) && !IsBlank(link)
    ensures var r' := AddLobbyEntry(r, cfg, now, link, post); var h := EntryHandle(r, link);
      && r'.heap[h].lastSeen == now && SourceOf(post, now) in r'.heap[h].sources
      && (forall g :: g in r.heap && g != h ==> g in r'.heap && r'.heap[g] == r.heap[g])
      && r'.lastJoin == r.lastJoin
  {
    PrepareEntry(r, cfg, now, link, post);
    var h := EntryHandle(r, link);
    assert SourceOf(post, now) in Prepare(r, cfg, now, link, post).heap[h].sources;
    AddLobbyEntryOthers(r, cfg, now, link, post);
  }

  lemma AddLobbyEntryOthers(r: Registry, cfg: Config, now: nat, link: string, post: PostInfo)
    requires Inv(r) && !IsBlank(link)
    ensures var r' := AddLobbyEntry(r, cfg, now, link, post); var h := EntryHandle(r, link);
      forall g :: g in r.heap && g != h ==> g in r'.heap && r'.heap[g] == r.heap[g]
  {
    PrepareEntry(r, cfg, now, link, post);
  }

  /** `AddLobbyEntry` merges the post into the sources the entry had
      before (none for a new entry). */
  lemma AddLobbyEntrySources(r: Registry, cfg: Config, now: nat, link: string, post: PostInfo)
    requires Inv(r) && !IsBlank(link)
    ensures var r' := AddLobbyEntry(r, cfg, now, link, post); var h := EntryHandle(r, link);
      r'.heap[h].sources == AddOrUpdateSource(PriorEntry(r, link, now).sources, post, now)
  {
    PrepareEntry(r, cfg, now, link, post);
  }

  /** After `AddLobbyEntry` the list holds one entry more when the link is
      new, but never more than the cap once it is reached. */
  lemma AddLobbyEntrySize(r: Registry, cfg: Config, now: nat, link: string, post: PostInfo)
    requires Inv(r) && !IsBlank(link)
    ensures var n := |r.order| + (if Fold(link) in r.byLink then 0 else 1);
      |AddLobbyEntry(r, cfg, now, link, post).order| == (if n <= EntryCap(cfg) then n else EntryCap(cfg))
  {
    UpsertListed(r, link, now);
  }

  /** While the list has room for the link, `AddLobbyEntry` evicts nothing:
      the link index only gains the link, every other link keeps its entry. */
  lemma AddLobbyEntryNoEviction(r: Registry, cfg: Config, now: nat, link: string, post: PostInfo)
    requires Inv(r) && !IsBlank(link)
    requires |r.order| + (if Fold(link) in r.byLink then 0 else 1) <= EntryCap(cfg)
    ensures AddLobbyEntry(r, cfg, now, link, post).byLink == r.byLink[Fold(link) := EntryHandle(r, link)]
  {
    UpsertListed(r, link, now);
    var h := EntryHandle(r, link);
    var u := Upsert(r, link, now);
    var t := Touch(u, h, post, now);
    assert t.order == u.order && t.byLink == u.byLink;
    assert Trim(t, EntryCap(cfg)) == t;
    if Fold(link) in r.byLink {
      assert r.byLink[Fold(link) := h] == r.byLink;
    }
  }

  /** With the start-up flag set as `TryInitializeSteamValidation` sets it,
      a lobby is queued for a Steam check only when the callback was
      registered, validation is on and the mode is Steam. */
  lemma QueueNeedsCallback(r: Registry, cfg: Config, now: nat, link: string, post: PostInfo, registered: bool)
    requires Inv(r)
    requires cfg.steamValidationEnabled == SteamValidationEnabled(cfg.validate, cfg.validationMode, registered)
    ensures AddLobbyEntry(r, cfg, now, link, post).queue != r.queue ==>
              registered && cfg.validate && GetValidationMode(cfg.validationMode) == Steam
  {
    if !IsBlank(link) {
      AddLobbyEntryQueue(r, cfg, now, link, post);
    }
  }

  /** The default settings select FormatOnly, so the start-up flag is off
      whether or not the callback registers, and no lobby is ever queued. */
  lemma DefaultConfigNeverQueues(r: Registry, now: nat, link: string, post: PostInfo, registered: bool)
    requires Inv(r)
    ensures DefaultConfig.steamValidationEnabled
              == SteamValidationEnabled(DefaultConfig.validate, DefaultConfig.validationMode, registered)
    ensures AddLobbyEntry(r, DefaultConfig, now, link, post).queue == r.queue
  {
    DefaultConfigFlagOff(registered);
    QueueNeedsCallback(r, DefaultConfig, now, link, post, registered);
  }
}

=== FILE: scanning.dfy ===
/** Leftmost, non-overlapping scanning of a string with a pattern whose
    matches are never empty, the way `Regex.Matches` enumerates them. A
    pattern is given by its match-length function: `len(s, i)` is the length
    of the match that starts at `i`, or 0 when none starts there. */
module Scanning {

  /** One match: where it starts and how long it is. */
  datatype Hit = Hit(start: nat, len: nat) {
    function End(): nat {
      start + len
    }
  }

  /** Every match of the pattern in `s` stays inside `s`. */
  ghost predicate Fits(s: string, len: (string, nat) -> nat) {
    forall j :: 0 <= j <= |s| ==> j + len(s, j) <= |s|
  }

  /** The matches from position `i` on: the leftmost match, then the leftmost
      match at or after its end, and so on. */
  function Scan(s: string, i: nat, len: (string, nat) -> nat): (r: seq<Hit>)
    requires i <= |s| && Fits(s, len)
    ensures forall k :: 0 <= k < |r| ==> i <= r[k].start && r[k].End() <= |s|
    ensures forall k :: 0 <= k < |r| ==> r[k].len > 0 && r[k].len == len(s, r[k].start)
    ensures forall k :: 0 <= k < |r| - 1 ==> r[k].End() <= r[k + 1].start
    decreases |s| - i
  {
    if i == |s| then []
    else if len(s, i) > 0 then [Hit(i, len(s, i))] + Scan(s, i + len(s, i), len)
    else Scan(s, i + 1, len)
  }

  /** Position `j` lies inside one of the matches. */
  predicate Covered(r: seq<Hit>, j: nat) {
    exists k | 0 <= k < |r| :: r[k].start <= j < r[k].End()
  }

  /** A position covered by a list of matches stays covered when a match
      is put in front. */
  lemma CoveredAfter(h: Hit, rest: seq<Hit>, j: nat)
    requires Covered(rest, j)
    ensures Covered([h] + rest, j)
  {
    var k :| 0 <= k < |rest| && rest[k].start <= j < rest[k].End();
    assert ([h] + rest)[k + 1] == rest[k];
  }

  /** The scan is leftmost: every position from `i` on where the pattern
      matches is the start of a reported match or lies inside one, so the only
      matches left out are those overlapping an earlier one. */
  lemma {:induction false} ScanIsLeftmost(s: string, i: nat, j: nat, len: (string, nat) -> nat)
    requires Fits(s, len)
    requires i <= j < |s| && len(s, j) > 0
    ensures Covered(Scan(s, i, len), j)
    decreases |s| - i
  {
    var r := Scan(s, i, len);
    if len(s, i) > 0 {
      var rest := Scan(s, i + len(s, i), len);
      assert r == [Hit(i, len(s, i))] + rest;
      if j < i + len(s, i) {
        assert r[0].start <= j < r[0].End();
      } else {
        ScanIsLeftmost(s, i + len(s, i), j, len);
        CoveredAfter(Hit(i, len(s, i)), rest, j);
      }
    } else {
      assert j != i;
      ScanIsLeftmost(s, i + 1, j, len);
    }
  }

  /** No match is reported that the scan could have started earlier: a
      position strictly between `i` and the first reported match carries no
      match. Together with `ScanIsLeftmost` this pins the first match down. */
  lemma {:induction false} FirstHitIsLeftmost(s: string, i: nat, j: nat, len: (string, nat) -> nat)
    requires Fits(s, len) && i <= |s|
    requires |Scan(s, i, len)| > 0 && i <= j < Scan(s, i, len)[0].start
    ensures len(s, j) == 0
    decreases |s| - i
  {
    if len(s, i) == 0 && j > i {
      FirstHitIsLeftmost(s, i + 1, j, len);
    }
  }

  /** Two strings on which the pattern behaves alike scan alike. */
  lemma {:induction false} ScanAgrees(s: string, t: string, i: nat, len: (string, nat) -> nat)
    requires |s| == |t| && i <= |s| && Fits(s, len) && Fits(t, len)
    requires forall j :: 0 <= j <= |s| ==> len(s, j) == len(t, j)
    ensures Scan(s, i, len) == Scan(t, i, len)
    decreases |s| - i
  {
    if i < |s| {
      if len(s, i) > 0 {
        ScanAgrees(s, t, i + len(s, i), len);
      } else {
        ScanAgrees(s, t, i + 1, len);
      }
    }
  }

  /** A string that is one match from end to end scans as that one match. */
  lemma ScanWhole(s: string, len: (string, nat) -> nat)
    requires Fits(s, len) && |s| > 0 && len(s, 0) == |s|
    ensures Scan(s, 0, len) == [Hit(0, |s|)]
  {
    assert Scan(s, |s|, len) == [];
  }
}

=== FILE: snapshot.dfy ===
/** `GetLobbySnapshot`: the list the lobby window shows. Each listed entry
    is paired with its newest source and the largest post number among its
    sources; entries are grouped by post id (or by link when the newest
    source has no id), the best entry of each group is kept, and the
    groups are ordered newest post first. */
module Snapshot {
  import opened Wrappers
  import opened Text
  import opened Lobby
  import Posts
  import opened Registry

  // ---------------------------------------------------------------------
  // Per-entry figures

  /** The position of the newest source; the first one on ties, as the
      stable `OrderByDescending(AddedUtc).First()` picks. */
  function LatestIndex(sources: seq<PostSource>): (k: nat)
    requires |sources| > 0
    ensures k < |sources|
    ensures forall j :: 0 <= j < |sources| ==> sources[j].added <= sources[k].added
    ensures forall j :: 0 <= j < k ==> sources[j].added < sources[k].added
    decreases |sources|
  {
    if |sources| == 1 then 0
    else
      var k := LatestIndex(sources[..|sources| - 1]);
      if sources[|sources| - 1].added > sources[k].added then |sources| - 1 else k
  }

  /** The newest source, if there is one. */
  function LatestSource(sources: seq<PostSource>): (s: Option<PostSource>)
    ensures s.None? <==> |sources| == 0
    ensures s.Some? ==> s.value in sources && forall x :: x in sources ==> x.added <= s.value.added
  {
    if |sources| == 0 then Option.None else Some(sources[LatestIndex(sources)])
  }

  /** A post recorded later than every earlier source becomes the one the
      snapshot shows: across the posts of one poll the clock moves on, so
      the last post to list a link is the link's latest source. */
  lemma NewerSourceShown(sources: seq<PostSource>, p: Posts.PostInfo, now: nat)
    requires forall x :: x in sources ==> x.added < now
    ensures LatestSource(AddOrUpdateSource(sources, p, now)) == Some(SourceOf(p, now))
  {
    var r := AddOrUpdateSource(sources, p, now);
    var s := LatestSource(r).value;
    assert SourceOf(p, now) in r;
    var j :| 0 <= j < |r| && r[j] == s;
    assert r[j] in sources || r[j] == SourceOf(p, now);
  }

  /** `ParsePostId`: the post number as a 64-bit integer, 0 when the id is
      not one. */
  function ParsePostId(id: string): (n: int)
    ensures MinInt64 <= n <= MaxInt64
    ensures ParseInteger(id, MinInt64, MaxInt64).Some? ==> n == ParseInteger(id, MinInt64, MaxInt64).value
    ensures ParseInteger(id, MinInt64, MaxInt64).None? ==> n == 0
  {
    match ParseInteger(id, MinInt64, MaxInt64)
    case Some(v) => v
    case None => 0
  }

  /** A post number printed by the board reads back as itself. */
  lemma ParsePostIdRoundTrip(n: int)
    requires MinInt64 <= n <= MaxInt64
    ensures ParsePostId(IntToDecimal(n)) == n
  {
    IntRoundTrip(n, MinInt64, MaxInt64);
  }

  /** The position of the first largest number. */
  function MaxIndex(xs: seq<int>, n: nat): (k: nat)
    requires 0 < n <= |xs|
    ensures k < n
    ensures forall j :: 0 <= j < n ==> xs[j] <= xs[k]
    ensures forall j :: 0 <= j < k ==> xs[j] < xs[k]
  {
    if n == 1 then 0
    else
      var k := MaxIndex(xs, n - 1);
      if xs[n - 1] > xs[k] then n - 1 else k
  }

  /** The post numbers of the sources. */
  function PostIds(sources: seq<PostSource>): (ids: seq<int>)
    ensures |ids| == |sources|
    ensures forall j :: 0 <= j < |sources| ==> ids[j] == ParsePostId(sources[j].id)
  {
    seq(|sources|, j requires 0 <= j < |sources| => ParsePostId(sources[j].id))
  }

  /** The largest post number among the sources, 0 without sources. */
  function SortPostId(sources: seq<PostSource>): (m: int)
    ensures |sources| == 0 ==> m == 0
    ensures forall j :: 0 <= j < |sources| ==> ParsePostId(sources[j].id) <= m
    ensures |sources| > 0 ==> exists j :: 0 <= j < |sources| && m == ParsePostId(sources[j].id)
  {
    if |sources| == 0 then 0
    else
      var ids := PostIds(sources);
      ids[MaxIndex(ids, |ids|)]
  }

  /** An entry with the figures the snapshot sorts and groups by. */
  datatype Candidate = Candidate(entry: LobbyEntry, source: Option<PostSource>, sortPostId: int)

  function CandidateOf(e: LobbyEntry): Candidate {
    Candidate(e, LatestSource(e.sources), SortPostId(e.sources))
  }

  /** The grouping key: the newest source's post id, or the link when that
      id is missing or blank. Keys are compared ignoring case. */
  function GroupKey(c: Candidate): string {
    if c.source.None? || IsBlank(c.source.value.id) then c.entry.link else c.source.value.id
  }

  // ---------------------------------------------------------------------
  // Grouping

  /** `a` beats `b` within a group: higher status rank, then later last
      sighting. */
  predicate Beats(a: Candidate, b: Candidate) {
    StatusRank(a.entry.status) > StatusRank(b.entry.status)
    || (StatusRank(a.entry.status) == StatusRank(b.entry.status) && a.entry.lastSeen > b.entry.lastSeen)
  }

  /** The folded group key of every candidate. */
  function Keys(cs: seq<Candidate>): (keys: seq<string>)
    ensures |keys| == |cs|
    ensures forall i :: 0 <= i < |cs| ==> keys[i] == Fold(GroupKey(cs[i]))
  {
    seq(|cs|, i requires 0 <= i < |cs| => Fold(GroupKey(cs[i])))
  }

  /** The distinct keys among the first `n`, in order of first appearance. */
  function Distinct(keys: seq<string>, n: nat): (ks: seq<string>)
    requires n <= |keys|
    ensures forall i, j :: 0 <= i < j < |ks| ==> ks[i] != ks[j]
    ensures forall i :: 0 <= i < n ==> keys[i] in ks
    ensures forall k :: k in ks ==> exists i :: 0 <= i < n && keys[i] == k
    ensures |ks| <= n
  {
    if n == 0 then []
    else
      var ks := Distinct(keys, n - 1);
      if keys[n - 1] in ks then ks else ks + [keys[n - 1]]
  }

  /** The position of the representative of group `key` among the first
      `n`: the first candidate of the group that nothing in it beats, as
      the stable `OrderByDescending(rank).ThenByDescending(LastSeen).First()`
      picks. */
  function BestUpTo(keys: seq<string>, cs: seq<Candidate>, key: string, n: nat): (b: Option<nat>)
    requires |keys| == |cs| && n <= |cs|
    ensures b.None? <==> forall i :: 0 <= i < n ==> keys[i] != key
    ensures b.Some? ==> b.value < n && keys[b.value] == key
    ensures b.Some? ==> forall i :: 0 <= i < n && keys[i] == key ==> !Beats(cs[i], cs[b.value])
    ensures b.Some? ==> forall i :: 0 <= i < b.value && keys[i] == key ==> Beats(cs[b.value], cs[i])
  {
    if n == 0 then Option.None
    else
      var b := BestUpTo(keys, cs, key, n - 1);
      if keys[n - 1] != key then b
      else if b.None? || Beats(cs[n - 1], cs[b.value]) then Some(n - 1)
      else b
  }

  /** One representative per group, groups in order of first appearance. */
  function Representatives(cs: seq<Candidate>): (reps: seq<Candidate>)
    ensures |reps| == |Distinct(Keys(cs), |cs|)|
    ensures forall i :: 0 <= i < |reps| ==> Fold(GroupKey(reps[i])) == Distinct(Keys(cs), |cs|)[i]
    ensures forall i :: 0 <= i < |reps| ==> reps[i] in cs
    ensures forall i :: 0 <= i < |reps| ==> reps[i] == Rep(cs, Distinct(Keys(cs), |cs|)[i])
  {
    var ks := Distinct(Keys(cs), |cs|);
    seq(|ks|, i requires 0 <= i < |ks| => Rep(cs, ks[i]))
  }

  /** The representative of a group that occurs. */
  function Rep(cs: seq<Candidate>, key: string): (c: Candidate)
    requires key in Distinct(Keys(cs), |cs|)
    ensures Fold(GroupKey(c)) == key && c in cs
    ensures forall i :: 0 <= i < |cs| && Fold(GroupKey(cs[i])) == key ==> !Beats(cs[i], c)
  {
    var keys := Keys(cs);
    var i :| 0 <= i < |cs| && keys[i] == key;
    cs[BestUpTo(keys, cs, key, |cs|).value]
  }

  // ---------------------------------------------------------------------
  // Ordering

  /** `a` goes strictly before `b`: larger post number, then later last
      sighting. */
  predicate Before(a: Candidate, b: Candidate) {
    a.sortPostId > b.sortPostId || (a.sortPostId == b.sortPostId && a.entry.lastSeen > b.entry.lastSeen)
  }

  predicate Ordered(s: seq<Candidate>) {
    forall i, j :: 0 <= i < j < |s| ==> !Before(s[j], s[i])
  }

  /** Insertion after every leading element `x` does not go before, so
      equal elements keep their order. */
  function Insert(x: Candidate, s: seq<Candidate>): (t: seq<Candidate>)
    ensures multiset(t) == multiset(s) + multiset{x}
    decreases |s|
  {
    if |s| == 0 then [x]
    else if Before(x, s[0]) then [x] + s
    else
      assert s == [s[0]] + s[1..];
      [s[0]] + Insert(x, s[1..])
  }

  /** Nothing in `s` goes before `a`. */
  predicate NoneBefore(s: seq<Candidate>, a: Candidate) {
    forall i :: 0 <= i < |s| ==> !Before(s[i], a)
  }

  lemma {:induction false} InsertOrdered(x: Candidate, s: seq<Candidate>)
    requires Ordered(s)
    ensures Ordered(Insert(x, s))
    decreases |s|
  {
    if |s| > 0 && !Before(x, s[0]) {
      var rest := Insert(x, s[1..]);
      InsertOrdered(x, s[1..]);
      assert NoneBefore(rest, s[0]) by {
        forall i | 0 <= i < |rest| ensures !Before(rest[i], s[0]) {
          assert rest[i] in multiset(rest);
          if rest[i] != x {
            assert rest[i] in multiset(s[1..]);
            var j :| 0 <= j < |s[1..]| && s[1..][j] == rest[i];
            assert s[j + 1] == rest[i];
          }
        }
      }
      assert Insert(x, s) == [s[0]] + rest;
    }
  }

  /** The stable sort `OrderByDescending(SortPostId).ThenByDescending(LastSeen)`. */
  function SortStable(s: seq<Candidate>): (t: seq<Candidate>)
    ensures Ordered(t)
    ensures multiset(t) == multiset(s)
    decreases |s|
  {
    if |s| == 0 then []
    else
      assert s == s[..|s| - 1] + [s[|s| - 1]];
      InsertOrdered(s[|s| - 1], SortStable(s[..|s| - 1]));
      Insert(s[|s| - 1], SortStable(s[..|s| - 1]))
  }

  /** No two elements share a group key. */
  predicate KeysDistinct(s: seq<Candidate>) {
    forall i, j :: 0 <= i < j < |s| ==> Fold(GroupKey(s[i])) != Fold(GroupKey(s[j]))
  }

  lemma InsertMembers(x: Candidate, s: seq<Candidate>)
    ensures forall y :: y in Insert(x, s) ==> y == x || y in s
  {
    var t := Insert(x, s);
    forall y | y in t ensures y == x || y in s {
      assert y in multiset(t);
    }
  }

  lemma {:induction false} InsertDistinct(x: Candidate, s: seq<Candidate>)
    requires KeysDistinct(s)
    requires forall i :: 0 <= i < |s| ==> Fold(GroupKey(s[i])) != Fold(GroupKey(x))
    ensures KeysDistinct(Insert(x, s))
    decreases |s|
  {
    if |s| > 0 && !Before(x, s[0]) {
      InsertDistinct(x, s[1..]);
      var rest := Insert(x, s[1..]);
      InsertMembers(x, s[1..]);
      forall i | 0 <= i < |rest| ensures Fold(GroupKey(rest[i])) != Fold(GroupKey(s[0])) {
        assert rest[i] in rest;
        if rest[i] != x {
          var j :| 0 <= j < |s[1..]| && s[1..][j] == rest[i];
          assert s[j + 1] == rest[i];
        }
      }
      assert Insert(x, s) == [s[0]] + rest;
    }
  }

  lemma SortMembers(s: seq<Candidate>)
    ensures forall y :: y in SortStable(s) <==> y in s
  {
    var t := SortStable(s);
    forall y ensures y in t <==> y in s {
      assert y in t <==> y in multiset(t);
    }
  }

  lemma {:induction false} SortDistinct(s: seq<Candidate>)
    requires KeysDistinct(s)
    ensures KeysDistinct(SortStable(s))
    decreases |s|
  {
    if |s| > 0 {
      var p := s[..|s| - 1];
      var x := s[|s| - 1];
      assert KeysDistinct(p) by {
        forall i, j | 0 <= i < j < |p| ensures Fold(GroupKey(p[i])) != Fold(GroupKey(p[j])) {
          assert p[i] == s[i] && p[j] == s[j];
        }
      }
      SortDistinct(p);
      var t := SortStable(p);
      SortNotAfter(p, x, |s| - 1, s);
      InsertDistinct(x, t);
    }
  }

  /** The sorted prefix holds none of the last element's group. */
  lemma SortNotAfter(p: seq<Candidate>, x: Candidate, n: nat, s: seq<Candidate>)
    requires KeysDistinct(s) && n < |s| && p == s[..n] && x == s[n]
    ensures forall i :: 0 <= i < |SortStable(p)| ==> Fold(GroupKey(SortStable(p)[i])) != Fold(GroupKey(x))
  {
    var t := SortStable(p);
    SortMembers(p);
    forall i | 0 <= i < |t| ensures Fold(GroupKey(t[i])) != Fold(GroupKey(x)) {
      assert t[i] in t;
      var j :| 0 <= j < |p| && p[j] == t[i];
      assert s[j] == t[i];
    }
  }

  // ---------------------------------------------------------------------
  // The snapshot

  /** One row of the lobby window. */
  datatype LobbyEntryView = LobbyEntryView(
    link: string, sourceCount: nat, lastSeen: nat,
    postUrl: string, postId: string, postTitle: string, author: string, postDate: string, views: string,
    memberCount: int, memberLimit: int, status: Status)

  /** The row of a candidate: source fields are empty without a source. */
  function ViewOf(c: Candidate): (v: LobbyEntryView)
    ensures v.link == c.entry.link && v.status == c.entry.status && v.lastSeen == c.entry.lastSeen
    ensures v.memberCount == c.entry.memberCount && v.memberLimit == c.entry.memberLimit
    ensures v.sourceCount == |c.entry.sources|
    ensures c.source.None? ==> v.postId == "" && v.postUrl == "" && v.postTitle == ""
                               && v.author == "" && v.postDate == "" && v.views == ""
    ensures c.source.Some? ==> var s := c.source.value;
      && v.postId == s.id && v.postUrl == s.url && v.postTitle == s.title
      && v.author == s.author && v.postDate == s.date && v.views == s.views
  {
    match c.source
    case None =>
      LobbyEntryView(c.entry.link, |c.entry.sources|, c.entry.lastSeen, "", "", "", "", "", "",
                     c.entry.memberCount, c.entry.memberLimit, c.entry.status)
    case Some(s) =>
      LobbyEntryView(c.entry.link, |c.entry.sources|, c.entry.lastSeen, s.url, s.id, s.title, s.author, s.date,
                     s.views, c.entry.memberCount, c.entry.memberLimit, c.entry.status)
  }

  /** The grouping key as it can be read off a row. */
  function ViewKey(v: LobbyEntryView): string {
    if IsBlank(v.postId) then v.link else v.postId
  }

  lemma ViewKeyIsGroupKey(c: Candidate)
    ensures ViewKey(ViewOf(c)) == GroupKey(c)
  {
    if c.source.None? {
      assert IsBlank("");
    }
  }

  /** The candidates of the listed entries, in list order. */
  function Candidates(r: Registry): (cs: seq<Candidate>)
    requires Listed(r)
    ensures |cs| == |r.order|
    ensures forall i :: 0 <= i < |cs| ==> cs[i] == CandidateOf(r.heap[r.order[i]])
  {
    seq(|r.order|, i requires 0 <= i < |r.order| => CandidateOf(r.heap[r.order[i]]))
  }

  /** The representatives in display order. */
  function SnapshotOrder(r: Registry): (o: seq<Candidate>)
    requires Listed(r)
    ensures |o| == |Representatives(Candidates(r))| <= |r.order|
  {
    var reps := Representatives(Candidates(r));
    var o := SortStable(reps);
    SameLength(o, reps);
    o
  }

  lemma SameLength(a: seq<Candidate>, b: seq<Candidate>)
    requires multiset(a) == multiset(b)
    ensures |a| == |b|
  {
    assert |multiset(a)| == |multiset(b)|;
  }

  /** `GetLobbySnapshot`. */
  function GetLobbySnapshot(r: Registry): (views: seq<LobbyEntryView>)
    requires Listed(r)
    ensures |views| == |SnapshotOrder(r)| <= |r.order|
    ensures forall i :: 0 <= i < |views| ==> views[i] == ViewOf(SnapshotOrder(r)[i])
  {
    Views(SnapshotOrder(r))
  }

  /** The rows of candidates, in their order. */
  function Views(o: seq<Candidate>): (views: seq<LobbyEntryView>)
    ensures |views| == |o|
    ensures forall i :: 0 <= i < |o| ==> views[i] == ViewOf(o[i])
  {
    seq(|o|, i requires 0 <= i < |o| => ViewOf(o[i]))
  }

  /** At most one row per post id (or per link for rows without one),
      ignoring case. */
  lemma SnapshotOneRowPerGroup(r: Registry)
    requires Listed(r)
    ensures var views := GetLobbySnapshot(r);
      forall i, j :: 0 <= i < j < |views| ==> Fold(ViewKey(views[i])) != Fold(ViewKey(views[j]))
  {
    var reps := Representatives(Candidates(r));
    assert KeysDistinct(reps);
    SortDistinct(reps);
    var o := SnapshotOrder(r);
    var views := GetLobbySnapshot(r);
    forall i | 0 <= i < |views| ensures ViewKey(views[i]) == GroupKey(o[i]) {
      ViewKeyIsGroupKey(o[i]);
    }
  }

  /** Every listed entry's group has a row. */
  lemma SnapshotCoversEveryGroup(r: Registry)
    requires Listed(r)
    ensures var views := GetLobbySnapshot(r);
      forall i :: 0 <= i < |r.order| ==>
        exists j :: 0 <= j < |views| && Fold(ViewKey(views[j])) == Fold(GroupKey(CandidateOf(r.heap[r.order[i]])))
  {
    var cs := Candidates(r);
    var ks := Distinct(Keys(cs), |cs|);
    var views := GetLobbySnapshot(r);
    forall i | 0 <= i < |r.order|
      ensures exists j :: 0 <= j < |views| && Fold(ViewKey(views[j])) == Fold(GroupKey(cs[i]))
    {
      var k := Fold(GroupKey(cs[i]));
      assert Keys(cs)[i] == k;
      var m :| 0 <= m < |ks| && ks[m] == k;
      var j := RepListed(r, m);
      ViewKeyIsGroupKey(SnapshotOrder(r)[j]);
      assert Fold(ViewKey(views[j])) == k;
    }
  }

  /** The representative of each group appears in the display order. */
  lemma RepListed(r: Registry, m: nat) returns (j: nat)
    requires Listed(r) && m < |Distinct(Keys(Candidates(r)), |Candidates(r)|)|
    ensures j < |SnapshotOrder(r)| && SnapshotOrder(r)[j] == Representatives(Candidates(r))[m]
  {
    var reps := Representatives(Candidates(r));
    var o := SnapshotOrder(r);
    SortMembers(reps);
    assert reps[m] in o;
    j :| 0 <= j < |o| && o[j] == reps[m];
  }

  /** Each row shows an entry of its group that no other listed entry of
      the group beats on status rank, then last sighting. */
  lemma SnapshotShowsBest(r: Registry)
    requires Listed(r)
    ensures var o := SnapshotOrder(r);
      forall j, i :: 0 <= j < |o| && 0 <= i < |r.order|
                     && Fold(GroupKey(CandidateOf(r.heap[r.order[i]]))) == Fold(GroupKey(o[j])) ==>
        !Beats(CandidateOf(r.heap[r.order[i]]), o[j])
  {
    var cs := Candidates(r);
    var o := SnapshotOrder(r);
    forall j, i | 0 <= j < |o| && 0 <= i < |r.order| && Fold(GroupKey(cs[i])) == Fold(GroupKey(o[j]))
      ensures !Beats(cs[i], o[j])
    {
      RowIsRep(r, j);
    }
  }

  lemma RowIsRep(r: Registry, j: nat)
    requires Listed(r) && j < |SnapshotOrder(r)|
    ensures var cs := Candidates(r); var o := SnapshotOrder(r);
      Fold(GroupKey(o[j])) in Distinct(Keys(cs), |cs|) && o[j] == Rep(cs, Fold(GroupKey(o[j])))
  {
    var cs := Candidates(r);
    var reps := Representatives(cs);
    var o := SortStable(reps);
    SortMembers(reps);
    assert o[j] in o;
    MemberIsRep(cs, o[j]);
  }

  lemma MemberIsRep(cs: seq<Candidate>, c: Candidate)
    requires c in Representatives(cs)
    ensures Fold(GroupKey(c)) in Distinct(Keys(cs), |cs|) && c == Rep(cs, Fold(GroupKey(c)))
  {
    var reps := Representatives(cs);
    var m :| 0 <= m < |reps| && reps[m] == c;
  }

  // ---------------------------------------------------------------------
  // The join button

  /** Steam reported a member count and a positive limit. */
  predicate HasMembers(v: LobbyEntryView) {
    v.memberCount >= 0 && v.memberLimit > 0
  }

  /** The reported counts reach the limit, whatever the status says. */
  predicate CountsFull(v: LobbyEntryView) {
    HasMembers(v) && v.memberCount >= v.memberLimit
  }

  /** `Members c/l`. */
  function MembersText(v: LobbyEntryView): string {
    "Members " + IntToDecimal(v.memberCount) + "/" + IntToDecimal(v.memberLimit)
  }

  /** `BuildJoinButtonLabel`. */
  function BuildJoinButtonLabel(v: LobbyEntryView): (text: string)
    ensures |text| >= 4 && text[..4] == "Join"
    ensures text == "Join" <==> !CountsFull(v) && v.status == Unknown
    ensures CountsFull(v) || (v.status == Full && HasMembers(v)) ==> text == "Join (Full | " + MembersText(v) + ")"
    ensures !CountsFull(v) && v.status == Valid && HasMembers(v) ==> text == "Join (" + MembersText(v) + ")"
  {
    if CountsFull(v) then "Join (Full | " + MembersText(v) + ")"
    else match v.status
      case Invalid => "Join (Invalid)"
      case Full => if HasMembers(v) then "Join (Full | " + MembersText(v) + ")" else "Join (Full)"
      case Valid => if HasMembers(v) then "Join (" + MembersText(v) + ")" else "Join (Valid)"
      case Checking => "Join (Checking)"
      case SteamUnavailable => "Join (Steam offline)"
      case Unknown => "Join"
  }

  /** Without member figures the label tells every status apart. */
  lemma LabelTellsStatus(a: LobbyEntryView, b: LobbyEntryView)
    requires !HasMembers(a) && !HasMembers(b) && a.status != b.status
    ensures BuildJoinButtonLabel(a) != BuildJoinButtonLabel(b)
  {
  }
}

=== FILE: steam_links.dfy ===
/** The `steam://joinlobby/<app>/<lobby>/<host>` reference grammar: the
    scanner behind `ExtractSteamLinks` (a case-insensitive regular expression
    whose matches are taken leftmost-first and without overlap) and the strict
    parser `TryParseLobbyLink`. */
module SteamLinks {
  import opened Wrappers
  import opened Text
  import opened Scanning

  /** The literal part of the pattern, compared ignoring case. */
  const Prefix: string := "steam://joinlobby/"

  /** The three digit fields of one match. */
  datatype LinkMatch = LinkMatch(app: string, lobby: string, host: string) {
    function Length(): nat {
      |Prefix| + |app| + 1 + |lobby| + 1 + |host|
    }
  }

  /** The numeric triple of a parsed link. */
  datatype LobbyRef = LobbyRef(app: nat, lobby: nat, host: nat)

  /** The literal part of the pattern starts at `i` of an already folded string. */
  predicate PrefixAt(f: string, i: nat) {
    i + |Prefix| <= |f| && f[i..i + |Prefix|] == Prefix
  }

  /** Length of a non-empty run of digits starting at `p` that is followed
      by `/`; 0 when there is none. */
  function SlashedField(s: string, p: nat): (n: nat)
    requires p <= |s|
    ensures n > 0 ==> p + n < |s| && s[p + n] == '/'
    ensures forall k :: p <= k < p + n ==> IsDigit(s[k])
  {
    var a := DigitRun(s, p);
    if a > 0 && p + a < |s| && s[p + a] == '/' then a else 0
  }

  /** The three `\d+` fields, separated by `/`, starting at `p`. Each `\d+`
      is followed by `/` or ends the pattern, so greedy matching never
      backtracks and the match is unique. */
  function FieldsAt(s: string, p: nat): (r: Option<LinkMatch>)
    requires p <= |s|
    ensures r.Some? ==> p + |r.value.app| + 1 + |r.value.lobby| + 1 + |r.value.host| <= |s|
    ensures r.Some? ==> |r.value.app| > 0 && |r.value.lobby| > 0 && |r.value.host| > 0
    ensures r.Some? ==> AllDigits(r.value.app) && AllDigits(r.value.lobby) && AllDigits(r.value.host)
  {
    var a := SlashedField(s, p);
    if a == 0 then None
    else
      var p2 := p + a + 1;
      var b := SlashedField(s, p2);
      if b == 0 then None
      else
        var p3 := p2 + b + 1;
        var c := DigitRun(s, p3);
        if c == 0 then None
        else
          assert AllDigits(s[p..p + a]) && AllDigits(s[p2..p2 + b]) && AllDigits(s[p3..p3 + c]);
          Some(LinkMatch(s[p..p + a], s[p2..p2 + b], s[p3..p3 + c]))
  }

  /** The match of the pattern that starts exactly at `i` of a folded string. */
  function FoldedMatchAt(f: string, i: nat): (r: Option<LinkMatch>)
    ensures r.Some? ==> i + r.value.Length() <= |f| && PrefixAt(f, i)
    ensures r.Some? ==> |r.value.app| > 0 && |r.value.lobby| > 0 && |r.value.host| > 0
    ensures r.Some? ==> AllDigits(r.value.app) && AllDigits(r.value.lobby) && AllDigits(r.value.host)
  {
    if PrefixAt(f, i) then FieldsAt(f, i + |Prefix|) else None
  }

  /** The match that starts exactly at `i`, if any. `RegexOptions.IgnoreCase`
      is matching against the lower-cased text: folding changes neither
      digits nor `/`, so the captured digit fields are the same either way. */
  function MatchAt(s: string, i: nat): (r: Option<LinkMatch>)
    ensures r.Some? ==> i + r.value.Length() <= |s|
    ensures r.Some? ==> |r.value.app| > 0 && |r.value.lobby| > 0 && |r.value.host| > 0
    ensures r.Some? ==> AllDigits(r.value.app) && AllDigits(r.value.lobby) && AllDigits(r.value.host)
  {
    FoldedMatchAt(Fold(s), i)
  }

  /** Length of the match starting at `i`, 0 when there is none. */
  function MatchLength(s: string, i: nat): nat {
    match MatchAt(s, i)
    case Some(m) => m.Length()
    case None => 0
  }

  lemma LinksFit(s: string)
    ensures Fits(s, MatchLength)
  {
  }

  /** `SteamLinkRegex.Matches(html)`: every match, leftmost first, without overlap. */
  function LinkHits(s: string): (r: seq<Hit>)
    ensures forall k :: 0 <= k < |r| ==> r[k].End() <= |s| && MatchAt(s, r[k].start).Some?
    ensures forall k :: 0 <= k < |r| ==> r[k].len == MatchAt(s, r[k].start).value.Length()
  {
    LinksFit(s);
    Scan(s, 0, MatchLength)
  }

  /** `ExtractSteamLinks`: the text of every match, in document order. */
  function ExtractSteamLinks(s: string): (links: seq<string>)
    ensures |links| == |LinkHits(s)|
    ensures forall k :: 0 <= k < |links| ==> links[k] == s[LinkHits(s)[k].start..LinkHits(s)[k].End()]
  {
    var r := LinkHits(s);
    seq(|r|, k requires 0 <= k < |r| => s[r[k].start..r[k].End()])
  }

  /** `TryParseLobbyLink`: the first match of the pattern anywhere in the
      link, whose fields must fit `uint`, `ulong` and `ulong`. */
  function TryParseLobbyLink(link: string): (r: Option<LobbyRef>)
    ensures r.Some? ==> r.value.app <= MaxUInt32 && r.value.lobby <= MaxUInt64 && r.value.host <= MaxUInt64
  {
    var hits := LinkHits(link);
    if |hits| == 0 then None
    else
      var m := MatchAt(link, hits[0].start).value;
      var app := DigitsValue(m.app);
      var lobby := DigitsValue(m.lobby);
      var host := DigitsValue(m.host);
      if app <= MaxUInt32 && lobby <= MaxUInt64 && host <= MaxUInt64
      then Some(LobbyRef(app, lobby, host))
      else None
  }

  /** The canonical text of a lobby reference. */
  function FormatLink(r: LobbyRef): string {
    Prefix + NatToDecimal(r.app) + "/" + NatToDecimal(r.lobby) + "/" + NatToDecimal(r.host)
  }

  // ---------------------------------------------------------------------
  // Case insensitivity

  lemma LinkHitsFold(s: string)
    ensures LinkHits(Fold(s)) == LinkHits(s)
  {
    FoldIdempotent(s);
    assert forall j :: MatchLength(s, j) == MatchLength(Fold(s), j);
    LinksFit(s);
    LinksFit(Fold(s));
    ScanAgrees(s, Fold(s), 0, MatchLength);
  }

  /** Parsing ignores case, like the link index it feeds: two links with the
      same case-insensitive key parse to the same triple. */
  lemma ParseIgnoresCase(a: string, b: string)
    requires EqualsIgnoreCase(a, b)
    ensures TryParseLobbyLink(a) == TryParseLobbyLink(b)
  {
    LinkHitsFold(a);
    LinkHitsFold(b);
    FoldIdempotent(a);
    FoldIdempotent(b);
  }

  // ---------------------------------------------------------------------
  // Round trips

  lemma SlashedFieldIs(s: string, p: nat, n: nat)
    requires n > 0 && p + n < |s| && s[p + n] == '/'
    requires forall k :: p <= k < p + n ==> IsDigit(s[k])
    ensures SlashedField(s, p) == n
  {
    DigitRunIs(s, p, n);
  }

  lemma FieldsAtFrom(s: string, p: nat, na: nat, nb: nat, nc: nat)
    requires p + na + 1 + nb + 1 + nc <= |s| && na > 0 && nb > 0 && nc > 0
    requires SlashedField(s, p) == na && SlashedField(s, p + na + 1) == nb
    requires DigitRun(s, p + na + 1 + nb + 1) == nc
    ensures FieldsAt(s, p) == Some(LinkMatch(s[p..p + na], s[p + na + 1..p + na + 1 + nb],
                                            s[p + na + 1 + nb + 1..p + na + 1 + nb + 1 + nc]))
  {
  }

  /** Digits copied into a string are digits at their new places. */
  lemma DigitsAt(s: string, lo: nat, d: string)
    requires lo + |d| <= |s| && s[lo..lo + |d|] == d && AllDigits(d)
    ensures forall k :: lo <= k < lo + |d| ==> IsDigit(s[k])
  {
    forall k | lo <= k < lo + |d|
      ensures IsDigit(s[k])
    {
      assert s[k] == d[k - lo];
    }
  }

  /** Three digit strings laid out as `a/b/c` up to the end of `s` are the
      fields found there. */
  lemma FieldsAtOfParts(s: string, p: nat, a: string, b: string, c: string)
    requires |a| > 0 && |b| > 0 && |c| > 0 && AllDigits(a) && AllDigits(b) && AllDigits(c)
    requires p + |a| + 1 + |b| + 1 + |c| == |s|
    requires s[p..p + |a|] == a && s[p + |a|] == '/'
    requires s[p + |a| + 1..p + |a| + 1 + |b|] == b && s[p + |a| + 1 + |b|] == '/'
    requires s[p + |a| + 1 + |b| + 1..] == c
    ensures FieldsAt(s, p) == Some(LinkMatch(a, b, c))
  {
    var p2 := p + |a| + 1;
    var p3 := p2 + |b| + 1;
    DigitsAt(s, p, a);
    DigitsAt(s, p2, b);
    assert s[p3..p3 + |c|] == c;
    DigitsAt(s, p3, c);
    SlashedFieldIs(s, p, |a|);
    SlashedFieldIs(s, p2, |b|);
    DigitRunIs(s, p3, |c|);
    FieldsAtFrom(s, p, |a|, |b|, |c|);
  }

  /** Where the fields found at `p` come from. */
  lemma FieldsAtParts(s: string, p: nat)
    requires p <= |s| && FieldsAt(s, p).Some?
    ensures var m := FieldsAt(s, p).value;
      var p2 := p + |m.app| + 1;
      var p3 := p2 + |m.lobby| + 1;
      && s[p..p + |m.app|] == m.app && s[p + |m.app|] == '/'
      && s[p2..p2 + |m.lobby|] == m.lobby && s[p2 + |m.lobby|] == '/'
      && s[p3..p3 + |m.host|] == m.host
      && (p3 + |m.host| == |s| || !IsDigit(s[p3 + |m.host|]))
  {
  }

  /** The canonical text, piece by piece. */
  lemma FormattedParts(a: string, b: string, c: string)
    ensures var s := Prefix + a + "/" + b + "/" + c;
      var p := |Prefix|;
      && |s| == p + |a| + 1 + |b| + 1 + |c|
      && s[..p] == Prefix
      && s[p..p + |a|] == a && s[p + |a|] == '/'
      && s[p + |a| + 1..p + |a| + 1 + |b|] == b && s[p + |a| + 1 + |b|] == '/'
      && s[p + |a| + 1 + |b| + 1..] == c
  {
    var s := Prefix + a + "/" + b + "/" + c;
    var p := |Prefix|;
    assert s == Prefix + (a + ("/" + (b + ("/" + c))));
  }

  /** The canonical text has nothing to fold. */
  lemma FormattedFolded(a: string, b: string, c: string)
    requires AllDigits(a) && AllDigits(b) && AllDigits(c)
    ensures Fold(Prefix + a + "/" + b + "/" + c) == Prefix + a + "/" + b + "/" + c
  {
    DigitsAreFolded(a);
    DigitsAreFolded(b);
    DigitsAreFolded(c);
    assert Fold(Prefix) == Prefix;
    assert Fold("/") == "/";
    FoldAppend(Prefix, a);
    FoldAppend(Prefix + a, "/");
    FoldAppend(Prefix + a + "/", b);
    FoldAppend(Prefix + a + "/" + b, "/");
    FoldAppend(Prefix + a + "/" + b + "/", c);
  }

  /** A text that is one match from end to end scans as itself alone. */
  lemma SingleLink(s: string)
    requires |s| > 0 && MatchLength(s, 0) == |s|
    ensures LinkHits(s) == [Hit(0, |s|)]
    ensures ExtractSteamLinks(s) == [s]
  {
    LinksFit(s);
    ScanWhole(s, MatchLength);
    assert s[0..|s|] == s;
  }

  /** The canonical text of a triple in range scans as exactly one link,
      itself, and parses back to the triple. */
  lemma FormatLinkRoundTrip(r: LobbyRef)
    requires r.app <= MaxUInt32 && r.lobby <= MaxUInt64 && r.host <= MaxUInt64
    ensures ExtractSteamLinks(FormatLink(r)) == [FormatLink(r)]
    ensures TryParseLobbyLink(FormatLink(r)) == Some(r)
  {
    var a, b, c := NatToDecimal(r.app), NatToDecimal(r.lobby), NatToDecimal(r.host);
    var s := FormatLink(r);
    FormattedParts(a, b, c);
    FormattedFolded(a, b, c);
    FieldsAtOfParts(s, |Prefix|, a, b, c);
    assert PrefixAt(s, 0);
    assert MatchAt(s, 0) == Some(LinkMatch(a, b, c));
    SingleLink(s);
    DecimalRoundTrip(r.app);
    DecimalRoundTrip(r.lobby);
    DecimalRoundTrip(r.host);
  }

  /** Fields found at `p` are found again in a window that ends where they end. */
  lemma FieldsInWindow(f: string, lo: nat, hi: nat, p: nat)
    requires lo <= p <= hi <= |f|
    requires FieldsAt(f, p).Some?
    requires p + FieldsAt(f, p).value.Length() - |Prefix| == hi
    ensures FieldsAt(f[lo..hi], p - lo) == FieldsAt(f, p)
  {
    var m := FieldsAt(f, p).value;
    var w := f[lo..hi];
    var q := p - lo;
    FieldsAtParts(f, p);
    assert w[q..q + |m.app|] == m.app;
    assert w[q + |m.app| + 1..q + |m.app| + 1 + |m.lobby|] == m.lobby;
    assert w[q + |m.app| + 1 + |m.lobby| + 1..] == m.host;
    FieldsAtOfParts(w, q, m.app, m.lobby, m.host);
  }

  /** A match of the folded text, cut out of it, is the same match on its own. */
  lemma FoldedMatchInWindow(f: string, i: nat, j: nat)
    requires FoldedMatchAt(f, i).Some? && j == i + FoldedMatchAt(f, i).value.Length()
    ensures j <= |f| && FoldedMatchAt(f[i..j], 0) == FoldedMatchAt(f, i)
  {
    var w := f[i..j];
    assert w[0..|Prefix|] == f[i..i + |Prefix|];
    FieldsInWindow(f, i, j, i + |Prefix|);
  }

  /** The match at `i`, cut out of the text, is the same match on its own. */
  lemma MatchInWindow(s: string, i: nat, j: nat)
    requires MatchAt(s, i).Some? && j == i + MatchAt(s, i).value.Length()
    ensures j <= |s| && MatchAt(s[i..j], 0) == MatchAt(s, i)
  {
    FoldSlice(s, i, j);
    FoldedMatchInWindow(Fold(s), i, j);
  }

  /** A match cut out of the text scans as itself alone. */
  lemma WindowIsLink(s: string, i: nat, j: nat)
    requires MatchAt(s, i).Some? && j == i + MatchAt(s, i).value.Length()
    ensures j <= |s|
    ensures ExtractSteamLinks(s[i..j]) == [s[i..j]] && MatchAt(s[i..j], 0) == MatchAt(s, i)
  {
    MatchInWindow(s, i, j);
    SingleLink(s[i..j]);
  }

  /** Every extracted link is a complete link on its own: scanning it finds
      exactly itself, with the same three fields as in the document, so the
      registry parses what the scanner saw. */
  lemma ExtractedLinkIsLink(s: string, k: nat)
    requires k < |ExtractSteamLinks(s)|
    ensures ExtractSteamLinks(ExtractSteamLinks(s)[k]) == [ExtractSteamLinks(s)[k]]
    ensures MatchAt(ExtractSteamLinks(s)[k], 0) == MatchAt(s, LinkHits(s)[k].start)
  {
    var h := LinkHits(s)[k];
    WindowIsLink(s, h.start, h.End());
  }
}

=== FILE: text.dfy ===
/** Character and string primitives of the .NET runtime that the crawler and
    the plugin rely on, restricted to ASCII: white space, ordinal and
    ordinal-ignore-case comparison, digit filtering, and the integer parser
    behind `int.TryParse` / `long.TryParse` with `NumberStyles.Integer`. */
module Text {
  import opened Wrappers

  const MinInt32: int := -0x8000_0000
  const MaxInt32: int := 0x7FFF_FFFF
  const MinInt64: int := -0x8000_0000_0000_0000
  const MaxInt64: int := 0x7FFF_FFFF_FFFF_FFFF
  const MaxUInt32: int := 0xFFFF_FFFF
  const MaxUInt64: int := 0xFFFF_FFFF_FFFF_FFFF

  // ---------------------------------------------------------------------
  // White space

  /** The white-space characters accepted by `NumberStyles.AllowLeadingWhite`
      and, restricted to ASCII, by `char.IsWhiteSpace`. */
  predicate IsWhiteSpace(c: char) {
    c == ' ' || (9 <= c as int <= 13)
  }

  /** `string.IsNullOrWhiteSpace` for a non-null string. */
  predicate IsBlank(s: string) {
    forall i :: 0 <= i < |s| ==> IsWhiteSpace(s[i])
  }

  /** `string.IsNullOrWhiteSpace` for a string that may be null. */
  predicate IsBlankOrNull(s: Option<string>) {
    s.None? || IsBlank(s.value)
  }

  function TrimStart(s: string): (r: string)
    ensures |r| <= |s| && r == s[|s| - |r|..]
    ensures |r| > 0 ==> !IsWhiteSpace(r[0])
    ensures forall i :: 0 <= i < |s| - |r| ==> IsWhiteSpace(s[i])
  {
    if |s| > 0 && IsWhiteSpace(s[0]) then TrimStart(s[1..]) else s
  }

  function TrimEnd(s: string): (r: string)
    ensures |r| <= |s| && r == s[..|r|]
    ensures |r| > 0 ==> !IsWhiteSpace(r[|r| - 1])
    ensures forall i :: |r| <= i < |s| ==> IsWhiteSpace(s[i])
  {
    if |s| > 0 && IsWhiteSpace(s[|s| - 1]) then TrimEnd(s[..|s| - 1]) else s
  }

  /** `string.Trim()`: drops leading and trailing white space. */
  function Trim(s: string): string {
    TrimEnd(TrimStart(s))
  }

  /** A string that neither starts nor ends with white space is its own trim. */
  lemma TrimUnchanged(s: string)
    requires |s| > 0 ==> !IsWhiteSpace(s[0]) && !IsWhiteSpace(s[|s| - 1])
    ensures Trim(s) == s
  {
  }

  // ---------------------------------------------------------------------
  // Case folding (StringComparison.OrdinalIgnoreCase on ASCII)

  function Lower(c: char): char {
    if 'A' <= c <= 'Z' then (c as int + 32) as char else c
  }

  /** The canonical key of a string under ordinal-ignore-case comparison. */
  function Fold(s: string): (r: string)
    ensures |r| == |s|
    ensures forall i :: 0 <= i < |s| ==> r[i] == Lower(s[i])
  {
    seq(|s|, i requires 0 <= i < |s| => Lower(s[i]))
  }

  lemma FoldAppend(a: string, b: string)
    ensures Fold(a + b) == Fold(a) + Fold(b)
  {
  }

  lemma FoldSlice(s: string, i: nat, j: nat)
    requires i <= j <= |s|
    ensures Fold(s[i..j]) == Fold(s)[i..j]
  {
  }

  lemma FoldIdempotent(s: string)
    ensures Fold(Fold(s)) == Fold(s)
  {
  }

  predicate EqualsIgnoreCase(a: string, b: string) {
    Fold(a) == Fold(b)
  }

  /** `s.StartsWith(p, StringComparison.OrdinalIgnoreCase)`. */
  predicate StartsWithIgnoreCase(s: string, p: string) {
    |p| <= |s| && Fold(s[..|p|]) == Fold(p)
  }

  /** `t` occurs in `s` starting at index `i`. */
  predicate OccursAt(s: string, t: string, i: int) {
    0 <= i <= |s| - |t| && s[i..i + |t|] == t
  }

  /** `s.Contains(t, StringComparison.Ordinal)`. */
  predicate Contains(s: string, t: string) {
    exists i | 0 <= i <= |s| - |t| :: OccursAt(s, t, i)
  }

  /** `s.Contains(t, StringComparison.OrdinalIgnoreCase)`. */
  predicate ContainsIgnoreCase(s: string, t: string) {
    Contains(Fold(s), Fold(t))
  }

  /** `s.Replace(from, to)` for single characters. */
  function ReplaceChar(s: string, from: char, to: char): (r: string)
    ensures |r| == |s|
    ensures forall i :: 0 <= i < |s| ==> r[i] == (if s[i] == from then to else s[i])
  {
    seq(|s|, i requires 0 <= i < |s| => if s[i] == from then to else s[i])
  }

  // ---------------------------------------------------------------------
  // Digits and decimal numbers

  predicate IsDigit(c: char) {
    '0' <= c <= '9'
  }

  predicate AllDigits(s: string) {
    forall i :: 0 <= i < |s| ==> IsDigit(s[i])
  }

  lemma DigitsAreFolded(s: string)
    requires AllDigits(s)
    ensures Fold(s) == s
  {
  }

  lemma DigitsAreNotBlank(s: string)
    requires AllDigits(s) && |s| > 0
    ensures !IsBlank(s)
  {
    assert !IsWhiteSpace(s[0]);
  }

  /** A numeral is blank exactly when it is empty. */
  lemma DigitsBlankIff(s: string)
    requires AllDigits(s)
    ensures IsBlank(s) <==> |s| == 0
  {
    if |s| > 0 {
      DigitsAreNotBlank(s);
    }
  }

  /** The digits of `s`, in order: `new string(s.Where(char.IsDigit))`. */
  function DigitsOnly(s: string): (r: string)
    ensures AllDigits(r)
    ensures |r| <= |s|
  {
    if |s| == 0 then ""
    else (if IsDigit(s[0]) then [s[0]] else []) + DigitsOnly(s[1..])
  }

  predicate HasDigit(s: string) {
    exists i | 0 <= i < |s| :: IsDigit(s[i])
  }

  /** Filtering keeps exactly the digits: nothing is lost and nothing is added. */
  lemma {:induction false} DigitsOnlyEmptyIff(s: string)
    ensures |DigitsOnly(s)| == 0 <==> !HasDigit(s)
  {
    if |s| > 0 {
      DigitsOnlyEmptyIff(s[1..]);
      if !IsDigit(s[0]) {
        assert HasDigit(s) ==> HasDigit(s[1..]) by {
          if HasDigit(s) {
            var i :| 0 <= i < |s| && IsDigit(s[i]);
            assert s[1..][i - 1] == s[i];
          }
        }
        assert HasDigit(s[1..]) ==> HasDigit(s) by {
          if HasDigit(s[1..]) {
            var i :| 0 <= i < |s[1..]| && IsDigit(s[1..][i]);
            assert s[i + 1] == s[1..][i];
          }
        }
      }
    }
  }

  /** A string that is all digits is unchanged by the filter. */
  lemma {:induction false} DigitsOnlyOfDigits(s: string)
    requires AllDigits(s)
    ensures DigitsOnly(s) == s
  {
    if |s| > 0 {
      DigitsOnlyOfDigits(s[1..]);
      assert s == [s[0]] + s[1..];
    }
  }

  /** Length of the run of digits starting at `i` (greedy `\d*`). */
  function DigitRun(s: string, i: nat): (n: nat)
    requires i <= |s|
    ensures i + n <= |s|
    ensures forall k :: i <= k < i + n ==> IsDigit(s[k])
    ensures i + n == |s| || !IsDigit(s[i + n])
    decreases |s| - i
  {
    if i < |s| && IsDigit(s[i]) then 1 + DigitRun(s, i + 1) else 0
  }

  /** A digit run is as long as the digits that are there. */
  lemma {:induction false} DigitRunIs(s: string, i: nat, n: nat)
    requires i + n <= |s|
    requires forall k :: i <= k < i + n ==> IsDigit(s[k])
    requires i + n == |s| || !IsDigit(s[i + n])
    ensures DigitRun(s, i) == n
    decreases n
  {
    if n > 0 {
      DigitRunIs(s, i + 1, n - 1);
    }
  }

  function DigitValue(c: char): nat
    requires IsDigit(c)
  {
    c as int - '0' as int
  }

  function DigitChar(d: nat): (c: char)
    requires d < 10
    ensures IsDigit(c) && DigitValue(c) == d
  {
    ('0' as int + d) as char
  }

  /** The value of a decimal numeral (leading zeros allowed). */
  function DigitsValue(s: string): nat
    requires AllDigits(s)
  {
    if |s| == 0 then 0 else DigitsValue(s[..|s| - 1]) * 10 + DigitValue(s[|s| - 1])
  }

  /** The shortest decimal numeral of `n`, as `n.ToString()` prints it. */
  function NatToDecimal(n: nat): (r: string)
    ensures |r| > 0 && AllDigits(r)
    ensures r[0] == '0' ==> n == 0
  {
    if n < 10 then [DigitChar(n)] else NatToDecimal(n / 10) + [DigitChar(n % 10)]
  }

  /** Reading back a printed number gives the number: the parser is a left
      inverse of the printer. */
  lemma {:induction false} DecimalRoundTrip(n: nat)
    ensures DigitsValue(NatToDecimal(n)) == n
  {
    var r := NatToDecimal(n);
    if n >= 10 {
      DecimalRoundTrip(n / 10);
      assert r[..|r| - 1] == NatToDecimal(n / 10);
    }
  }

  lemma DecimalNotBlank(n: nat)
    ensures !IsBlank(NatToDecimal(n))
  {
    DigitsAreNotBlank(NatToDecimal(n));
  }

  /** Signed decimal rendering: `n.ToString()` for an `int` or `long`. */
  function IntToDecimal(n: int): (r: string)
    ensures |r| > 0
  {
    if n < 0 then "-" + NatToDecimal(-n) else NatToDecimal(n)
  }

  // ---------------------------------------------------------------------
  // Integer parsing

  /** `TryParse` with `NumberStyles.Integer` and an invariant culture:
      optional surrounding white space, an optional `+` or `-` sign and at
      least one ASCII digit; the value must lie in `[lo, hi]`. */
  function ParseInteger(s: string, lo: int, hi: int): (r: Option<int>)
    ensures r.Some? ==> lo <= r.value <= hi
  {
    var t := Trim(s);
    if |t| == 0 then None
    else
      var negative := t[0] == '-';
      var body := if t[0] == '-' || t[0] == '+' then t[1..] else t;
      if |body| == 0 || !AllDigits(body) then None
      else
        var v: int := if negative then -(DigitsValue(body) as int) else DigitsValue(body);
        if lo <= v <= hi then Some(v) else None
  }

  /** On a numeral the parser returns its value exactly when it is in range. */
  lemma ParseDigits(s: string, lo: int, hi: int)
    requires |s| > 0 && AllDigits(s)
    ensures ParseInteger(s, lo, hi) == if lo <= DigitsValue(s) <= hi then Some(DigitsValue(s)) else None
  {
    assert !IsWhiteSpace(s[0]) && !IsWhiteSpace(s[|s| - 1]);
    TrimUnchanged(s);
  }

  /** Printing then parsing an integer in range gives it back, sign included. */
  lemma IntRoundTrip(n: int, lo: int, hi: int)
    requires lo <= n <= hi
    ensures ParseInteger(IntToDecimal(n), lo, hi) == Some(n)
  {
    var s := IntToDecimal(n);
    if n < 0 {
      var d := NatToDecimal(-n);
      DecimalRoundTrip(-n);
      assert s == "-" + d;
      assert s[1..] == d;
      assert !IsWhiteSpace(s[0]) && !IsWhiteSpace(s[|s| - 1]) by {
        assert s[|s| - 1] == d[|d| - 1];
      }
      TrimUnchanged(s);
    } else {
      DecimalRoundTrip(n);
      ParseDigits(s, lo, hi);
    }
  }
}

=== FILE: validation.dfy ===
/** Steam validation of queued lobbies: `ProcessLobbyChecks` dispatches up
    to four queued ids per frame, and `OnLobbyDataUpdated` applies Steam's
    answer to the entry indexed under the lobby id. What Steam answers is a
    parameter: whether each request was accepted, whether the lookup
    succeeded and the member counts it reports. */
module Validation {
  import opened Wrappers
  import opened Text
  import opened SteamLinks
  import opened Lobby
  import opened Registry
  import opened Joining

  /** Whether the `i`-th dispatched request was accepted by Steam; a request
      with no recorded answer counts as refused, like a thrown exception. */
  predicate Accepted(requested: seq<bool>, i: nat) {
    i < |requested| && requested[i]
  }

  /** The number of refused requests among the first `n`. */
  function Rejections(requested: seq<bool>, n: nat): (k: nat)
    ensures k <= n
  {
    if n == 0 then 0 else Rejections(requested, n - 1) + (if Accepted(requested, n - 1) then 0 else 1)
  }

  /** Every id in the id index names a live entry. */
  ghost predicate IdsLive(r: Registry) {
    forall id :: id in r.byId ==> r.byId[id] in r.heap
  }

  /** The entries indexed under the ids among the first `n` of `q` whose
      request was refused. */
  function RefusedEntries(r: Registry, q: seq<nat>, requested: seq<bool>, n: nat): (hs: set<nat>)
    requires n <= |q|
    ensures forall i :: 0 <= i < n && !Accepted(requested, i) && q[i] in r.byId ==> r.byId[q[i]] in hs
    ensures hs <= r.byId.Values
  {
    if n == 0 then {}
    else
      RefusedEntries(r, q, requested, n - 1)
      + (if !Accepted(requested, n - 1) && q[n - 1] in r.byId then {r.byId[q[n - 1]]} else {})
  }

  lemma ResolvedIdsLive(r: Registry)
    requires IdsResolve(r)
    ensures IdsLive(r)
  {
  }

  /** The entry after a refusal. */
  function Unavailable(e: LobbyEntry): LobbyEntry {
    e.(pending := false, status := SteamUnavailable)
  }

  /** A refused request: the indexed entry is no longer pending and Steam is
      taken to be unavailable; the change counter moves in any case. */
  function Refuse(r: Registry, id: nat): (r': Registry)
    requires id in r.byId ==> r.byId[id] in r.heap
    ensures r'.(heap := r.heap, version := r.version) == r && r'.version == r.version + 1
    ensures r'.heap.Keys == r.heap.Keys
    ensures forall g :: g in r.heap ==>
              r'.heap[g] == if id in r.byId && r.byId[id] == g then Unavailable(r.heap[g]) else r.heap[g]
  {
    var r1 := if id in r.byId then r.(heap := r.heap[r.byId[id] := Unavailable(r.heap[r.byId[id]])]) else r;
    r1.(version := r1.version + 1)
  }

  /** The effect of the first `n` requests for the ids in `q`, in order. */
  function Requests(r: Registry, q: seq<nat>, requested: seq<bool>, n: nat): (r': Registry)
    requires n <= |q| && IdsLive(r)
    ensures r'.(heap := r.heap, version := r.version) == r
    ensures r'.version == r.version + Rejections(requested, n)
    ensures r'.heap.Keys == r.heap.Keys
    ensures forall g :: g in r.heap ==> r'.heap[g] == r.heap[g] || r'.heap[g] == Unavailable(r.heap[g])
    decreases n
  {
    if n == 0 then r
    else
      var r1 := Requests(r, q, requested, n - 1);
      if Accepted(requested, n - 1) then r1 else Refuse(r1, q[n - 1])
  }

  /** Only entries indexed under a refused id change. */
  lemma {:induction false} RequestsOnlyRefused(r: Registry, q: seq<nat>, requested: seq<bool>, n: nat, g: nat)
    requires n <= |q| && IdsLive(r) && g in r.heap
    requires Requests(r, q, requested, n).heap[g] != r.heap[g]
    ensures g in RefusedEntries(r, q, requested, n)
  {
    var r1 := Requests(r, q, requested, n - 1);
    if r1.heap[g] != r.heap[g] {
      RequestsOnlyRefused(r, q, requested, n - 1, g);
    }
  }

  /** Every refused, indexed entry ends up unavailable. */
  lemma {:induction false} RequestsRefuse(r: Registry, q: seq<nat>, requested: seq<bool>, n: nat, i: nat)
    requires n <= |q| && IdsLive(r) && i < n && !Accepted(requested, i) && q[i] in r.byId
    ensures Requests(r, q, requested, n).heap[r.byId[q[i]]] == Unavailable(r.heap[r.byId[q[i]]])
  {
    var g := r.byId[q[i]];
    var r1 := Requests(r, q, requested, n - 1);
    assert r1.byId == r.byId && g in r1.heap;
    if i < n - 1 {
      RequestsRefuse(r, q, requested, n - 1, i);
      assert r1.heap[g] == Unavailable(r.heap[g]);
      if !Accepted(requested, n - 1) {
        var r2 := Refuse(r1, q[n - 1]);
        assert r2.heap[g] == r1.heap[g] || r2.heap[g] == Unavailable(r1.heap[g]);
      }
    } else {
      assert r1.heap[g] == r.heap[g] || r1.heap[g] == Unavailable(r.heap[g]);
    }
  }

  /** `ProcessLobbyChecks`: dequeue at most `MaxLobbyChecksPerFrame` ids and
      request each lobby's data. */
  function ProcessLobbyChecks(r: Registry, requested: seq<bool>): (r': Registry)
    requires IdsLive(r)
    ensures var n := if |r.queue| < MaxLobbyChecksPerFrame then |r.queue| else MaxLobbyChecksPerFrame;
      && r.queue == r.queue[..n] + r'.queue
      && r'.version == r.version + Rejections(requested, n)
  {
    var n := if |r.queue| < MaxLobbyChecksPerFrame then |r.queue| else MaxLobbyChecksPerFrame;
    Requests(r, r.queue, requested, n).(queue := r.queue[n..])
  }

  /** A frame dequeues exactly `min(4, |queue|)` ids and moves the change
      counter once per refused request. */
  lemma ProcessLobbyChecksDequeues(r: Registry, requested: seq<bool>)
    requires IdsLive(r)
    ensures var r' := ProcessLobbyChecks(r, requested);
            var n := if |r.queue| < MaxLobbyChecksPerFrame then |r.queue| else MaxLobbyChecksPerFrame;
      && r.queue == r.queue[..n] + r'.queue
      && r'.version == r.version + Rejections(requested, n)
  {
  }

  /** A frame marks exactly the refused, indexed entries SteamUnavailable
      and not pending; entries whose request was accepted stay pending
      until Steam answers. */
  lemma ProcessLobbyChecksMarks(r: Registry, requested: seq<bool>)
    requires IdsLive(r)
    ensures var r' := ProcessLobbyChecks(r, requested);
            var n := if |r.queue| < MaxLobbyChecksPerFrame then |r.queue| else MaxLobbyChecksPerFrame;
      && (forall i :: 0 <= i < n && !Accepted(requested, i) && r.queue[i] in r.byId ==>
            r'.heap[r.byId[r.queue[i]]] == Unavailable(r.heap[r.byId[r.queue[i]]]))
      && (forall g :: g in r.heap && g !in RefusedEntries(r, r.queue, requested, n) ==> r'.heap[g] == r.heap[g])
  {
    var n := if |r.queue| < MaxLobbyChecksPerFrame then |r.queue| else MaxLobbyChecksPerFrame;
    forall i | 0 <= i < n && !Accepted(requested, i) && r.queue[i] in r.byId {
      RequestsRefuse(r, r.queue, requested, n, i);
    }
    forall g | g in r.heap && Requests(r, r.queue, requested, n).heap[g] != r.heap[g] {
      RequestsOnlyRefused(r, r.queue, requested, n, g);
    }
  }

  lemma RequestsSameLobby(r: Registry, q: seq<nat>, requested: seq<bool>, n: nat)
    requires n <= |q| && IdsResolve(r) && IdsLive(r)
    ensures forall g :: g in r.heap ==> SameLobby(r.heap[g], Requests(r, q, requested, n).heap[g])
  {
    var r1 := Requests(r, q, requested, n);
    forall g | g in r.heap ensures SameLobby(r.heap[g], r1.heap[g]) {
      if r1.heap[g] != r.heap[g] {
        RequestsOnlyRefused(r, q, requested, n, g);
        var id :| id in r.byId && r.byId[id] == g;
        assert TryParseLobbyLink(r.heap[g].link).Some?;
      }
    }
  }

  lemma DequeueKeepsInv(r: Registry, n: nat)
    requires Inv(r) && n <= |r.queue|
    ensures Inv(r.(queue := r.queue[n..]))
  {
    var r' := r.(queue := r.queue[n..]);
    SameLinksKeep(r, r');
    assert IdsResolve(r');
    assert EntriesInvExcept(r', Option.None);
    assert QueueIndexed(r') by {
      forall i | 0 <= i < |r'.queue| ensures r'.queue[i] in r'.byId {
        assert r'.queue[i] == r.queue[n + i];
      }
    }
  }

  /** A frame keeps the registry invariant. */
  lemma ProcessLobbyChecksInv(r: Registry, requested: seq<bool>)
    requires Inv(r)
    ensures IdsLive(r) && Inv(ProcessLobbyChecks(r, requested))
  {
    ResolvedIdsLive(r);
    var n := if |r.queue| < MaxLobbyChecksPerFrame then |r.queue| else MaxLobbyChecksPerFrame;
    var r1 := Requests(r, r.queue, requested, n);
    assert r1.byId == r.byId && r1.queue == r.queue && r1.order == r.order && r1.byLink == r.byLink;
    RequestsSameLobby(r, r.queue, requested, n);
    SameLobbyKeepsInv(r, r1);
    DequeueKeepsInv(r1, n);
  }

  // ---------------------------------------------------------------------
  // Steam's answer

  /** What the member lookup of a successful answer produced. */
  datatype MemberQuery = Members(count: int, limit: int) | QueryFailed

  /** Status and counts from a successful member lookup: Full when a
      positive limit is reached, Valid otherwise. */
  function Counted(e: LobbyEntry, count: int, limit: int): (r: LobbyEntry)
    ensures r.status == Full <==> limit > 0 && count >= limit
    ensures r.status == Valid <==> !(limit > 0 && count >= limit)
    ensures r == e.(status := r.status, memberCount := count, memberLimit := limit)
  {
    e.(status := if limit > 0 && count >= limit then Full else Valid, memberCount := count, memberLimit := limit)
  }

  /** The entry after Steam's answer, before any join attempt. */
  function Answered(e: LobbyEntry, succeeded: bool, query: MemberQuery): (r: LobbyEntry)
    ensures !r.pending && r.link == e.link
    ensures !succeeded ==> r == Mark(e, Invalid).(pending := false)
    ensures succeeded && query.QueryFailed? ==> r == Mark(e, SteamUnavailable).(pending := false)
    ensures succeeded && query.Members? ==> r == Counted(e, query.count, query.limit).(pending := false)
  {
    var p := e.(pending := false);
    if !succeeded then Mark(p, Invalid)
    else match query
      case Members(count, limit) => Counted(p, count, limit)
      case QueryFailed => Mark(p, SteamUnavailable)
  }

  /** `OnLobbyDataUpdated`: an answer for an unindexed id is ignored;
      otherwise the entry takes the answer, a Valid lobby is offered to the
      automatic join, and the change counter moves. */
  function OnLobbyDataUpdated(r: Registry, cfg: Config, now: nat, lobbyId: nat, succeeded: bool,
                              query: MemberQuery, launchOk: bool): (j: Joined)
    requires IdsLive(r)
    ensures lobbyId !in r.byId ==> j == Joined(r, Skipped)
    ensures lobbyId in r.byId ==> j.registry.version == r.version + 1
  {
    if lobbyId !in r.byId then Joined(r, Skipped)
    else
      var h := r.byId[lobbyId];
      var e := Answered(r.heap[h], succeeded, query);
      AfterAnswer(r.(heap := r.heap[h := e]), cfg, now, e, launchOk)
  }

  /** After the entry is answered: a Valid lobby is offered to the
      auto-join gate, and the registry's version moves on. */
  function AfterAnswer(r1: Registry, cfg: Config, now: nat, e: LobbyEntry, launchOk: bool): (j: Joined)
    ensures j.registry.version == r1.version + 1
    ensures e.status != Valid ==> j == Joined(r1.(version := r1.version + 1), Skipped)
  {
    var j := if e.status == Valid then TryJoinLobby(r1, cfg, now, e.link, false, launchOk) else Joined(r1, Skipped);
    j.(registry := j.registry.(version := j.registry.version + 1))
  }

  /** The answered entry: pending is over, and a lookup failure means
      Invalid, a failing member query SteamUnavailable, both with the counts
      cleared; counts from Steam give Full or Valid. Only a Valid answer can
      lead to a join; the join goes through the link index, so it marks the
      answered entry when that entry is still listed under its link. Other
      entries change in their join flag at most. */
  lemma OnLobbyDataUpdatedEffect(r: Registry, cfg: Config, now: nat, lobbyId: nat, succeeded: bool,
                                 query: MemberQuery, launchOk: bool)
    requires IdsLive(r) && lobbyId in r.byId
    ensures var j := OnLobbyDataUpdated(r, cfg, now, lobbyId, succeeded, query, launchOk);
            var h := r.byId[lobbyId];
      && h in j.registry.heap && !j.registry.heap[h].pending
      && var e := j.registry.heap[h];
      && (!succeeded ==> e.status == Invalid && e.memberCount == -1 && e.memberLimit == -1)
      && (succeeded && query.QueryFailed? ==> e.status == SteamUnavailable && e.memberCount == -1 && e.memberLimit == -1)
      && (succeeded && query.Members? ==>
            e.memberCount == query.count && e.memberLimit == query.limit
            && (e.status == Full <==> query.limit > 0 && query.count >= query.limit)
            && (e.status == Valid <==> !(query.limit > 0 && query.count >= query.limit)))
      && (j.outcome != Skipped ==> succeeded && query.Members? && e.status == Valid)
      && (j.outcome != Skipped && Fold(e.link) in r.byLink && r.byLink[Fold(e.link)] == h ==> e.autoJoinAttempted)
      && (forall g :: g in r.heap && g != h ==>
            g in j.registry.heap && (j.registry.heap[g] == r.heap[g] || j.registry.heap[g] == r.heap[g].(autoJoinAttempted := true)))
      && j.registry.queue == r.queue && j.registry.byId == r.byId
  {
  }

  /** The join offer and the counter bump after storing an answer keep the
      invariant. */
  lemma JoinAndBumpInv(r1: Registry, cfg: Config, now: nat, e: LobbyEntry, launchOk: bool)
    requires Inv(r1)
    ensures Inv(AfterAnswer(r1, cfg, now, e, launchOk).registry)
  {
    if e.status == Valid {
      TryJoinLobbyInv(r1, cfg, now, e.link, false, launchOk);
      VersionKeepsInv(TryJoinLobby(r1, cfg, now, e.link, false, launchOk).registry);
    } else {
      VersionKeepsInv(r1);
    }
  }

  /** Steam's answer keeps the registry invariant. */
  lemma OnLobbyDataUpdatedInv(r: Registry, cfg: Config, now: nat, lobbyId: nat, succeeded: bool,
                              query: MemberQuery, launchOk: bool)
    requires Inv(r)
    ensures IdsLive(r) && Inv(OnLobbyDataUpdated(r, cfg, now, lobbyId, succeeded, query, launchOk).registry)
  {
    ResolvedIdsLive(r);
    if lobbyId in r.byId {
      var h := r.byId[lobbyId];
      var e := Answered(r.heap[h], succeeded, query);
      assert TryParseLobbyLink(r.heap[h].link).Some?;
      UpdateOneKeepsInv(r, h, e);
      JoinAndBumpInv(r.(heap := r.heap[h := e]), cfg, now, e, launchOk);
    }
  }
}

=== FILE: wrappers.dfy ===
/** Failure-compatible optional values, used wherever the source returns
    null, a `TryParse` failure or "no match". */
module Wrappers {

  datatype Option<+T> = None | Some(value: T) {

    /** Returns the value inside `Some`, or `default` for `None`. */
    function GetOr(default: T): T {
      match this
      case Some(v) => v
      case None => default
    }
  }
}
